=== FILE: README.md ===
# House sensor pipeline and companion handlers, in Dafny

This project models the logic of a small Go web application. Most of it is a
house temperature pipeline:

- Sensors post readings: a serial, a value and an RFC 3339 timestamp.
- The handler validates them and enqueues them in chunks of at most 100 pull tasks.
- A drain leases up to 1000 tasks at a time. For each sensor it merges the new readings with the cached series, sorts newest first, and keeps 250. It then rewrites the cached "current" snapshot and deletes the leased tasks.
- A renderer reads the cache back and decides, room by room, how the house image is drawn.

The earlier revision of the same pipeline (`westspy/`) is modelled next to it, because its failure and termination rules differ. Alongside the pipeline the project models:

- the CouchDB bridge's timestamp parser, form building, batching and retry count (`tools/couch2gae`)
- the mail relay
- the S3 signed-URL redirect
- the personal pages' template names and page paths
- the GitHub feed cap

Everything is pure. Readings, rooms, rectangles and cache items are immutable datatypes.

- **Queue and cache.** The task queue is a `multiset` of tasks and memcache is a `map` from key to blob. A batch step is a function from an environment answer and the state to a result.
- **Outside services.** What the services answer (lease, get, set, delete, persist, post) is an input.
- **Library code.** Float parsing, RFC 3339 parsing, JSON, `%.2f`, HMAC-SHA1, Base64 and query escaping are function parameters.
- **Floats.** Floating-point values are `real`.
- **Panics.** A Go panic is a distinct outcome: `None`, or a constructor such as `Panicked`, `IngestPanicked`, `ServerPanicked` or `MailPanicked`. Where work done before the panic persists, the outcome carries the state it left.
- **Integers.** Go's truncating division is `Util.GoDiv`, and 64-bit wrap-around is `Couch2gae.WrapInt64`.

Modules, one per source component:

| module | file |
|---|---|
| `Util` | `Option`, `Result`, chunking and flattening, truncating division |
| `GoText` | decimal formatting and parsing of integers, prefix and suffix tests |
| `Memcache` | bulk get and set on the cache map |
| `HouseData` | readings, keys, ordering and sort |
| `HouseConfig` | rooms and the serial index |
| `HouseIngest` | input validation, chunked enqueue and persistence chunks |
| `HouseBatch` | batch merge and the drain |
| `HouseRender` | renderer decisions and geometry |
| `Westspy` | the earlier revision |
| `Couch2gae` | the CouchDB bridge |
| `Mail` | the mail relay |
| `Redirect` | the signed-URL redirect |
| `DustinPages` | template names and page paths |
| `DustinAtom` | the GitHub feed cap |

`westspy/data.go` has the same `Len`, `Less`, `Swap` and `Sort` as `house/data.go`, so the `HouseData` members model both.

Where the code's behaviour may be surprising, the model follows the code:

- **Validation and enqueueing are interleaved, not atomic.** A bad element after index 100 leaves the full chunks before it enqueued.
- **Both bounds get the gradient.** A reading exactly at a room's minimum or maximum is drawn with the gradient, not a solid colour.
- **A failed write is swallowed.** When the persist or the cache write fails, `processBatch` returns `(0, nil)` and deletes nothing, so the drain ends with 204.
- **A failed bulk read shrinks "current".** When the bulk read of the cache fails, the "current" snapshot written back holds only the serials of the leased batch.
- **The westspy drain.** It stops only on an empty lease, never on a short one.
- **A NaN or infinite reading panics.** `strconv.ParseFloat` accepts "NaN" and "Inf", but `json.Marshal` refuses them, and the handler panics after the chunks before that element were enqueued.
- **A failed delete panics after the cache write.** The leased tasks stay queued, so their readings are merged into the cached series again when they are leased next.

## Model

| member | source | states |
|---|---|---|
| HouseData.KeyCollision | house/data.go:18-20 | two readings with valid timestamps share a key exactly when they have the same serial and the same civil second |
| HouseData.KeyShape | house/data.go:8-20 | a key is the 14-digit `20060102150405` stamp, `_`, then the serial |
| HouseData.StampShape | house/data.go:8 | the stamp's six fixed-width slices read back as year, month, day, hour, minute and second |
| HouseData.Len | house/data.go:25-27 | the length of the series |
| HouseData.LessIsStrictWeakOrder | house/data.go:29-31 | `Less` is irreflexive, asymmetric and transitive; it leaves two readings unordered exactly when their instants are equal |
| HouseData.Swap | house/data.go:33-35 | the two positions are exchanged, every other position is unchanged, and the multiset is kept |
| HouseData.Sort | house/data.go:38-40 | the result is a permutation of the input with non-increasing instants |
| HouseData.InsertKeepsOrder | house/data.go:38-40 | inserting a reading into a newest-first series keeps it newest first |
| HouseData.SortBySwaps | house/data.go:25-40 | sorting through `Len`, `Less` and `Swap` alone yields a newest-first permutation |
| HouseData.NewestAreMostRecent | house/input.go:216-219 | sorting and cutting to `n` keeps readings drawn from the input, each at least as recent as every dropped one |
| HouseConfig.SparkWidth | house/config.go:33-38 | the spark width when it is non-zero, else the room width |
| HouseConfig.NameOf | house/config.go:53-59 | the indexed room's name, or the serial itself when no room is indexed under it |
| HouseConfig.BySerial | house/config.go:62-64 | a lookup in the serial index, absent exactly when the serial is not indexed |
| HouseConfig.LoadConfig | house/config.go:67-90 | open and decode errors are returned as they are; on success every room is named after its key and indexed under its serial, or under its key when the serial is empty |
| HouseConfig.LoadedNames | house/config.go:79-87 | every indexed serial comes from a room whose name is its key, and every room's index serial finds a room |
| HouseIngest.PrepareOne | house/input.go:39-59 | a bad value is reported before a bad timestamp; a NaN or infinite value with a good timestamp panics in the encoding; otherwise the payload is the serial, value and timestamp |
| HouseIngest.Ingest | house/input.go:79-111 | the validate-and-flush loop produces exactly the reference outcome `IngestOutcome` |
| HouseIngest.HandleInput | house/input.go:65-120 | a remote address outside the whitelist gets 403 and enqueues nothing; otherwise the outcome is the ingest outcome |
| HouseIngest.AcceptedIffAllGood | house/input.go:79-119 | 202 exactly when the arrays have equal length, every element prepares and every add succeeds; then the enqueued calls flatten to all tasks in input order |
| HouseIngest.EnqueuedInOrder | house/input.go:86-111 | every add call carries 1 to 100 tasks, and together they are a prefix of the prepared tasks in input order |
| HouseIngest.LateBadElementKeepsEarlierChunks | house/input.go:87-101 | a bad element at index `i` gives 400, or a panic when its value is NaN or infinite, with the `i / 100` full chunks before it already enqueued |
| HouseIngest.PersistReadings | house/input.go:129-158 | when disabled, no calls are made; otherwise the calls are a prefix of the chunks of 100 of the reading keys in order, all of them when nothing fails, and a failure is reported exactly when a call failed, which is then the last call |
| HouseIngest.ConsumeErrors | house/input.go:242-249 | no error exactly when every error is nil, otherwise the last error received |
| HouseBatch.SeriesKeys | house/input.go:184-187 | the series keys are exactly `r-` plus a leased serial, and never `current` |
| HouseBatch.ForSerial | house/input.go:176-179 | a serial's readings in the batch: only that serial's readings, each with its multiplicity in the batch |
| HouseBatch.StoredSeries | house/input.go:201-226 | a stored series is newest first, at most 250 long, and drawn from the new plus the decodable cached readings; if there are at most 250 it holds all of them, and no reading dropped is later than one kept |
| HouseBatch.CurrentIsNewest | house/input.go:194-220 | the new snapshot covers the old serials plus the leased ones; a leased serial's value is that of its newest reading, and every other serial keeps its cached value |
| HouseBatch.MultigetFailureDropsOtherSensors | house/input.go:189-199 | after a failed bulk read the snapshot holds exactly the leased serials |
| HouseBatch.BatchCacheEffect | house/input.go:184-229 | the cache after a written batch: the snapshot and the leased series are replaced, and every other key is unchanged |
| HouseBatch.ProcessBatch | house/input.go:160-240 | a lease error is returned with nothing done; an empty lease does nothing; a write failure returns `(0, nil)` with the batch still queued; when the writes and the delete succeed, the leased tasks are removed, the merged items are cached, and their count is returned; a failed delete panics with the cache written and the batch still queued |
| HouseBatch.WriteFailureIsSwallowed | house/input.go:232-235 | a failed cache write returns zero, no error, and the same state |
| HouseBatch.DrainLoop | house/input.go:251-262 | the drain loop computes the recursive drain `ProcessInput` |
| HouseBatch.ShortBatchEndsDrain | house/input.go:251-262 | after any number of full batches of 1000, a batch returning fewer without error ends the drain cleanly |
| HouseBatch.CleanEndIsShortBatch | house/input.go:251-262 | a clean end of the drain comes from a batch returning fewer than 1000 without error, after only full batches |
| HouseBatch.ConsumeInput | house/input.go:264-273 | 500 exactly when the drain ended with an error, 204 when it ended cleanly |
| HouseBatch.ConsumeStatus | house/input.go:264-273 | the status is 500 exactly on a drain error and 204 exactly on a clean end |
| HouseBatch.HouseDrainConservesTasks | house/input.go:251-262 | across a finished drain, the tasks left in the queue plus the tasks processed equal the tasks there before |
| HouseBatch.WriteFailureEndsDrainQuietly | house/input.go:251-262 | a write failure in the first batch ends the drain with 204 and the state unchanged |
| HouseRender.IfZero | house/housetherm.go:92-97 | the default exactly when the value is zero |
| HouseRender.MkRect | house/housetherm.go:84-86 | a canonical rectangle with the same corner coordinates |
| HouseRender.BoxIsRoomPlusRing | house/housetherm.go:83-90 | the black box is the room's rectangle plus a disjoint one-pixel ring |
| HouseRender.FillChoice | house/housetherm.go:151-160 | blue exactly below the minimum, red exactly above the maximum and not below the minimum, and the gradient for everything in between, bounds included |
| HouseRender.BoundsGetGradient | house/housetherm.go:151-160 | readings exactly at either bound get the gradient |
| HouseRender.ThermPoint | house/housetherm.go:124-125 | each coordinate is the configured one when non-zero, else exactly the room's corner plus half its width (height) with truncating division, which lies in the lower half of the room's span |
| HouseRender.FillGradient | house/housetherm.go:123-140 | width times height pixels, all inside the room, all measured from the reference point, covering every point of the room; no pixel at all when the width or height is not positive |
| HouseRender.SparkArea | house/housetherm.go:193-195 | height 20, the room's left edge, and a box ending at the room's bottom, each as the default for a zero setting |
| HouseRender.SparkWindow | house/housetherm.go:185-191 | nothing for fewer than two readings, else the first `SparkWidth` readings; a negative width panics |
| HouseRender.ColumnsFillWindow | house/housetherm.go:210-211 | the columns are distinct, lie in `[sparkx, sparkx + len)`, and put the newest rightmost |
| HouseRender.ClampRow | house/housetherm.go:213-219 | the row is clamped to `[sparky, sparky + sparkh]`, unchanged when already inside |
| HouseRender.Sparkline | house/housetherm.go:183-223 | one point per reading of the window, at its column and at the clamped row the scaling gives it, so inside the spark box |
| HouseRender.GetReadings | house/housetherm.go:231-260 | empty without a readable "current"; one-reading series of the current values when the bulk read fails; otherwise exactly the cached series of the current serials, panicking on an undecodable one |
| HouseRender.RendererSeesBatch | house/housetherm.go:231-260 | after a written batch the renderer reads each leased sensor's stored series, headed by its new current value |
| HouseRender.LabelAnchor | house/housetherm.go:162-169 | the configured label position, or the centring defaults with 6-by-12 pixel characters |
| HouseRender.DrawRoom | house/housetherm.go:269-282 | a sensor without a series gets white and `??.??`; an empty series panics; otherwise the room is drawn exactly when its sparkline is, with the black box, the head reading deciding fill and caption, the label at its anchor, and the series as the sparkline |
| HouseRender.DrawHouse | house/housetherm.go:262-285 | the rooms in `Colorize` order, panicking exactly when a name is unknown or a room fails |
| HouseRender.Server | house/housetherm.go:292-365 | when both image and expiry are cached, they are served and nothing changes; otherwise the queue is drained, a panic there or in drawing panics the request, and the drawn house is encoded, served with the new expiry, and cached with it when the write succeeds |
| HouseRender.RebuiltImageIsServedNext | house/housetherm.go:292-364 | an image rebuilt and cached is served, with the same expiry, to the next request that can read the cache |
| Westspy.HandleInput | westspy/input.go:55-97 | the same ingest outcome, without the whitelist, so only 202, 400 or 500 |
| Westspy.ProcessBatch | westspy/input.go:99-173 | a non-empty batch panics exactly when the cache write or the delete fails, with the batch still queued and the cache written only when the write succeeded; otherwise it returns the batch size with no error, removes exactly the leased tasks and caches the merged items; an error is returned only for a failed lease |
| Westspy.SameWritesAsHouse | westspy/input.go:138-161 | when every write succeeds, the earlier revision produces the same result and cache as the current one |
| Westspy.SameItemValues | westspy/input.go:147-161 | writing without expirations stores the same values as writing with them |
| Westspy.ConsumeInput | westspy/input.go:175-190 | the handler's status follows the drain: 500 on an error, 204 on a clean end |
| Westspy.CleanFinishMeansEmptyLease | westspy/input.go:177-187 | a drain that ends cleanly has met an empty lease |
| Couch2gae.SN | tools/couch2gae/couch2gae.go:59-67 | the `sn` field when present, else the `sensor` field, else empty |
| Couch2gae.FieldsAreWords | tools/couch2gae/couch2gae.go:136-139 | every field is non-empty and holds no separator |
| Couch2gae.FieldsKeepEverythingElse | tools/couch2gae/couch2gae.go:136-139 | the fields concatenate to the input with its separators removed |
| Couch2gae.FieldsOfJoin | tools/couch2gae/couch2gae.go:136-139 | non-empty separator-free words joined by a separator split back into the same words |
| Couch2gae.ParseFields | tools/couch2gae/couch2gae.go:141-161 | fails exactly with fewer than six fields or a non-integer field; otherwise the first six fields give the date and time, and a seventh gives microseconds times 1000 in 64-bit arithmetic |
| Couch2gae.ParseTimeOfJoined | tools/couch2gae/couch2gae.go:135-162 | formatting the seven numbers with any separator and parsing the result gives them back |
| Couch2gae.WrapInt64 | tools/couch2gae/couch2gae.go:157 | the 64-bit two's-complement value congruent to the input |
| Couch2gae.StoreItems | tools/couch2gae/couch2gae.go:164-209 | a fatal exit exactly when some timestamp does not parse; otherwise three parallel arrays in input order, with success exactly on a 2xx answer |
| Couch2gae.BuildForm | tools/couch2gae/couch2gae.go:169-178 | no form exactly when some timestamp fails to parse; otherwise the three arrays in input order |
| Couch2gae.CollectBatch | tools/couch2gae/couch2gae.go:218-230 | the batch is the named changes received so far, in order, never more than the batch size; collection stops at the first point where the batch is full or a tick arrives after at least one change |
| Couch2gae.SendWithRetries | tools/couch2gae/couch2gae.go:234-250 | delivered exactly when one of five attempts succeeds, after the failures before it |
| Mail.Run | mail.go:39-73 | the end of the parts is not an error and a read error is returned; bodies once set stay, and attachments are only appended |
| Mail.FlatBodies | mail.go:57-63 | without nested alternatives, the bodies are the first non-empty plain and HTML parts |
| Mail.FlatAttachments | mail.go:57-70 | without nested alternatives, the attachments are the starting ones followed by every part with a file name that is not read as a body, in encounter order |
| Mail.TokenKey | mail.go:89 | the key is `email-` followed by the address |
| Mail.RelayAddress | mail.go:88 | the path before the first `@` less `/_ah/mail/`, panicking when shorter |
| Mail.RelayAddressOfPath | mail.go:88 | an address written into a mail path is read back from it |
| Mail.EnableMail | mail.go:138-164 | 200 with the form exactly on GET; the token is stored and the request redirected exactly when the duration parses and the write succeeds; 500 otherwise |
| Mail.IncomingMail | mail.go:85-136 | 403 without the token; with it, 500 exactly when the message does not parse, and otherwise the message is relayed to the fixed recipient with `original.eml` first and then the named non-body parts, the parsed bodies, and the headerless text as fallback body, or an empty body when that fallback fails too |
| Mail.EnabledAddressIsRelayed | mail.go:85-164 | after enabling an address, its mail is not refused, and is relayed whenever it parses |
| Mail.UnknownAddressIsForbidden | mail.go:89-94 | mail for an address without a token is refused |
| Redirect.StringToSignInjective | redirect.go:30 | distinct paths or expiries give distinct strings to sign |
| Redirect.MkURL | redirect.go:28-40 | empty exactly when the MAC fails; otherwise host and path, the escaped signature, the expiry and the key id, in that order and with nothing else |
| Redirect.Remote | redirect.go:42-48 | the forwarded-for header when set, else the peer address (used only in the handler's log line) |
| Redirect.RedirectTo | redirect.go:50-57 | a 302 to the URL signing the path after its first seven characters, valid 15 minutes; a shorter path panics |
| Redirect.RouteSignsRest | redirect.go:50-60 | `/s3sign/x` signs `/x` |
| DustinPages.Limit | dustin/dustin.go:28-34 | the value itself when shorter than `n`, else its first `n` elements; a negative `n` panics |
| DustinPages.LimitTwice | dustin/dustin.go:28-34 | limiting twice is limiting once to the smaller bound |
| DustinPages.LoadTemplates | dustin/dustin.go:37-51 | loads exactly when every `.html` file sits under the template directory and loads; names are the paths less that directory, in walk order |
| DustinPages.NamesAreHtml | dustin/dustin.go:38-44 | every registered name ends in `.html` |
| DustinPages.PageFor | dustin/dustin.go:68-75 | panics exactly outside `/~dustin/`; otherwise the rest of the path, with `index.html` added for the empty page or a directory |
| DustinPages.TemplatesAreReachable | dustin/dustin.go:68-75 | each registered template is the page served at `/~dustin/` plus its name |
| DustinAtom.GetGithub | dustin/atom.go:22-40 | nil with no stored feed or no entries; otherwise the first twelve entries in feed order |
| DustinAtom.UpdateGithub | dustin/atom.go:42-67 | the stored feed is replaced exactly by a decoded feed from a 200 answer, and otherwise kept |
| DustinAtom.UpdateHandler | dustin/atom.go:69-79 | 500 exactly when the refresh fails, 200 otherwise |
| DustinAtom.RefreshThenRead | dustin/atom.go:22-67 | after a successful refresh the templates see the new feed's first twelve entries, or nil for an empty feed; after a failed one, the first twelve stored entries, or nil as before |

## Left out

- Floating-point colour, distance and relevance maths (`getFillColor`, the relevance in `fillGradient`), the sparkline height scaling and `drawTemp` are left out. Values are `real` and compared only against the bounds. The row a reading is drawn at is a parameter.
- The library parsers and encoders are left out: float and RFC 3339 parsing, JSON, `%.2f`, HMAC-SHA1, Base64, query escaping, MIME header and multipart reading, and PNG encoding. Each is a function parameter or a given input.
- A JSON round trip of a reading is assumed exact. The task payload is the reading itself.
- Concurrency is left out: goroutines, channels, `sync.Once` and mutexes. `persistReadings` is the sequence of its chunked calls, and the error channel is the sequence of errors it carries.
- `mightConsume` is left out, because it is random. Whether a consume task is queued does not change the response.
- Expirations and the clock are left out, beyond passing expirations to the cache write. The cache keeps no time.
- `SetMulti` is modelled as all-or-nothing. A partially written batch is not modelled.
- A "current" snapshot that decodes only in part is treated as one that does not decode: the model starts from an empty map.
- HouseData.Sort: the model is one admissible outcome. Go's `sort.Sort` is not stable, so only the permutation and the newest-first order are promised, not the order of equal instants.
- HouseBatch.ProcessInput and Westspy.ConsumeLoop run over a finite list of environment answers. A drain that needs more answers than are given ends `Unfinished` rather than running on.
- Image clipping, drawing order and pixel colours are left out. Only the rectangles and pixel coordinates are modelled.
- HouseRender.Server: the bytes of a cached blob that is not raw bytes are taken as empty.
- Couch2gae.ParseFields: returns the arguments passed to `time.Date`, not the normalised instant. Out-of-range fields are not normalised.
- DustinPages.LoadTemplates: a walk error reported with a nil file info is not modelled.
- The once-only feed refresh in `ServePage` (`getBlog`, `updateFeeds`) is left out, as are template execution and the blog feed.
- Mail.IncomingMail: the bytes `mail.ReadMessage` has consumed are taken as the whole raw message. Whether the final send succeeds is not observable. When the parts hold a nested `multipart/alternative`, the bodies and attachments are only promised to grow, not stated exactly.
- The route tables, `dustin/sensors.go`, the couch2gae feed reader and sequence reporter, and the App Engine request plumbing are left out.

=== FILE: cache.dfy ===
/** The shared keyed cache as the modelled code sees it: a map from keys to
    values. Values that the code stores as JSON are kept structured; any
    other bytes are an opaque string. Expiry times are carried on writes but
    eviction is not modelled. */
module Memcache {
  import opened HouseData

  datatype Blob =
    | CurrentMap(values: map<string, real>)   // the "current" snapshot
    | Series(readings: seq<Reading>)          // one sensor's history
    | Raw(data: string)                       // anything else

  type Cache = map<string, Blob>

  /** A value to store and its expiry in seconds; 0 means no expiry. */
  datatype Item = Item(value: Blob, expiry: int)

  /** `GetMulti`: the requested keys that are present, or nothing at all
      when the call fails. */
  function GetMulti(cache: Cache, keys: set<string>, ok: bool): (r: Cache)
    ensures forall k :: k in r <==> ok && k in keys && k in cache
    ensures forall k :: k in r ==> r[k] == cache[k]
  {
    if ok then map k | k in keys && k in cache :: cache[k] else map[]
  }

  /** `SetMulti` that succeeded: every item written, every other key kept. */
  function SetMulti(cache: Cache, items: map<string, Item>): (r: Cache)
    ensures r.Keys == cache.Keys + items.Keys
    ensures forall k :: k in items ==> r[k] == items[k].value
    ensures forall k :: k in cache && k !in items ==> r[k] == cache[k]
  {
    cache + map k | k in items :: items[k].value
  }

  /** Only the values of the items matter to the cache, not their expiry. */
  lemma SetMultiIgnoresExpiry(cache: Cache, a: map<string, Item>, b: map<string, Item>)
    requires a.Keys == b.Keys && forall k :: k in a ==> a[k].value == b[k].value
    ensures SetMulti(cache, a) == SetMulti(cache, b)
  {
    assert (map k | k in a :: a[k].value) == (map k | k in b :: b[k].value);
  }
}

=== FILE: couch2gae.dfy ===
/** The CouchDB-to-App-Engine bridge (`tools/couch2gae/couch2gae.go`): which
    serial a change document carries, how its timestamp text is split and
    parsed, the form the batch upload posts, how a batch is collected from
    the change feed, and the bounded retry of an upload. The change-feed
    reader, the HTTP transport and the sequence reporting are not part of
    this model. */
module Couch2gae {
  import opened Util
  import opened GoText

  /** A change document: the reading as JSON number text, the old (`sn`)
      and new (`sensor`) serial fields, which may be absent, and the
      timestamp text. */
  datatype Doc = Doc(reading: string, sensorOld: Option<string>, sensorNew: Option<string>,
                     timestamp: string)

  datatype Change = Change(seqNo: int, id: string, doc: Doc)

  /** `reading.SN`: the `sn` field when present, else the `sensor` field,
      else empty. */
  function SN(d: Doc): (sn: string)
    ensures d.sensorOld.Some? ==> sn == d.sensorOld.value
    ensures d.sensorOld.None? && d.sensorNew.Some? ==> sn == d.sensorNew.value
    ensures d.sensorOld.None? && d.sensorNew.None? ==> sn == ""
  {
    match d.sensorOld
    case Some(s) => s
    case None =>
      match d.sensorNew
      case Some(s) => s
      case None => ""
  }

  // ---------------------------------------------------------------------
  // Splitting a timestamp into fields

  /** The characters `parseTime` splits on. */
  predicate IsSep(c: char)
  {
    c == '/' || c == '-' || c == ':' || c == 'T' || c == ' ' || c == '.'
  }

  predicate NoSep(s: string)
  {
    forall i :: 0 <= i < |s| ==> !IsSep(s[i])
  }

  /** Length of the leading run of non-separators. */
  function RunLength(s: string): (n: nat)
    ensures n <= |s| && NoSep(s[..n])
    ensures n < |s| ==> IsSep(s[n])
  {
    if |s| == 0 || IsSep(s[0]) then 0
    else
      var n := 1 + RunLength(s[1..]);
      assert s[..n] == [s[0]] + s[1..][..n - 1];
      n
  }

  /** `strings.FieldsFunc` with `IsSep`: the maximal runs of
      non-separators, so consecutive separators give no empty field. */
  function Fields(s: string): seq<string>
    decreases |s|
  {
    if |s| == 0 then []
    else if IsSep(s[0]) then Fields(s[1..])
    else
      var n := RunLength(s);
      [s[..n]] + Fields(s[n..])
  }

  /** Every field is non-empty and holds no separator. */
  lemma {:induction false} FieldsAreWords(s: string)
    ensures forall i :: 0 <= i < |Fields(s)| ==> |Fields(s)[i]| > 0 && NoSep(Fields(s)[i])
    decreases |s|
  {
    if |s| > 0 {
      if IsSep(s[0]) {
        FieldsAreWords(s[1..]);
      } else {
        var n := RunLength(s);
        FieldsAreWords(s[n..]);
        var fs := Fields(s);
        assert forall i :: 0 < i < |fs| ==> fs[i] == Fields(s[n..])[i - 1];
      }
    }
  }

  /** The independent reading of `Fields`: the text with every separator
      dropped. */
  function Unseparated(s: string): string
  {
    if |s| == 0 then [] else (if IsSep(s[0]) then [] else [s[0]]) + Unseparated(s[1..])
  }

  lemma {:induction false} UnseparatedSplit(s: string, n: nat)
    requires n <= |s| && NoSep(s[..n])
    ensures Unseparated(s) == s[..n] + Unseparated(s[n..])
    decreases n
  {
    if n > 0 {
      assert !IsSep(s[..n][0]);
      assert s[1..][..n - 1] == s[1..n];
      UnseparatedSplit(s[1..], n - 1);
      assert s[1..][n - 1..] == s[n..];
      assert s[..n] == [s[0]] + s[1..n];
    }
  }

  /** Splitting loses exactly the separators: the fields, concatenated, are
      the text with its separators removed. */
  lemma {:induction false} FieldsKeepEverythingElse(s: string)
    ensures Flatten(Fields(s)) == Unseparated(s)
    decreases |s|
  {
    if |s| > 0 {
      if IsSep(s[0]) {
        FieldsKeepEverythingElse(s[1..]);
        assert Unseparated(s) == Unseparated(s[1..]);
      } else {
        var n := RunLength(s);
        assert Fields(s) == [s[..n]] + Fields(s[n..]);
        FieldsKeepEverythingElse(s[n..]);
        FlattenPrepend(s[..n], Fields(s[n..]));
        UnseparatedSplit(s, n);
      }
    }
  }

  /** The fields joined by one separator. */
  function Join(fs: seq<string>, sep: char): string
  {
    if |fs| == 0 then "" else if |fs| == 1 then fs[0] else fs[0] + [sep] + Join(fs[1..], sep)
  }

  lemma RunOfJoined(w: string, sep: char, rest: string)
    requires |w| > 0 && NoSep(w) && IsSep(sep)
    ensures RunLength(w + [sep] + rest) == |w|
    ensures RunLength(w) == |w|
  {
    var s := w + [sep] + rest;
    assert forall i :: 0 <= i < |w| ==> s[i] == w[i];
    assert s[|w|] == sep;
  }

  /** Splitting undoes joining: non-empty fields without separators, joined
      by any separator, split back into the same fields. */
  lemma {:induction false} FieldsOfJoin(fs: seq<string>, sep: char)
    requires IsSep(sep)
    requires forall i :: 0 <= i < |fs| ==> |fs[i]| > 0 && NoSep(fs[i])
    ensures Fields(Join(fs, sep)) == fs
    decreases |fs|
  {
    if |fs| == 1 {
      var w := fs[0];
      RunOfJoined(w, sep, "");
      assert w[..|w|] == w && w[|w|..] == [];
    } else if |fs| > 1 {
      FieldsOfCons(fs[0], sep, Join(fs[1..], sep));
      FieldsOfJoin(fs[1..], sep);
      assert fs == [fs[0]] + fs[1..];
    }
  }

  /** A word and a separator in front of a text add that word in front of
      its fields. */
  lemma FieldsOfCons(w: string, sep: char, rest: string)
    requires |w| > 0 && NoSep(w) && IsSep(sep)
    ensures Fields(w + [sep] + rest) == [w] + Fields(rest)
  {
    var s := w + [sep] + rest;
    RunOfJoined(w, sep, rest);
    assert s[..|w|] == w;
    assert s[|w|..] == [sep] + rest;
    assert ([sep] + rest)[1..] == rest;
  }

  // ---------------------------------------------------------------------
  // Parsing a timestamp

  /** Go's 64-bit `int` arithmetic wraps around. */
  function WrapInt64(x: int): (r: int)
    ensures Int64(r)
    ensures Int64(x) ==> r == x
    ensures (r - x) % 0x1_0000_0000_0000_0000 == 0
  {
    (x + 0x8000_0000_0000_0000) % 0x1_0000_0000_0000_0000 - 0x8000_0000_0000_0000
  }

  /** The arguments `parseTime` passes to `time.Date` (in the local zone);
      Go's normalisation of out-of-range fields happens in `time.Date` and
      is not part of this model. */
  datatype DateArgs = DateArgs(year: int, month: int, day: int, hour: int, minute: int,
                               second: int, nsec: int)

  /** Every field reads as an integer. */
  predicate AllNumbers(fs: seq<string>, atoi: string -> Option<int>)
  {
    forall i :: 0 <= i < |fs| ==> atoi(fs[i]).Some?
  }

  /** `parseTime` after the split, with `atoi` reading one field. Fewer
      than six fields, or any field (the ignored ones after the seventh
      included) that is not an integer, is an error. Fields one to six are
      year to second; the seventh, read as microseconds, gives the
      nanoseconds (with 64-bit wrap-around). */
  function ParseFields(f: seq<string>, atoi: string -> Option<int>): (r: Result<DateArgs>)
    ensures r.Ok? <==> |f| >= 6 && AllNumbers(f, atoi)
    ensures r.Ok? ==>
              && atoi(f[0]) == Some(r.value.year) && atoi(f[1]) == Some(r.value.month)
              && atoi(f[2]) == Some(r.value.day) && atoi(f[3]) == Some(r.value.hour)
              && atoi(f[4]) == Some(r.value.minute) && atoi(f[5]) == Some(r.value.second)
    ensures r.Ok? && |f| == 6 ==> r.value.nsec == 0
    ensures r.Ok? && |f| > 6 ==> r.value.nsec == WrapInt64(atoi(f[6]).value * 1000)
  {
    if |f| < 6 then Err("Incorrect number of fields")
    else if !AllNumbers(f, atoi) then Err("Unparsable time")
    else
      var nsec := if |f| > 6 then WrapInt64(atoi(f[6]).value * 1000) else 0;
      Ok(DateArgs(atoi(f[0]).value, atoi(f[1]).value, atoi(f[2]).value,
                  atoi(f[3]).value, atoi(f[4]).value, atoi(f[5]).value, nsec))
  }

  /** `parseTime`: split on the separators, read each field with
      `strconv.Atoi`. */
  function ParseTime(text: string): Result<DateArgs>
  {
    ParseFields(Fields(text), Atoi)
  }

  lemma DigitsHaveNoSep(x: int)
    requires x >= 0
    ensures |Itoa(x)| > 0 && NoSep(Itoa(x))
  {
    assert Itoa(x) == Digits(x);
  }

  /** The numbers a timestamp is written from: the date and time fields,
      then the microseconds. */
  function TimeValues(d: DateArgs, us: int): seq<int>
  {
    [d.year, d.month, d.day, d.hour, d.minute, d.second, us]
  }

  /** The fields of a timestamp written from its parts, in decimal. */
  function TimeFields(d: DateArgs, us: int): (fs: seq<string>)
    ensures |fs| == 7
  {
    seq(7, k requires 0 <= k < 7 => Itoa(TimeValues(d, us)[k]))
  }

  /** Timestamps written as non-negative numbers between separators parse
      back to those numbers, with microseconds scaled to nanoseconds. */
  lemma ParseTimeOfJoined(d: DateArgs, us: int, sep: char)
    requires IsSep(sep)
    requires 0 <= d.year && 0 <= d.month && 0 <= d.day && 0 <= d.hour && 0 <= d.minute && 0 <= d.second
    requires Int64(d.year) && Int64(d.month) && Int64(d.day) && Int64(d.hour)
    requires Int64(d.minute) && Int64(d.second)
    requires 0 <= us < 1_000_000 && d.nsec == us * 1000
    ensures ParseTime(Join(TimeFields(d, us), sep)) == Ok(d)
  {
    TimeFieldsSplit(d, us, sep);
    TimeFieldsRead(d, us);
    ParseFieldsOf(TimeFields(d, us), Atoi, TimeValues(d, us));
  }

  lemma TimeFieldsSplit(d: DateArgs, us: int, sep: char)
    requires IsSep(sep)
    requires 0 <= d.year && 0 <= d.month && 0 <= d.day && 0 <= d.hour && 0 <= d.minute && 0 <= d.second
    requires 0 <= us
    ensures Fields(Join(TimeFields(d, us), sep)) == TimeFields(d, us)
  {
    var vs := TimeValues(d, us);
    forall k | 0 <= k < 7
      ensures |TimeFields(d, us)[k]| > 0 && NoSep(TimeFields(d, us)[k])
    {
      DigitsHaveNoSep(vs[k]);
    }
    FieldsOfJoin(TimeFields(d, us), sep);
  }

  lemma TimeFieldsRead(d: DateArgs, us: int)
    requires forall k :: 0 <= k < 7 ==> Int64(TimeValues(d, us)[k])
    ensures forall k :: 0 <= k < 7 ==> Atoi(TimeFields(d, us)[k]) == Some(TimeValues(d, us)[k])
  {
    var vs := TimeValues(d, us);
    forall k | 0 <= k < 7
      ensures Atoi(TimeFields(d, us)[k]) == Some(vs[k])
    {
      ItoaAtoiRoundTrip(vs[k]);
    }
  }

  /** Seven fields that read as the given numbers parse to those numbers. */
  lemma ParseFieldsOf(fs: seq<string>, atoi: string -> Option<int>, vs: seq<int>)
    requires |fs| == 7 && |vs| == 7
    requires forall k :: 0 <= k < 7 ==> atoi(fs[k]) == Some(vs[k])
    ensures ParseFields(fs, atoi) == Ok(DateArgs(vs[0], vs[1], vs[2], vs[3], vs[4], vs[5],
                                                 WrapInt64(vs[6] * 1000)))
  {
    assert AllNumbers(fs, atoi);
  }

  // ---------------------------------------------------------------------
  // Uploading a batch

  /** The three parallel form arrays posted to the ingest handler. */
  datatype Form = Form(sn: seq<string>, ts: seq<string>, r: seq<string>)

  /** What the POST answered: a transport error or an HTTP status. */
  datatype Post = PostFailed(err: string) | Answered(status: int)

  /** `storeItems`: `Exit` is the fatal exit on an unparsable timestamp. */
  datatype Store = Exit | Posted(form: Form, err: Option<string>)

  /** The form holds, for every change in order, its serial, its reading
      and its timestamp as `parse` reads it and `format` renders it. */
  predicate Rendered(cs: seq<Change>, parse: string -> Result<DateArgs>, format: DateArgs -> string,
                     form: Form)
  {
    && |form.sn| == |cs| && |form.ts| == |cs| && |form.r| == |cs|
    && forall i :: 0 <= i < |cs| ==>
         && form.sn[i] == SN(cs[i].doc)
         && form.r[i] == cs[i].doc.reading
         && parse(cs[i].doc.timestamp).Ok?
         && form.ts[i] == format(parse(cs[i].doc.timestamp).value)
  }

  /** `storeItems`. `format` renders a parsed time as UTC RFC 3339 with
      nanoseconds; `post` answers the upload of a form. */
  method StoreItems(cs: seq<Change>, format: DateArgs -> string, post: Form -> Post)
    returns (out: Store)
    ensures out == Exit <==> exists i :: 0 <= i < |cs| && ParseTime(cs[i].doc.timestamp).Err?
    ensures out.Posted? ==> Rendered(cs, ParseTime, format, out.form)
    ensures out.Posted? ==>
              (out.err.None? <==> post(out.form).Answered? && 200 <= post(out.form).status < 300)
  {
    var form := BuildForm(cs, ParseTime, format);
    if form.None? {
      return Exit;
    }
    match post(form.value)
    case PostFailed(e) =>
      out := Posted(form.value, Some(e));
    case Answered(status) =>
      if status >= 300 || status < 200 {
        out := Posted(form.value, Some("HTTP Error"));
      } else {
        out := Posted(form.value, None);
      }
  }

  /** The loop of `storeItems` that fills the form; `None` is the fatal
      exit at the first timestamp that does not parse. */
  method BuildForm(cs: seq<Change>, parse: string -> Result<DateArgs>, format: DateArgs -> string)
    returns (form: Option<Form>)
    ensures form.None? <==> exists i :: 0 <= i < |cs| && parse(cs[i].doc.timestamp).Err?
    ensures form.Some? ==> Rendered(cs, parse, format, form.value)
  {
    var sns: seq<string> := [];
    var tss: seq<string> := [];
    var rs: seq<string> := [];
    var i := 0;
    while i < |cs|
      invariant 0 <= i <= |cs|
      invariant Rendered(cs[..i], parse, format, Form(sns, tss, rs))
    {
      var t := parse(cs[i].doc.timestamp);
      if t.Err? {
        return None;
      }
      RenderedStep(cs, i, parse, format, Form(sns, tss, rs));
      sns := sns + [SN(cs[i].doc)];
      tss := tss + [format(t.value)];
      rs := rs + [cs[i].doc.reading];
      i := i + 1;
    }
    assert cs[..i] == cs;
    return Some(Form(sns, tss, rs));
  }

  lemma RenderedStep(cs: seq<Change>, i: nat, parse: string -> Result<DateArgs>, format: DateArgs -> string,
                     form: Form)
    requires i < |cs| && Rendered(cs[..i], parse, format, form)
    requires parse(cs[i].doc.timestamp).Ok?
    ensures Rendered(cs[..i + 1], parse, format,
                     Form(form.sn + [SN(cs[i].doc)],
                          form.ts + [format(parse(cs[i].doc.timestamp).value)],
                          form.r + [cs[i].doc.reading]))
  {
    var pre, all := cs[..i], cs[..i + 1];
    assert forall k :: 0 <= k < i ==> all[k] == pre[k];
    assert all[i] == cs[i];
  }

  // ---------------------------------------------------------------------
  // Collecting a batch

  /** What the collecting `select` receives: a change from the feed, or a
      tick of the batch timer. The timer channel is only selected on once
      the batch holds an item, so a tick before that is never received. */
  datatype Event = Arrive(change: Change) | Tick

  /** The changes among some events, in order. */
  function Arrivals(evs: seq<Event>): seq<Change>
  {
    if |evs| == 0 then []
    else Arrivals(evs[..|evs| - 1]) + (if evs[|evs| - 1].Arrive? then [evs[|evs| - 1].change] else [])
  }

  /** The changes that carry a serial, in order. */
  function Named(cs: seq<Change>): seq<Change>
  {
    if |cs| == 0 then []
    else Named(cs[..|cs| - 1]) + (if SN(cs[|cs| - 1].doc) != "" then [cs[|cs| - 1]] else [])
  }

  lemma {:induction false} NamedHaveSerials(cs: seq<Change>)
    ensures forall i :: 0 <= i < |Named(cs)| ==> SN(Named(cs)[i].doc) != ""
    decreases |cs|
  {
    if |cs| > 0 {
      NamedHaveSerials(cs[..|cs| - 1]);
    }
  }

  /** Whether collection is over once the first `j` events are received:
      the batch is full, or the last of them is a tick that arrived while
      the batch held an item. */
  predicate Stops(evs: seq<Event>, j: nat, batchSize: int)
    requires j <= |evs|
  {
    |Named(Arrivals(evs[..j]))| >= batchSize
    || (j > 0 && evs[j - 1] == Tick && |Named(Arrivals(evs[..j]))| > 0)
  }

  /** `sendData`'s collecting loop over the received events: it keeps the
      changes with a serial, until it holds `batchSize` of them or a tick
      arrives after the first one. It returns the batch and how many events
      it consumed: it stops at the first point where collection is over. */
  method CollectBatch(evs: seq<Event>, batchSize: int) returns (items: seq<Change>, used: nat)
    ensures used <= |evs|
    ensures items == Named(Arrivals(evs[..used]))
    ensures |items| <= (if batchSize < 0 then 0 else batchSize)
    ensures forall i :: 0 <= i < |items| ==> SN(items[i].doc) != ""
    ensures used < |evs| ==> Stops(evs, used, batchSize)
    ensures forall j :: 0 <= j < used ==> !Stops(evs, j, batchSize)
  {
    items := [];
    used := 0;
    var timedOut := false;
    while |items| < batchSize && !timedOut && used < |evs|
      invariant used <= |evs|
      invariant items == Named(Arrivals(evs[..used]))
      invariant |items| <= (if batchSize < 0 then 0 else batchSize)
      invariant Stops(evs, used, batchSize) <==> timedOut || |items| >= batchSize
      invariant forall j :: 0 <= j < used ==> !Stops(evs, j, batchSize)
      decreases |evs| - used
    {
      NotStoppedYet(evs, used, batchSize);
      items, timedOut := Receive(evs, used, items, batchSize);
      used := used + 1;
    }
    NamedHaveSerials(Arrivals(evs[..used]));
  }

  lemma NotStoppedYet(evs: seq<Event>, used: nat, batchSize: int)
    requires used <= |evs| && !Stops(evs, used, batchSize)
    requires forall j :: 0 <= j < used ==> !Stops(evs, j, batchSize)
    ensures forall j :: 0 <= j < used + 1 ==> !Stops(evs, j, batchSize)
  {
  }

  /** One receive of the collecting loop: a change with a serial joins the
      batch; a tick ends collection once the batch holds an item. */
  method Receive(evs: seq<Event>, used: nat, items: seq<Change>, batchSize: int)
    returns (items': seq<Change>, timedOut: bool)
    requires used < |evs| && items == Named(Arrivals(evs[..used]))
    ensures items' == Named(Arrivals(evs[..used + 1]))
    ensures |items| <= |items'| <= |items| + 1
    ensures timedOut <==> evs[used] == Tick && |items| > 0
    ensures Stops(evs, used + 1, batchSize) <==> timedOut || |items'| >= batchSize
  {
    var ev := evs[used];
    ghost var before := Arrivals(evs[..used]);
    ArrivalsStep(evs, used);
    timedOut := false;
    if ev.Arrive? {
      assert Arrivals(evs[..used + 1]) == before + [ev.change];
      NamedStep(before, ev.change);
      items' := if SN(ev.change.doc) != "" then items + [ev.change] else items;
    } else {
      assert Arrivals(evs[..used + 1]) == before + [] == before;
      items' := items;
      timedOut := |items| > 0;
    }
  }

  lemma ArrivalsStep(evs: seq<Event>, used: nat)
    requires used < |evs|
    ensures Arrivals(evs[..used + 1])
            == Arrivals(evs[..used]) + (if evs[used].Arrive? then [evs[used].change] else [])
  {
    assert evs[..used + 1][..used] == evs[..used];
  }

  lemma NamedStep(cs: seq<Change>, c: Change)
    ensures Named(cs + [c]) == Named(cs) + (if SN(c.doc) != "" then [c] else [])
  {
    assert (cs + [c])[..|cs|] == cs;
  }

  // ---------------------------------------------------------------------
  // Retrying an upload

  const Attempts := 5

  datatype Delivery = Delivered(tries: nat) | TooMuchFailure

  /** The first successful attempt below `bound`, if any. */
  function FirstSuccess(ok: nat -> bool, from: nat, bound: nat): (r: Option<nat>)
    ensures r.Some? ==> from <= r.value < bound && ok(r.value)
                        && forall j :: from <= j < r.value ==> !ok(j)
    ensures r.None? ==> forall j :: from <= j < bound ==> !ok(j)
    decreases bound - from
  {
    if from >= bound then None
    else if ok(from) then Some(from)
    else FirstSuccess(ok, from + 1, bound)
  }

  /** `sendData`'s retry loop: `ok(k)` says whether the upload on attempt
      `k` succeeds. Five failures in a row end the program. */
  method SendWithRetries(ok: nat -> bool) returns (d: Delivery)
    ensures d.Delivered? <==> exists k :: 0 <= k < Attempts && ok(k)
    ensures d.Delivered? ==> 1 <= d.tries <= Attempts && ok(d.tries - 1)
                             && forall j :: 0 <= j < d.tries - 1 ==> !ok(j)
  {
    var done := false;
    var retries := Attempts;
    var tries: nat := 0;
    while !done
      invariant 0 < retries <= Attempts && tries == Attempts - retries + (if done then 1 else 0)
      invariant done ==> tries >= 1 && ok(tries - 1)
      invariant forall j :: 0 <= j < tries - (if done then 1 else 0) ==> !ok(j)
      decreases retries, if done then 0 else 1
    {
      var success := ok(tries);
      tries := tries + 1;
      if success {
        done := true;
      } else {
        retries := retries - 1;
        if retries <= 0 {
          return TooMuchFailure;
        }
      }
    }
    d := Delivered(tries);
  }
}

=== FILE: dustin_atom.dfy ===
/** The GitHub activity feed of the personal pages (`dustin/atom.go`): the
    stored feed, the entries handed to the templates, and the refresh that
    replaces the stored feed. The HTTP fetch and the Atom XML decoding are
    inputs; the mutex only serialises access and is not modelled. */
module DustinAtom {
  import opened Util

  /** A decoded feed: the content of each entry, in feed order. */
  datatype Feed = Feed(entries: seq<string>)

  /** The index after which `getGithub` stops: the entry at index 11 is
      still taken, so at most twelve entries are. */
  const LastIndex := 10
  const MaxEntries := 12

  /** `getGithub`. `None` is Go's nil slice: returned when no feed is
      stored, and also when the stored feed has no entries, since nothing
      is ever appended then. */
  method GetGithub(stored: Option<Feed>) returns (rv: Option<seq<string>>)
    ensures rv.None? <==> stored.None? || |stored.value.entries| == 0
    ensures rv.Some? ==> rv.value == stored.value.entries[..Min(|stored.value.entries|, MaxEntries)]
  {
    if stored.None? {
      return None;
    }
    var es := stored.value.entries;
    var out: seq<string> := [];
    var i := 0;
    while i < |es|
      invariant 0 <= i <= |es| && i <= LastIndex + 1
      invariant out == es[..i]
    {
      assert es[..i + 1] == es[..i] + [es[i]];
      out := out + [es[i]];
      if i > LastIndex {
        assert out == es[..MaxEntries];
        break;
      }
      i := i + 1;
    }
    assert out == es[..Min(|es|, MaxEntries)];
    if |out| == 0 {
      return None;
    }
    return Some(out);
  }

  /** What the fetch of the feed produced. */
  datatype Fetch = FetchFailed(err: string) | BadStatus(status: int) | DecodeFailed(err: string)
                 | Fetched(status: int, feed: Feed)

  /** `updateGithub`: the stored feed after the refresh, and the feed or
      the error. Only a decoded feed from a 200 answer replaces the stored
      one. */
  function UpdateGithub(stored: Option<Feed>, fetch: Fetch): (r: (Option<Feed>, Result<Feed>))
    ensures r.1.Ok? <==> fetch.Fetched? && fetch.status == 200
    ensures r.1.Ok? ==> r.0 == Some(fetch.feed) && r.1.value == fetch.feed
    ensures r.1.Err? ==> r.0 == stored
  {
    match fetch
    case FetchFailed(e) => (stored, Err(e))
    case BadStatus(s) => (stored, Err("HTTP error"))
    case DecodeFailed(e) => (stored, Err(e))
    case Fetched(status, feed) =>
      if status != 200 then (stored, Err("HTTP error")) else (Some(feed), Ok(feed))
  }

  /** `UpdateGithub`, the handler: 500 on an error, else 200 with the feed. */
  function UpdateHandler(stored: Option<Feed>, fetch: Fetch): (r: (Option<Feed>, int))
    ensures r.1 in {200, 500}
    ensures r.1 == 200 <==> UpdateGithub(stored, fetch).1.Ok?
    ensures r.0 == UpdateGithub(stored, fetch).0
  {
    var (st, res) := UpdateGithub(stored, fetch);
    (st, if res.Ok? then 200 else 500)
  }

  /** After a successful refresh the templates see the first entries of
      the new feed; after a failed one, whatever they saw before. */
  method RefreshThenRead(stored: Option<Feed>, fetch: Fetch) returns (rv: Option<seq<string>>)
    ensures UpdateGithub(stored, fetch).1.Ok? && |fetch.feed.entries| > 0 ==>
              rv == Some(fetch.feed.entries[..Min(|fetch.feed.entries|, MaxEntries)])
    ensures UpdateGithub(stored, fetch).1.Ok? && |fetch.feed.entries| == 0 ==> rv.None?
    ensures UpdateGithub(stored, fetch).1.Err? ==>
              (rv.None? <==> stored.None? || |stored.value.entries| == 0)
    ensures UpdateGithub(stored, fetch).1.Err? && stored.Some? && |stored.value.entries| > 0 ==>
              rv == Some(stored.value.entries[..Min(|stored.value.entries|, MaxEntries)])
  {
    var (st, _) := UpdateGithub(stored, fetch);
    rv := GetGithub(st);
  }
}

=== FILE: dustin_pages.dfy ===
/** The personal pages (`dustin/dustin.go`): the `limit` template helper,
    which files become templates and under what names, and which template a
    request path selects. Template parsing and execution, the file walk and
    the once-only feed refresh are not part of this model. */
module DustinPages {
  import opened Util
  import opened GoText

  const TemplateBase := "templates/dustin/"
  const PageBase := "/~dustin/"
  const IndexPage := "index.html"

  /** The `limit` template function: the value itself when shorter than
      `n`, else its first `n` elements. `None` is the panic of slicing
      with a negative bound. */
  function Limit<T>(n: int, s: seq<T>): (r: Option<seq<T>>)
    ensures r.None? <==> n < 0
    ensures r.Some? ==> r.value <= s && |r.value| == Min(|s|, n)
    ensures r.Some? && |s| < n ==> r.value == s
  {
    if |s| < n then Some(s)
    else if n < 0 then None
    else Some(s[..n])
  }

  /** Limiting twice is limiting once to the smaller bound. */
  lemma LimitTwice<T>(n: int, m: int, s: seq<T>)
    requires 0 <= n && 0 <= m
    ensures Limit(m, Limit(n, s).value).value == Limit(Min(n, m), s).value
  {
  }

  /** A file the template walk visits: its path, whether it is a
      directory, and whether reading and parsing it succeeds. */
  datatype Entry = Entry(path: string, isDir: bool, loads: bool)

  predicate IsTemplate(e: Entry)
  {
    !e.isDir && HasSuffix(e.path, ".html")
  }

  /** The template files among the entries, in walk order. */
  function TemplateFiles(es: seq<Entry>): (r: seq<Entry>)
    ensures forall i :: 0 <= i < |r| ==> IsTemplate(r[i])
    ensures |r| <= |es|
  {
    if |es| == 0 then []
    else TemplateFiles(es[..|es| - 1]) + (if IsTemplate(es[|es| - 1]) then [es[|es| - 1]] else [])
  }

  datatype Loaded = Templates(names: seq<string>) | LoadPanicked

  /** `loadTemplates` under `template.Must`: every non-directory `.html`
      file is registered under its path less `templates/dustin/`; a template
      file outside that directory, or one that fails to load, panics. */
  function LoadTemplates(es: seq<Entry>): (r: Loaded)
    ensures r.Templates? <==> forall i :: 0 <= i < |TemplateFiles(es)| ==>
              HasPrefix(TemplateFiles(es)[i].path, TemplateBase) && TemplateFiles(es)[i].loads
    ensures r.Templates? ==> |r.names| == |TemplateFiles(es)|
    ensures r.Templates? ==> forall i :: 0 <= i < |r.names| ==>
              TemplateBase + r.names[i] == TemplateFiles(es)[i].path
  {
    if |es| == 0 then Templates([])
    else
      var e := es[|es| - 1];
      match LoadTemplates(es[..|es| - 1])
      case LoadPanicked =>
        var init := TemplateFiles(es[..|es| - 1]);
        assert TemplateFiles(es)[..|init|] == init;
        LoadPanicked
      case Templates(names) =>
        if !IsTemplate(e) then Templates(names)
        else if !HasPrefix(e.path, TemplateBase) || !e.loads then
          assert TemplateFiles(es) == TemplateFiles(es[..|es| - 1]) + [e];
          assert TemplateFiles(es)[|TemplateFiles(es[..|es| - 1])|] == e;
          LoadPanicked
        else
          var name := e.path[|TemplateBase|..];
          assert TemplateBase + name == e.path;
          Templates(names + [name])
  }

  lemma SuffixOutsideBase(name: string, path: string)
    requires TemplateBase + name == path && HasSuffix(path, ".html")
    ensures |name| >= 5
  {
    var tail := path[|path| - 5..];
    assert tail == ".html";
    assert forall j :: |path| - 5 <= j < |path| ==> path[j] == tail[j - (|path| - 5)];
    assert forall j :: |path| - 5 <= j < |path| ==> path[j] != '/';
    assert path[|TemplateBase| - 1] == '/';
  }

  /** Every registered name is a `.html` name. */
  lemma NamesAreHtml(es: seq<Entry>, i: int)
    requires LoadTemplates(es).Templates? && 0 <= i < |LoadTemplates(es).names|
    ensures HasSuffix(LoadTemplates(es).names[i], ".html")
  {
    var name := LoadTemplates(es).names[i];
    var path := TemplateFiles(es)[i].path;
    assert TemplateBase + name == path;
    assert HasSuffix(path, ".html");
    SuffixOutsideBase(name, path);
    assert path[|path| - 5..] == name[|name| - 5..];
  }

  /** `ServePage`'s choice of template: the path less `/~dustin/`, with
      `index.html` added for the empty page and for a directory. `None` is
      the panic for a path outside `/~dustin/`. */
  function PageFor(urlPath: string): (page: Option<string>)
    ensures page.None? <==> !HasPrefix(urlPath, PageBase)
    ensures page.Some? ==> |page.value| > 0 && !HasSuffix(page.value, "/")
    ensures page.Some? ==> var rest := urlPath[|PageBase|..];
              (rest != "" && !HasSuffix(rest, "/") ==> page.value == rest)
              && (rest == "" || HasSuffix(rest, "/") ==> page.value == rest + IndexPage)
  {
    if !HasPrefix(urlPath, PageBase) then None
    else
      var rest := urlPath[|PageBase|..];
      if rest == "" || HasSuffix(rest, "/") then
        assert (rest + IndexPage)[|rest + IndexPage| - 1] == 'l';
        Some(rest + IndexPage)
      else Some(rest)
  }

  /** Every registered template is served at `/~dustin/` plus its name. */
  lemma TemplatesAreReachable(es: seq<Entry>, i: int)
    requires LoadTemplates(es).Templates? && 0 <= i < |LoadTemplates(es).names|
    ensures PageFor(PageBase + LoadTemplates(es).names[i]) == Some(LoadTemplates(es).names[i])
  {
    var name := LoadTemplates(es).names[i];
    NamesAreHtml(es, i);
    var url := PageBase + name;
    assert url[..|PageBase|] == PageBase;
    assert url[|PageBase|..] == name;
    assert name[|name| - 1] == 'l';
  }
}

=== FILE: gotext.dfy ===
/** The parts of Go's string and number formatting that the modelled code
    relies on: decimal formatting (`%v`, zero-padded time fields),
    `strconv.Atoi`, and prefix/suffix tests. */
module GoText {
  import opened Util

  predicate IsDigit(c: char)
  {
    '0' <= c <= '9'
  }

  predicate AllDigits(s: string)
  {
    forall i :: 0 <= i < |s| ==> IsDigit(s[i])
  }

  function DigitChar(d: int): (c: char)
    requires 0 <= d < 10
    ensures IsDigit(c)
  {
    (('0' as int) + d) as char
  }

  function DigitValue(c: char): (d: nat)
    requires IsDigit(c)
    ensures d < 10
  {
    (c as int) - ('0' as int)
  }

  /** The decimal digits of `n`, most significant first, without leading zeros. */
  function Digits(n: nat): (s: string)
    ensures |s| >= 1 && AllDigits(s)
    ensures |s| > 1 ==> s[0] != '0'
    decreases n
  {
    if n < 10 then [DigitChar(n)] else Digits(n / 10) + [DigitChar(n % 10)]
  }

  /** The number a string of decimal digits denotes (leading zeros allowed). */
  function DigitsValue(s: string): nat
    requires AllDigits(s)
    decreases |s|
  {
    if |s| == 0 then 0 else DigitsValue(s[..|s| - 1]) * 10 + DigitValue(s[|s| - 1])
  }

  /** Reading back the digits of `n` gives `n`. */
  lemma {:induction false} DigitsRoundTrip(n: nat)
    ensures DigitsValue(Digits(n)) == n
    decreases n
  {
    if n >= 10 {
      var s := Digits(n);
      assert s[..|s| - 1] == Digits(n / 10);
      DigitsRoundTrip(n / 10);
    }
  }

  function Zeros(k: nat): (s: string)
    ensures |s| == k && forall i :: 0 <= i < k ==> s[i] == '0'
  {
    if k == 0 then [] else Zeros(k - 1) + ['0']
  }

  /** Leading zeros do not change the value of a digit string. */
  lemma {:induction false} LeadingZerosValue(k: nat, s: string)
    requires AllDigits(s)
    ensures AllDigits(Zeros(k) + s) && DigitsValue(Zeros(k) + s) == DigitsValue(s)
    decreases |s|
  {
    var z := Zeros(k) + s;
    if |s| == 0 {
      assert z == Zeros(k);
      ZerosValue(k);
    } else {
      assert z[..|z| - 1] == Zeros(k) + s[..|s| - 1];
      LeadingZerosValue(k, s[..|s| - 1]);
    }
  }

  lemma {:induction false} ZerosValue(k: nat)
    ensures DigitsValue(Zeros(k)) == 0
    decreases k
  {
    if k > 0 {
      var z, shorter := Zeros(k), Zeros(k - 1);
      assert z[..k - 1] == shorter;
      ZerosValue(k - 1);
      assert DigitsValue(z) == DigitsValue(shorter) * 10 + DigitValue(z[k - 1]);
    }
  }

  /** Go's `appendInt(x, width)` used by time formatting: a minus sign for a
      negative number, then the digits of its magnitude left-padded with
      zeros to `width` characters. */
  function PadInt(x: int, width: nat): string
  {
    var m := if x < 0 then -x else x;
    var ds := Digits(m);
    var padded := if |ds| >= width then ds else Zeros(width - |ds|) + ds;
    if x < 0 then "-" + padded else padded
  }

  /** `%v` of an integer. */
  function Itoa(x: int): string
  {
    PadInt(x, 0)
  }

  function Pow10(k: nat): (p: nat)
    ensures p >= 1
  {
    if k == 0 then 1 else 10 * Pow10(k - 1)
  }

  lemma {:induction false} DigitsLength(n: nat, k: nat)
    requires 1 <= k && n < Pow10(k)
    ensures |Digits(n)| <= k
    decreases k
  {
    if n >= 10 {
      assert k >= 2;
      DigitsLength(n / 10, k - 1);
    }
  }

  /** For `0 <= x < 10^width` the padded form has exactly `width` digits and
      reads back as `x`. */
  lemma PadIntExact(x: int, width: nat)
    requires 1 <= width && 0 <= x < Pow10(width)
    ensures |PadInt(x, width)| == width
    ensures AllDigits(PadInt(x, width)) && DigitsValue(PadInt(x, width)) == x
  {
    DigitsLength(x, width);
    var ds := Digits(x);
    DigitsRoundTrip(x);
    if |ds| < width {
      LeadingZerosValue(width - |ds|, ds);
    }
  }

  /** The range of Go's `int` on a 64-bit platform. */
  predicate Int64(x: int)
  {
    -0x8000_0000_0000_0000 <= x < 0x8000_0000_0000_0000
  }

  /** Go's `strconv.Atoi` on a 64-bit platform: an optional sign, then at
      least one decimal digit and nothing else; the value must fit in int64. */
  function Atoi(s: string): (r: Option<int>)
    ensures r.Some? ==> Int64(r.value)
    ensures r.Some? ==> |s| >= 1
  {
    if |s| == 0 then None
    else
      var neg := s[0] == '-';
      var body := if s[0] == '+' || s[0] == '-' then s[1..] else s;
      if |body| == 0 || !AllDigits(body) then None
      else
        var v: int := DigitsValue(body);
        if !neg && v < 0x8000_0000_0000_0000 then Some(v)
        else if neg && v <= 0x8000_0000_0000_0000 then Some(-v)
        else None
  }

  /** A plain digit string within range reads as its value. */
  lemma AtoiOfDigits(s: string)
    requires |s| >= 1 && AllDigits(s) && DigitsValue(s) < 0x8000_0000_0000_0000
    ensures Atoi(s) == Some(DigitsValue(s))
  {
    assert !IsDigit('+') && !IsDigit('-');
  }

  /** Any character other than a digit, except a leading sign, is rejected. */
  lemma AtoiRejects(s: string, i: int)
    requires 0 <= i < |s| && !IsDigit(s[i]) && (i > 0 || (s[0] != '+' && s[0] != '-'))
    ensures Atoi(s) == None
  {
    if i > 0 && (s[0] == '+' || s[0] == '-') {
      assert s[1..][i - 1] == s[i];
    }
  }

  /** `%v` then `strconv.Atoi` gives back any int64. */
  lemma ItoaAtoiRoundTrip(x: int)
    requires Int64(x)
    ensures Atoi(Itoa(x)) == Some(x)
  {
    var m := if x < 0 then -x else x;
    DigitsRoundTrip(m);
    if x < 0 {
      assert Itoa(x) == "-" + Digits(m);
      assert Itoa(x)[1..] == Digits(m);
    } else {
      assert Itoa(x) == Digits(m);
    }
  }

  predicate HasPrefix(s: string, p: string)
  {
    |p| <= |s| && s[..|p|] == p
  }

  predicate HasSuffix(s: string, p: string)
  {
    |p| <= |s| && s[|s| - |p|..] == p
  }

  /** The first element of `strings.Split(s, sep)` for a one-character
      separator: everything before the first `sep`, or all of `s`. */
  function BeforeFirst(s: string, sep: char): (r: string)
    ensures |r| <= |s| && r == s[..|r|]
    ensures sep !in r
    ensures |r| < |s| ==> s[|r|] == sep
  {
    if |s| == 0 then ""
    else if s[0] == sep then ""
    else [s[0]] + BeforeFirst(s[1..], sep)
  }
}

=== FILE: house_batch.dfy ===
/** The consumer side of the house pipeline (`house/input.go`): lease a
    batch of queued readings, merge them with the cached per-sensor series
    and the cached "current" snapshot, write the result back, persist the
    readings, and delete the batch from the queue; then drain the queue
    batch after batch. */
module HouseBatch {
  import opened Util
  import opened GoText
  import opened HouseData
  import opened Memcache
  import opened HouseIngest

  const MaxItems := 250
  const MaxPullTasks := 1000
  const CurrentExpiry := 900
  const SensorExpiry := 86400
  const CurrentKey := "current"

  /** The cache key of a sensor's series. */
  function SeriesKey(sn: string): (k: string)
    ensures HasPrefix(k, "r-") && k[2..] == sn
    ensures k != CurrentKey
  {
    assert ("r-" + sn)[0] == 'r' && CurrentKey[0] == 'c';
    "r-" + sn
  }

  function SeriesKeys(serials: set<string>): (ks: set<string>)
    ensures forall sn :: SeriesKey(sn) in ks <==> sn in serials
    ensures forall k :: k in ks ==> |k| >= 2 && k[2..] in serials && SeriesKey(k[2..]) == k
    ensures CurrentKey !in ks
  {
    set sn | sn in serials :: SeriesKey(sn)
  }

  /** The readings carried by the leased tasks, in lease order. */
  function Payloads(tasks: seq<Task>): (rs: seq<Reading>)
    ensures |rs| == |tasks| && forall i :: 0 <= i < |tasks| ==> rs[i] == tasks[i].payload
  {
    seq(|tasks|, i requires 0 <= i < |tasks| => tasks[i].payload)
  }

  /** The serials that occur in a batch. */
  function Leased(rs: seq<Reading>): (s: set<string>)
    ensures forall sn :: sn in s <==> exists i :: 0 <= i < |rs| && rs[i].serial == sn
  {
    set i | 0 <= i < |rs| :: rs[i].serial
  }

  /** The readings of one serial, in batch order. */
  function ForSerial(rs: seq<Reading>, sn: string): (r: seq<Reading>)
    ensures forall x :: x in r ==> x.serial == sn
    ensures forall x: Reading :: x.serial == sn ==> multiset(r)[x] == multiset(rs)[x]
    ensures |r| <= |rs|
    decreases |rs|
  {
    if |rs| == 0 then []
    else
      assert rs == [rs[0]] + rs[1..];
      var rest := ForSerial(rs[1..], sn);
      if rs[0].serial == sn then [rs[0]] + rest else rest
  }

  /** The "current" snapshot as fetched: the decoded map, or empty when it
      is missing or does not decode. */
  function DecodeCurrent(fetched: Cache): (m: map<string, real>)
    ensures CurrentKey in fetched && fetched[CurrentKey].CurrentMap? ==> m == fetched[CurrentKey].values
    ensures !(CurrentKey in fetched && fetched[CurrentKey].CurrentMap?) ==> m == map[]
  {
    if CurrentKey in fetched && fetched[CurrentKey].CurrentMap? then fetched[CurrentKey].values else map[]
  }

  /** A sensor's cached series as fetched; a missing or undecodable entry
      contributes nothing. */
  function CachedSeries(fetched: Cache, sn: string): (rs: seq<Reading>)
    ensures SeriesKey(sn) in fetched && fetched[SeriesKey(sn)].Series? ==> rs == fetched[SeriesKey(sn)].readings
    ensures !(SeriesKey(sn) in fetched && fetched[SeriesKey(sn)].Series?) ==> rs == []
  {
    var k := SeriesKey(sn);
    if k in fetched && fetched[k].Series? then fetched[k].readings else []
  }

  /** Everything known about a sensor before the write: its new readings in
      batch order followed by its cached series. */
  function Combined(rs: seq<Reading>, fetched: Cache, sn: string): seq<Reading>
  {
    ForSerial(rs, sn) + CachedSeries(fetched, sn)
  }

  /** The series written back for a sensor: newest first, at most 250. */
  function Stored(rs: seq<Reading>, fetched: Cache, sn: string): seq<Reading>
  {
    Newest(Sort(Combined(rs, fetched, sn)), MaxItems)
  }

  /** A sensor of the batch always has a non-empty stored series, so taking
      its head never fails. */
  lemma StoredNonEmpty(rs: seq<Reading>, fetched: Cache, sn: string)
    requires sn in Leased(rs)
    ensures |Stored(rs, fetched, sn)| > 0
  {
    var i :| 0 <= i < |rs| && rs[i].serial == sn;
    assert rs[i] in multiset(rs);
    assert rs[i] in ForSerial(rs, sn);
  }

  /** The value at the head of a series (the series is never empty where
      this is used). */
  function HeadValue(s: seq<Reading>): real
  {
    if |s| > 0 then s[0].value else 0.0
  }

  /** The "current" snapshot written back: the fetched one, with every
      sensor of the batch set to the value at the head of its stored series. */
  function NewCurrent(rs: seq<Reading>, fetched: Cache): map<string, real>
  {
    DecodeCurrent(fetched) + map sn | sn in Leased(rs) :: HeadValue(Stored(rs, fetched, sn))
  }

  /** The items of the `SetMulti` call: "current" and one series per sensor
      of the batch, with the given expiries. */
  function MergedItems(rs: seq<Reading>, fetched: Cache, currentExpiry: int, sensorExpiry: int)
    : (items: map<string, Item>)
    ensures items.Keys == {CurrentKey} + SeriesKeys(Leased(rs))
    ensures items[CurrentKey] == Item(CurrentMap(NewCurrent(rs, fetched)), currentExpiry)
    ensures forall sn :: sn in Leased(rs) ==>
              items[SeriesKey(sn)] == Item(Series(Stored(rs, fetched, sn)), sensorExpiry)
  {
    SeriesItems(rs, fetched, sensorExpiry)[CurrentKey := Item(CurrentMap(NewCurrent(rs, fetched)), currentExpiry)]
  }

  /** One series item per sensor of the batch, keyed by its series key. */
  function SeriesItems(rs: seq<Reading>, fetched: Cache, sensorExpiry: int): (items: map<string, Item>)
    ensures items.Keys == SeriesKeys(Leased(rs))
    ensures forall sn :: sn in Leased(rs) ==>
              items[SeriesKey(sn)] == Item(Series(Stored(rs, fetched, sn)), sensorExpiry)
  {
    map k | k in SeriesKeys(Leased(rs)) :: SeriesItem(rs, fetched, sensorExpiry, k)
  }

  /** The item for a series key: the stored series of the serial it names. */
  function SeriesItem(rs: seq<Reading>, fetched: Cache, sensorExpiry: int, k: string): Item
    requires |k| >= 2
  {
    Item(Series(Stored(rs, fetched, k[2..])), sensorExpiry)
  }

  /** The keys fetched for a batch: "current" and every batch sensor's series. */
  function FetchKeys(rs: seq<Reading>): set<string>
  {
    {CurrentKey} + SeriesKeys(Leased(rs))
  }

  /** What the environment answers during one batch. `getOk`, `setOk` and
      `deleteOk` say whether `GetMulti`, `SetMulti` and `DeleteMulti`
      succeed; `putOk(k)` whether the k-th datastore write succeeds. */
  datatype Env = Env(lease: Result<seq<Task>>, getOk: bool, putOk: nat -> bool,
                     setOk: bool, deleteOk: bool)

  /** The pull queue's contents and the cache. */
  datatype State = State(queue: multiset<Task>, cache: Cache)

  /** `processBatch` returns a count and an error, or panics (`must`). A
      panic keeps what was already done: writes stay, and the leased tasks
      stay queued, to be leased and merged again later. */
  datatype BatchResult = Returned(n: nat, err: Option<string>, after: State) | Panicked(after: State)

  /** Whether the persistence of the batch fails. */
  predicate PersistFails(rs: seq<Reading>, env: Env)
  {
    PersistReadings(rs, PersistEnabled, env.putOk).failed
  }

  /** The errors of the two concurrent writers, as `consumeErrors` sees them. */
  function WriteErrors(rs: seq<Reading>, env: Env): seq<Option<string>>
  {
    [ if PersistFails(rs, env) then Some("datastore write failed") else None,
      if env.setOk then None else Some("memcache write failed") ]
  }

  /** Whether `consumeErrors` reports an error for the two writers. Which
      of two errors arrives last is left to the scheduler; whether there is
      one is not. */
  predicate WriteFails(tasks: seq<Task>, env: Env)
    ensures WriteFails(tasks, env) <==> PersistFails(Payloads(tasks), env) || !env.setOk
  {
    ConsumeErrors(WriteErrors(Payloads(tasks), env)).Some?
  }

  /** The cache once a non-empty batch has been merged and written back
      (unchanged when `SetMulti` fails). */
  function WrittenCache(tasks: seq<Task>, env: Env, st: State): Cache
  {
    var rs := Payloads(tasks);
    var fetched := GetMulti(st.cache, FetchKeys(rs), env.getOk);
    if env.setOk then SetMulti(st.cache, MergedItems(rs, fetched, CurrentExpiry, SensorExpiry))
    else st.cache
  }

  /** `processBatch`. A failed lease is reported; a failed write is logged
      away as "nothing processed" and leaves the batch queued; a failed
      delete panics after the cache has been written; otherwise the batch
      is deleted from the queue and counted. */
  function ProcessBatch(env: Env, st: State): (res: BatchResult)
    ensures env.lease.Err? ==> res == Returned(0, Some(env.lease.msg), st)
    ensures env.lease == Ok([]) ==> res == Returned(0, None, st)
    ensures res.Returned? && res.err.Some? ==> env.lease.Err?
    ensures res.Returned? && res.n > 0 ==>
              env.lease.Ok? && res.n == |env.lease.value| && res.err.None?
              && res.after.queue == st.queue - multiset(env.lease.value)
    ensures res.Returned? && res.n == 0 ==> res.after.queue == st.queue
    ensures res.Panicked? <==>
              env.lease.Ok? && |env.lease.value| > 0 && env.setOk
              && !PersistFails(Payloads(env.lease.value), env) && !env.deleteOk
    ensures !env.setOk ==> res.Returned? && res.n == 0 && res.err.None? == env.lease.Ok? && res.after == st
    ensures env.lease.Ok? && |env.lease.value| > 0 && WriteFails(env.lease.value, env) ==>
              res == Returned(0, None, State(st.queue, WrittenCache(env.lease.value, env, st)))
    ensures env.lease.Ok? && |env.lease.value| > 0 && !WriteFails(env.lease.value, env) && env.deleteOk ==>
              res == Returned(|env.lease.value|, None,
                              State(st.queue - multiset(env.lease.value), WrittenCache(env.lease.value, env, st)))
    ensures res.Panicked? ==> res.after == State(st.queue, WrittenCache(env.lease.value, env, st))
  {
    match env.lease
    case Err(e) => Returned(0, Some(e), st)
    case Ok(tasks) =>
      if |tasks| == 0 then Returned(0, None, st)
      else if WriteFails(tasks, env) then Returned(0, None, State(st.queue, WrittenCache(tasks, env, st)))
      else if !env.deleteOk then Panicked(State(st.queue, WrittenCache(tasks, env, st)))
      else Returned(|tasks|, None, State(st.queue - multiset(tasks), WrittenCache(tasks, env, st)))
  }

  /** The stored series of a sensor is newest first, keeps everything when
      there are at most 250 readings, and otherwise keeps only readings at
      least as recent as every dropped one. Duplicates are not removed. */
  lemma StoredSeries(rs: seq<Reading>, fetched: Cache, sn: string)
    ensures var s := Stored(rs, fetched, sn); var all := Combined(rs, fetched, sn);
      && NewestFirst(s)
      && |s| == Min(|all|, MaxItems)
      && multiset(s) <= multiset(all)
      && (|all| <= MaxItems ==> multiset(s) == multiset(all))
      && forall y, z :: y in s && z in multiset(all) - multiset(s) ==> Instant(y) >= Instant(z)
  {
    var all := Combined(rs, fetched, sn);
    NewestAreMostRecent(all, MaxItems);
    if |all| <= MaxItems {
      assert Newest(Sort(all), MaxItems) == Sort(all);
    }
  }

  /** The snapshot value of each batch sensor is the value of one of its
      most recent readings, new or cached; other sensors keep the fetched
      value. */
  lemma CurrentIsNewest(rs: seq<Reading>, fetched: Cache, sn: string)
    ensures NewCurrent(rs, fetched).Keys == DecodeCurrent(fetched).Keys + Leased(rs)
    ensures sn in Leased(rs) ==>
      exists y :: y in Combined(rs, fetched, sn) && NewCurrent(rs, fetched)[sn] == y.value
        && forall z :: z in Combined(rs, fetched, sn) ==> Instant(y) >= Instant(z)
    ensures sn !in Leased(rs) && sn in DecodeCurrent(fetched) ==>
      NewCurrent(rs, fetched)[sn] == DecodeCurrent(fetched)[sn]
  {
    if sn in Leased(rs) {
      StoredNonEmpty(rs, fetched, sn);
      var all := Combined(rs, fetched, sn);
      var sorted := Sort(all);
      var y := Stored(rs, fetched, sn)[0];
      assert y == sorted[0];
      assert y in multiset(all);
      forall z | z in all
        ensures Instant(y) >= Instant(z)
      {
        HeadIsNewest(sorted, z);
      }
    }
  }

  /** When `GetMulti` fails, the snapshot written back holds only the
      sensors of this batch: every other sensor drops out of "current". */
  lemma MultigetFailureDropsOtherSensors(cache: Cache, rs: seq<Reading>)
    ensures NewCurrent(rs, GetMulti(cache, FetchKeys(rs), false)).Keys == Leased(rs)
  {
    assert DecodeCurrent(GetMulti(cache, FetchKeys(rs), false)) == map[];
  }

  /** A batch that is written back changes only "current" and the series of
      its own sensors; every other cache entry stays as it was. */
  lemma BatchCacheEffect(env: Env, st: State)
    requires env.lease.Ok? && |env.lease.value| > 0 && env.setOk
    requires ProcessBatch(env, st).Returned?
    ensures var rs := Payloads(env.lease.value);
      var fetched := GetMulti(st.cache, FetchKeys(rs), env.getOk);
      var cache := ProcessBatch(env, st).after.cache;
      && cache.Keys == st.cache.Keys + FetchKeys(rs)
      && cache[CurrentKey] == CurrentMap(NewCurrent(rs, fetched))
      && (forall sn :: sn in Leased(rs) ==> cache[SeriesKey(sn)] == Series(Stored(rs, fetched, sn)))
      && (forall k :: k in st.cache && k !in FetchKeys(rs) ==> cache[k] == st.cache[k])
  {
  }

  /** A failed cache write stops the batch as if nothing had been leased:
      the batch stays queued, the cache is untouched, and no error is
      returned. */
  lemma WriteFailureIsSwallowed(env: Env, st: State)
    requires env.lease.Ok? && |env.lease.value| > 0 && !env.setOk
    ensures ProcessBatch(env, st) == Returned(0, None, st)
  {
  }

  /** How draining the queue ended: `processInput` returned (with the error
      it returned, the state, and the number of tasks deleted), a batch
      panicked, or the environment script ran out first. */
  datatype Drain = Finished(err: Option<string>, after: State, processed: nat)
                 | DrainPanicked(after: State)
                 | Unfinished(after: State, processed: nat)

  /** `processInput` over a batch step: batches until one reports an error
      or processes fewer than 1000 tasks. `envs[k]` answers the k-th batch;
      `done` counts the tasks deleted so far. The house handler's step is
      `ProcessBatch`. */
  function ProcessInput(step: (Env, State) -> BatchResult, envs: seq<Env>, st: State, done: nat): (d: Drain)
    ensures d.Finished? ==> d.processed >= done
    decreases |envs|
  {
    if |envs| == 0 then Unfinished(st, done)
    else
      match step(envs[0], st)
      case Panicked(wrote) => DrainPanicked(wrote)
      case Returned(n, err, next) =>
        if err.Some? then Finished(err, next, done)
        else if n < MaxPullTasks then Finished(None, next, done + n)
        else ProcessInput(step, envs[1..], next, done + n)
  }

  /** The state in which the k-th batch of a drain starts, as long as every
      earlier batch returned. */
  function StateBefore(step: (Env, State) -> BatchResult, envs: seq<Env>, st: State, k: nat): State
    decreases k
  {
    if k == 0 || |envs| == 0 then st
    else
      match step(envs[0], st)
      case Panicked(_) => st
      case Returned(_, _, next) => StateBefore(step, envs[1..], next, k - 1)
  }

  /** What the k-th batch of a drain returns. */
  function Outcome(step: (Env, State) -> BatchResult, envs: seq<Env>, st: State, k: nat): BatchResult
    requires k < |envs|
  {
    step(envs[k], StateBefore(step, envs, st, k))
  }

  predicate FullBatch(r: BatchResult)
  {
    r.Returned? && r.err.None? && r.n >= MaxPullTasks
  }

  predicate ShortBatch(r: BatchResult)
  {
    r.Returned? && r.err.None? && r.n < MaxPullTasks
  }

  lemma OutcomeShift(step: (Env, State) -> BatchResult, envs: seq<Env>, st: State, k: nat)
    requires k + 1 < |envs| && step(envs[0], st).Returned?
    ensures Outcome(step, envs, st, k + 1) == Outcome(step, envs[1..], step(envs[0], st).after, k)
  {
    assert envs[k + 1] == envs[1..][k];
  }

  /** The drain leases again exactly after full batches: after `k` full
      batches, a short one ends it cleanly. */
  lemma {:induction false} ShortBatchEndsDrain(step: (Env, State) -> BatchResult, envs: seq<Env>, st: State,
                                               done: nat, k: nat)
    requires k < |envs|
    requires forall j :: 0 <= j < k ==> FullBatch(Outcome(step, envs, st, j))
    requires ShortBatch(Outcome(step, envs, st, k))
    ensures ProcessInput(step, envs, st, done).Finished?
    ensures ProcessInput(step, envs, st, done).err.None?
    decreases k
  {
    if k > 0 {
      assert FullBatch(Outcome(step, envs, st, 0));
      var next := step(envs[0], st).after;
      var n := step(envs[0], st).n;
      forall j | 0 <= j < k - 1
        ensures FullBatch(Outcome(step, envs[1..], next, j))
      {
        OutcomeShift(step, envs, st, j);
        assert FullBatch(Outcome(step, envs, st, j + 1));
      }
      OutcomeShift(step, envs, st, k - 1);
      ShortBatchEndsDrain(step, envs[1..], next, done + n, k - 1);
    }
  }

  /** Conversely, a clean end comes from a short batch after full ones. */
  lemma {:induction false} CleanEndIsShortBatch(step: (Env, State) -> BatchResult, envs: seq<Env>, st: State,
                                                done: nat)
    requires ProcessInput(step, envs, st, done).Finished? && ProcessInput(step, envs, st, done).err.None?
    ensures exists k :: 0 <= k < |envs| && ShortBatch(Outcome(step, envs, st, k))
              && forall j :: 0 <= j < k ==> FullBatch(Outcome(step, envs, st, j))
    decreases |envs|
  {
    var r := step(envs[0], st);
    assert Outcome(step, envs, st, 0) == r;
    if !ShortBatch(r) {
      var next := r.after;
      CleanEndIsShortBatch(step, envs[1..], next, done + r.n);
      var k :| 0 <= k < |envs[1..]| && ShortBatch(Outcome(step, envs[1..], next, k))
               && forall j :: 0 <= j < k ==> FullBatch(Outcome(step, envs[1..], next, j));
      OutcomeShift(step, envs, st, k);
      forall j | 0 <= j < k + 1
        ensures FullBatch(Outcome(step, envs, st, j))
      {
        if j > 0 {
          OutcomeShift(step, envs, st, j - 1);
        }
      }
    }
  }

  /** The HTTP status `ConsumeInput` answers with: 500 when an error was
      returned, 204 otherwise; none when a batch panicked. */
  function ConsumeStatus(d: Drain): (status: Option<int>)
    ensures status == Some(500) <==> d.Finished? && d.err.Some?
    ensures status == Some(204) <==> d.Finished? && d.err.None?
  {
    if !d.Finished? then None
    else if d.err.Some? then Some(500)
    else Some(204)
  }

  /** The drain loop of `processInput`. */
  method DrainLoop(step: (Env, State) -> BatchResult, envs: seq<Env>, st: State) returns (d: Drain)
    ensures d == ProcessInput(step, envs, st, 0)
  {
    var k := 0;
    var cur := st;
    var done: nat := 0;
    while k < |envs|
      invariant 0 <= k <= |envs|
      invariant ProcessInput(step, envs, st, 0) == ProcessInput(step, envs[k..], cur, done)
    {
      assert envs[k..][1..] == envs[k + 1..];
      var res := step(envs[k], cur);
      if res.Panicked? {
        return DrainPanicked(res.after);
      }
      if res.err.Some? {
        return Finished(res.err, res.after, done);
      }
      if res.n < MaxPullTasks {
        return Finished(None, res.after, done + res.n);
      }
      cur := res.after;
      done := done + res.n;
      k := k + 1;
    }
    return Unfinished(cur, done);
  }

  /** `ConsumeInput`: drain with the house batch step and answer. */
  method ConsumeInput(envs: seq<Env>, st: State) returns (status: Option<int>, d: Drain)
    ensures d == ProcessInput(ProcessBatch, envs, st, 0)
    ensures status == ConsumeStatus(d)
  {
    d := DrainLoop(ProcessBatch, envs, st);
    status := ConsumeStatus(d);
  }

  /** A batch step accounts for the queue: a batch that reports `n > 0`
      deleted exactly its `n` leased tasks, one that reports 0 deleted
      nothing, and one that reports an error reports 0. */
  ghost predicate QueueAccounting(step: (Env, State) -> BatchResult)
  {
    forall env, st :: step(env, st).Returned? ==>
      && (step(env, st).n > 0 ==>
            env.lease.Ok? && step(env, st).n == |env.lease.value|
            && step(env, st).after.queue == st.queue - multiset(env.lease.value))
      && (step(env, st).n == 0 ==> step(env, st).after.queue == st.queue)
      && (step(env, st).err.Some? ==> step(env, st).n == 0)
  }

  lemma HouseBatchAccounts()
    ensures QueueAccounting(ProcessBatch)
  {
  }

  /** Every lease of the drain is drawn from the queue as it then is. */
  predicate LeasesFromQueue(step: (Env, State) -> BatchResult, envs: seq<Env>, st: State)
    decreases |envs|
  {
    |envs| > 0 ==>
      && (envs[0].lease.Ok? ==> multiset(envs[0].lease.value) <= st.queue)
      && match step(envs[0], st)
         case Returned(n, None, next) => n >= MaxPullTasks ==> LeasesFromQueue(step, envs[1..], next)
         case _ => true
  }

  lemma SubtractCard<T>(q: multiset<T>, m: multiset<T>)
    requires m <= q
    ensures |q - m| == |q| - |m|
  {
    assert (q - m) + m == q;
  }

  /** Draining neither loses nor invents tasks: what is left in the queue
      plus what was processed is what the queue held. */
  lemma {:induction false} DrainConservesTasks(step: (Env, State) -> BatchResult, envs: seq<Env>, st: State, done: nat)
    requires QueueAccounting(step) && LeasesFromQueue(step, envs, st)
    ensures var d := ProcessInput(step, envs, st, done);
      d.Finished? ==> |d.after.queue| + d.processed == |st.queue| + done
    decreases |envs|
  {
    if |envs| > 0 {
      var env := envs[0];
      var res := step(env, st);
      assert res.Returned? ==> res.after.queue == st.queue || (res.n > 0 && env.lease.Ok?);
      if res.Returned? && res.n > 0 {
        SubtractCard(st.queue, multiset(env.lease.value));
      }
      if res.Returned? && res.err.None? && res.n >= MaxPullTasks {
        DrainConservesTasks(step, envs[1..], res.after, done + res.n);
      }
    }
  }

  /** The house drain conserves tasks. */
  lemma HouseDrainConservesTasks(envs: seq<Env>, st: State)
    requires LeasesFromQueue(ProcessBatch, envs, st)
    ensures var d := ProcessInput(ProcessBatch, envs, st, 0);
      d.Finished? ==> |d.after.queue| + d.processed == |st.queue|
  {
    HouseBatchAccounts();
    DrainConservesTasks(ProcessBatch, envs, st, 0);
  }

  /** A failed cache write ends the drain at once with 204: the failure is
      not reported to the caller and the leased batch stays queued. */
  lemma WriteFailureEndsDrainQuietly(envs: seq<Env>, st: State)
    requires |envs| > 0 && envs[0].lease.Ok? && |envs[0].lease.value| > 0 && !envs[0].setOk
    ensures ProcessInput(ProcessBatch, envs, st, 0) == Finished(None, st, 0)
    ensures ConsumeStatus(ProcessInput(ProcessBatch, envs, st, 0)) == Some(204)
  {
    WriteFailureIsSwallowed(envs[0], st);
  }
}

=== FILE: house_config.dfy ===
/** The static floor-plan configuration: rooms with their rectangles,
    comfort range, thermostat point and sparkline box, and the index from
    sensor serial to room that is built once at load time. */
module HouseConfig {
  import opened Util

  datatype Rect = Rect(x: int, y: int, w: int, h: int)

  datatype Point = Point(x: int, y: int)

  /** A room as configured. A zero coordinate or size means "derive it". */
  datatype Room = Room(sn: string, max: real, min: real, rect: Rect,
                       therm: Point, spark: Rect, reading: Point, name: string)

  datatype Dims = Dims(h: int, w: int)

  datatype Config = Config(dims: Dims, maxRelevantDistance: real,
                           rooms: map<string, Room>, bySerial: map<string, Room>,
                           colorize: seq<string>)

  /** The width of a room's sparkline: the configured one, or the room's. */
  function SparkWidth(room: Room): (w: int)
    ensures room.spark.w != 0 ==> w == room.spark.w
    ensures room.spark.w == 0 ==> w == room.rect.w
    ensures w == 0 <==> room.spark.w == 0 && room.rect.w == 0
  {
    if room.spark.w != 0 then room.spark.w else room.rect.w
  }

  /** The room registered for a serial, if any. */
  function BySerial(conf: Config, sn: string): (r: Option<Room>)
    ensures r.Some? <==> sn in conf.bySerial
    ensures r.Some? ==> r.value == conf.bySerial[sn]
  {
    if sn in conf.bySerial then Some(conf.bySerial[sn]) else None
  }

  /** The display name for a serial: its room's name, or the serial itself. */
  function NameOf(conf: Config, sn: string): (name: string)
    ensures sn in conf.bySerial ==> name == conf.bySerial[sn].name
    ensures sn !in conf.bySerial ==> name == sn
  {
    match BySerial(conf, sn)
    case None => sn
    case Some(room) => room.name
  }

  /** The serial a room is indexed under: its own, or its key when empty. */
  function IndexSerial(key: string, room: Room): string
  {
    if room.sn == "" then key else room.sn
  }

  /** What opening and decoding the configuration file produced. */
  datatype ConfigSource = OpenFailed(openErr: string)
                        | DecodeFailed(decodeErr: string)
                        | Decoded(raw: Config)

  /** Every room renamed after its key, every other field as decoded. */
  predicate NamedAfterKeys(raw: map<string, Room>, rooms: map<string, Room>)
  {
    && rooms.Keys == raw.Keys
    && forall k :: k in rooms ==> rooms[k] == raw[k].(name := k)
  }

  /** The serial index covers exactly the rooms' index serials, and each
      entry is one (renamed) room indexed under that serial. When several
      rooms share a serial, Go's map iteration order picks the survivor. */
  predicate IndexedBySerial(rooms: map<string, Room>, index: map<string, Room>)
  {
    && (forall k :: k in rooms ==> IndexSerial(k, rooms[k]) in index)
    && (forall s :: s in index ==>
          exists k :: k in rooms && IndexSerial(k, rooms[k]) == s && index[s] == rooms[k])
  }

  /** `LoadConfig`: open and decode errors are returned before any index is
      built; otherwise every room gets its key as name and the serial index
      is filled from the rooms, in some order. */
  method LoadConfig(src: ConfigSource) returns (r: Result<Config>)
    ensures src.OpenFailed? ==> r == Err(src.openErr)
    ensures src.DecodeFailed? ==> r == Err(src.decodeErr)
    ensures src.Decoded? ==> r.Ok?
    ensures r.Ok? ==> (
              && src.Decoded?
              && r.value.dims == src.raw.dims
              && r.value.maxRelevantDistance == src.raw.maxRelevantDistance
              && r.value.colorize == src.raw.colorize
              && NamedAfterKeys(src.raw.rooms, r.value.rooms)
              && IndexedBySerial(r.value.rooms, r.value.bySerial))
  {
    match src {
      case OpenFailed(e) => return Err(e);
      case DecodeFailed(e) => return Err(e);
      case Decoded(raw) =>
        var rooms: map<string, Room> := map[];
        var index: map<string, Room> := map[];
        var todo := raw.rooms.Keys;
        while todo != {}
          invariant todo <= raw.rooms.Keys
          invariant rooms.Keys == raw.rooms.Keys - todo
          invariant forall k :: k in rooms ==> rooms[k] == raw.rooms[k].(name := k)
          invariant forall k :: k in rooms ==> IndexSerial(k, rooms[k]) in index
          invariant forall s :: s in index ==>
                      exists k :: k in rooms && IndexSerial(k, rooms[k]) == s && index[s] == rooms[k]
          decreases todo
        {
          var k :| k in todo;
          var room := raw.rooms[k].(name := k);
          var sn := IndexSerial(k, room);
          index := index[sn := room];
          rooms := rooms[k := room];
          todo := todo - {k};
        }
        return Ok(raw.(rooms := rooms, bySerial := index));
    }
  }

  /** After loading, the name shown for an indexed serial is the key of a
      room indexed under it, and a room's own index serial resolves to a room. */
  lemma LoadedNames(conf: Config, sn: string)
    requires IndexedBySerial(conf.rooms, conf.bySerial)
    requires forall k :: k in conf.rooms ==> conf.rooms[k].name == k
    ensures sn in conf.bySerial ==>
      exists k :: k in conf.rooms && IndexSerial(k, conf.rooms[k]) == sn && NameOf(conf, sn) == k
    ensures (exists k :: k in conf.rooms && IndexSerial(k, conf.rooms[k]) == sn) ==> BySerial(conf, sn).Some?
  {
    if sn in conf.bySerial {
      var k :| k in conf.rooms && IndexSerial(k, conf.rooms[k]) == sn && conf.bySerial[sn] == conf.rooms[k];
      assert NameOf(conf, sn) == k;
    }
  }
}

=== FILE: house_data.dfy ===
/** The reading model of the house sensor pipeline: a timestamped value from
    one sensor, its persistence key, and the newest-first ordering used to
    sort a sensor's history. */
module HouseData {
  import opened Util
  import GoText

  /** An instant as a parsed RFC 3339 timestamp carries it: the civil fields
      in the timestamp's own zone, plus that zone's offset east of UTC in
      seconds. */
  datatype Time = Time(year: int, month: int, day: int,
                       hour: int, minute: int, second: int,
                       nanos: int, offset: int)

  /** Go's zero `time.Time`: January 1 of year 1, 00:00:00 UTC. */
  const ZeroTime := Time(1, 1, 1, 0, 0, 0, 0, 0)

  /** Civil fields within the ranges a parsed timestamp has, with a year that
      formats in four digits. */
  predicate ValidCivil(t: Time)
  {
    && 0 <= t.year <= 9999 && 1 <= t.month <= 12 && 1 <= t.day <= 31
    && 0 <= t.hour < 24 && 0 <= t.minute < 60 && 0 <= t.second < 60
    && 0 <= t.nanos < 1_000_000_000
  }

  /** Days from 1970-01-01 to the given proleptic Gregorian date. */
  function DaysFromCivil(y: int, m: int, d: int): int
  {
    var y' := if m <= 2 then y - 1 else y;
    var era := y' / 400;
    var yoe := y' - era * 400;
    var mp := (m + 9) % 12;
    var doy := (153 * mp + 2) / 5 + d - 1;
    var doe := yoe * 365 + yoe / 4 - yoe / 100 + doy;
    era * 146097 + doe - 719468
  }

  /** The absolute instant, in nanoseconds since the Unix epoch. */
  function UnixNanos(t: Time): int
  {
    var secs := DaysFromCivil(t.year, t.month, t.day) * 86400
                + t.hour * 3600 + t.minute * 60 + t.second - t.offset;
    secs * 1_000_000_000 + t.nanos
  }

  /** Go's `Time.After`: `a` is strictly later than `b` as an instant,
      whatever zones they were written in. */
  predicate After(a: Time, b: Time)
  {
    UnixNanos(a) > UnixNanos(b)
  }

  /** One sample: a sensor serial, the value it reported, and when. */
  datatype Reading = Reading(serial: string, value: real, timestamp: Time)

  function Instant(r: Reading): int
  {
    UnixNanos(r.timestamp)
  }

  /** The timestamp in layout `20060102150405` (Go formats it in the
      timestamp's own zone): four-digit year, then month, day, hour, minute
      and second in two digits each. */
  function Stamp(t: Time): string
  {
    GoText.PadInt(t.year, 4) + GoText.PadInt(t.month, 2) + GoText.PadInt(t.day, 2)
    + GoText.PadInt(t.hour, 2) + GoText.PadInt(t.minute, 2) + GoText.PadInt(t.second, 2)
  }

  /** The persistence key of a reading: its stamp, `_`, then its serial. */
  function Key(r: Reading): string
  {
    Stamp(r.timestamp) + "_" + r.serial
  }

  /** A key with a valid timestamp is fourteen digits, `_`, and the
      serial, so the serial can be read back from it. */
  lemma KeyShape(r: Reading)
    requires ValidCivil(r.timestamp)
    ensures |Key(r)| == 15 + |r.serial| && Key(r)[14] == '_' && Key(r)[15..] == r.serial
    ensures GoText.AllDigits(Key(r)[..14]) && Key(r)[..14] == Stamp(r.timestamp)
  {
    StampShape(r.timestamp);
    var s := Stamp(r.timestamp);
    assert Key(r)[..14] == s;
    assert Key(r)[15..] == r.serial;
  }

  /** Equal up to the second, in the timestamp's own zone. */
  predicate SameSecond(a: Time, b: Time)
  {
    a.year == b.year && a.month == b.month && a.day == b.day
    && a.hour == b.hour && a.minute == b.minute && a.second == b.second
  }

  lemma Pow10Values()
    ensures GoText.Pow10(2) == 100 && GoText.Pow10(4) == 10000
  {
    assert GoText.Pow10(1) == 10;
    assert GoText.Pow10(3) == 1000;
  }

  /** A valid stamp is fourteen digits whose six fixed-width slices read
      back as the six civil fields. */
  lemma StampShape(t: Time)
    requires ValidCivil(t)
    ensures |Stamp(t)| == 14 && GoText.AllDigits(Stamp(t))
    ensures GoText.DigitsValue(Stamp(t)[..4]) == t.year
    ensures GoText.DigitsValue(Stamp(t)[4..6]) == t.month
    ensures GoText.DigitsValue(Stamp(t)[6..8]) == t.day
    ensures GoText.DigitsValue(Stamp(t)[8..10]) == t.hour
    ensures GoText.DigitsValue(Stamp(t)[10..12]) == t.minute
    ensures GoText.DigitsValue(Stamp(t)[12..14]) == t.second
  {
    Pow10Values();
    GoText.PadIntExact(t.year, 4);
    GoText.PadIntExact(t.month, 2);
    GoText.PadIntExact(t.day, 2);
    GoText.PadIntExact(t.hour, 2);
    GoText.PadIntExact(t.minute, 2);
    GoText.PadIntExact(t.second, 2);
    FixedWidthSlices(GoText.PadInt(t.year, 4), GoText.PadInt(t.month, 2), GoText.PadInt(t.day, 2),
                     GoText.PadInt(t.hour, 2), GoText.PadInt(t.minute, 2), GoText.PadInt(t.second, 2));
  }

  /** A four-character field followed by five two-character fields: each
      field is the slice at its offset, and digits throughout make a digit
      string. */
  lemma FixedWidthSlices(a: string, b: string, c: string, d: string, e: string, f: string)
    requires |a| == 4 && |b| == 2 && |c| == 2 && |d| == 2 && |e| == 2 && |f| == 2
    ensures var s := a + b + c + d + e + f;
      && |s| == 14 && s[..4] == a && s[4..6] == b && s[6..8] == c
      && s[8..10] == d && s[10..12] == e && s[12..14] == f
    ensures GoText.AllDigits(a) && GoText.AllDigits(b) && GoText.AllDigits(c)
            && GoText.AllDigits(d) && GoText.AllDigits(e) && GoText.AllDigits(f)
            ==> GoText.AllDigits(a + b + c + d + e + f)
  {
    var s := a + b + c + d + e + f;
    assert s[..4] == a;
    assert s[4..6] == b;
    assert s[6..8] == c;
    assert s[8..10] == d;
    assert s[10..12] == e;
    assert s[12..14] == f;
  }

  lemma StampInjective(t1: Time, t2: Time)
    requires ValidCivil(t1) && ValidCivil(t2) && Stamp(t1) == Stamp(t2)
    ensures SameSecond(t1, t2)
  {
    StampShape(t1);
    StampShape(t2);
  }

  /** Two readings with valid timestamps share a key exactly when they come
      from the same serial within the same second: sub-second readings of
      one sensor collide, distinct sensors never do. */
  lemma KeyCollision(a: Reading, b: Reading)
    requires ValidCivil(a.timestamp) && ValidCivil(b.timestamp)
    ensures Key(a) == Key(b) <==> a.serial == b.serial && SameSecond(a.timestamp, b.timestamp)
  {
    if Key(a) == Key(b) {
      KeyShape(a);
      KeyShape(b);
      StampInjective(a.timestamp, b.timestamp);
    }
  }

  /** `Readings.Len`. */
  function Len(rs: seq<Reading>): (n: nat)
    ensures n == |rs|
  {
    |rs|
  }

  /** `Readings.Less`: position `i` sorts before position `j` when its
      reading is strictly later. */
  predicate Less(rs: seq<Reading>, i: int, j: int)
    requires 0 <= i < |rs| && 0 <= j < |rs|
  {
    After(rs[i].timestamp, rs[j].timestamp)
  }

  /** `Less` is a strict weak order, as `sort.Sort` needs: irreflexive,
      transitive, and readings that are mutually unordered have the same
      instant. */
  lemma LessIsStrictWeakOrder(rs: seq<Reading>, i: int, j: int, k: int)
    requires 0 <= i < |rs| && 0 <= j < |rs| && 0 <= k < |rs|
    ensures !Less(rs, i, i)
    ensures Less(rs, i, j) ==> !Less(rs, j, i)
    ensures Less(rs, i, j) && Less(rs, j, k) ==> Less(rs, i, k)
    ensures !Less(rs, i, j) && !Less(rs, j, i) <==> Instant(rs[i]) == Instant(rs[j])
  {
  }

  /** `Readings.Swap`: exchanges two positions. */
  function Swap(rs: seq<Reading>, i: int, j: int): (r: seq<Reading>)
    requires 0 <= i < |rs| && 0 <= j < |rs|
    ensures |r| == |rs| && r[i] == rs[j] && r[j] == rs[i]
    ensures forall k :: 0 <= k < |rs| && k != i && k != j ==> r[k] == rs[k]
    ensures multiset(r) == multiset(rs)
  {
    rs[i := rs[j]][j := rs[i]]
  }

  /** Newest first: no reading is later than one before it. */
  predicate NewestFirst(rs: seq<Reading>)
  {
    forall i, j :: 0 <= i < j < |rs| ==> Instant(rs[i]) >= Instant(rs[j])
  }

  /** Inserts `x` before the first reading that is not later than it. */
  function Insert(x: Reading, rs: seq<Reading>): (r: seq<Reading>)
    ensures multiset(r) == multiset(rs) + multiset{x}
    ensures |r| == |rs| + 1
    decreases |rs|
  {
    if |rs| == 0 then [x]
    else if Instant(x) >= Instant(rs[0]) then [x] + rs
    else
      assert rs == [rs[0]] + rs[1..];
      [rs[0]] + Insert(x, rs[1..])
  }

  /** Inserting into a newest-first series keeps it newest first. */
  lemma {:induction false} InsertKeepsOrder(x: Reading, rs: seq<Reading>)
    requires NewestFirst(rs)
    ensures NewestFirst(Insert(x, rs))
    ensures Insert(x, rs)[0] == (if |rs| == 0 || Instant(x) >= Instant(rs[0]) then x else rs[0])
    decreases |rs|
  {
    if |rs| > 0 && Instant(x) < Instant(rs[0]) {
      var tail := Insert(x, rs[1..]);
      InsertKeepsOrder(x, rs[1..]);
      ConsKeepsOrder(rs[0], tail);
    } else if |rs| > 0 {
      ConsKeepsOrder(x, rs);
    }
  }

  /** A reading at least as recent as the head of a newest-first series
      can go in front of it. */
  lemma ConsKeepsOrder(x: Reading, rs: seq<Reading>)
    requires NewestFirst(rs) && |rs| > 0 && Instant(x) >= Instant(rs[0])
    ensures NewestFirst([x] + rs)
  {
    var r := [x] + rs;
    forall i, j | 0 <= i < j < |r|
      ensures Instant(r[i]) >= Instant(r[j])
    {
      assert r[j] == rs[j - 1];
      if i == 0 {
        assert Instant(rs[0]) >= Instant(rs[j - 1]);
      } else {
        assert r[i] == rs[i - 1];
      }
    }
  }

  /** `Readings.Sort`: a permutation of the input, newest first. Go's sort is
      not stable, so only the instants' order is promised; this definition
      is one admissible outcome. */
  function Sort(rs: seq<Reading>): (r: seq<Reading>)
    ensures NewestFirst(r)
    ensures multiset(r) == multiset(rs)
    ensures |r| == |rs|
    decreases |rs|
  {
    if |rs| == 0 then []
    else
      assert rs == [rs[0]] + rs[1..];
      var s := Sort(rs[1..]);
      InsertKeepsOrder(rs[0], s);
      Insert(rs[0], s)
  }

  /** The head of a newest-first series is at least as recent as every
      reading of it. */
  lemma HeadIsNewest(s: seq<Reading>, z: Reading)
    requires NewestFirst(s) && z in multiset(s)
    ensures Instant(s[0]) >= Instant(z)
  {
    var j :| 0 <= j < |s| && s[j] == z;
    if j > 0 {
      assert Instant(s[0]) >= Instant(s[j]);
    }
  }

  /** `sort.Sort` driven only through `Len`, `Less` and `Swap`: an insertion
      sort by adjacent swaps yields a newest-first permutation. */
  method SortBySwaps(rs: seq<Reading>) returns (out: seq<Reading>)
    ensures NewestFirst(out)
    ensures multiset(out) == multiset(rs)
  {
    out := rs;
    var i := 1;
    while i < Len(out)
      invariant |out| == |rs|
      invariant multiset(out) == multiset(rs)
      invariant |out| == 0 || 1 <= i <= |out|
      invariant forall a, b :: 0 <= a < b < i && b < |out| ==> Instant(out[a]) >= Instant(out[b])
    {
      out := SinkInto(out, i);
      i := i + 1;
    }
  }

  /** One pass of the insertion sort: the reading at `i` is swapped towards
      the front while it is later than its predecessor, extending the
      newest-first prefix by one. */
  method SinkInto(rs: seq<Reading>, i: int) returns (out: seq<Reading>)
    requires 0 < i < |rs|
    requires forall a, b :: 0 <= a < b < i ==> Instant(rs[a]) >= Instant(rs[b])
    ensures |out| == |rs| && multiset(out) == multiset(rs)
    ensures forall a, b :: 0 <= a < b <= i ==> Instant(out[a]) >= Instant(out[b])
  {
    out := rs;
    var j := i;
    while j > 0 && Less(out, j, j - 1)
      invariant 0 <= j <= i < |out|
      invariant |out| == |rs|
      invariant multiset(out) == multiset(rs)
      invariant forall a, b :: 0 <= a < b <= i && a != j && b != j ==> Instant(out[a]) >= Instant(out[b])
      invariant forall b :: j < b <= i ==> Instant(out[j]) >= Instant(out[b])
      invariant 0 < j < i ==> Instant(out[j - 1]) >= Instant(out[j + 1])
      decreases j
    {
      out := Swap(out, j, j - 1);
      j := j - 1;
    }
  }

  /** The `n` newest of a newest-first series: `v[:n]` when it is longer. */
  function Newest(rs: seq<Reading>, n: nat): (r: seq<Reading>)
    ensures |r| == Min(|rs|, n)
    ensures r == rs[..|r|]
  {
    if |rs| > n then rs[..n] else rs
  }

  /** In a newest-first series every reading of a prefix is at least as
      recent as every reading after it. */
  lemma PrefixDominates(s: seq<Reading>, k: nat)
    requires NewestFirst(s) && k <= |s|
    ensures forall y, z :: y in s[..k] && z in multiset(s) - multiset(s[..k]) ==> Instant(y) >= Instant(z)
  {
    assert s == s[..k] + s[k..];
    assert multiset(s) == multiset(s[..k]) + multiset(s[k..]);
    forall y, z | y in s[..k] && z in multiset(s) - multiset(s[..k])
      ensures Instant(y) >= Instant(z)
    {
      var a :| 0 <= a < k && s[..k][a] == y;
      assert z in multiset(s[k..]);
      assert z in s[k..];
      var b :| 0 <= b < |s[k..]| && s[k..][b] == z;
      assert s[a] == y && s[k + b] == z;
    }
  }

  /** Sorting then keeping `n` keeps the `n` most recent readings: each kept
      reading is at least as recent as every dropped one, and the kept ones
      are drawn from the input. */
  lemma NewestAreMostRecent(xs: seq<Reading>, n: nat)
    ensures multiset(Newest(Sort(xs), n)) <= multiset(xs)
    ensures NewestFirst(Newest(Sort(xs), n))
    ensures forall y, z :: y in Newest(Sort(xs), n) && z in multiset(xs) - multiset(Newest(Sort(xs), n))
              ==> Instant(y) >= Instant(z)
  {
    var s := Sort(xs);
    var t := Newest(s, n);
    assert s == t + s[|t|..];
    assert multiset(s) == multiset(t) + multiset(s[|t|..]);
    PrefixDominates(s, |t|);
  }
}

=== FILE: house_ingest.dfy ===
/** Ingestion of the house sensor pipeline (`house/input.go`): three
    parallel form arrays are validated one element at a time and the prepared
    queue tasks are flushed in chunks of at most 100 while validation is
    still going on. Also the chunked persistence of readings and the join of
    the two write results. */
module HouseIngest {
  import opened Util
  import opened HouseData

  const MaxTasksPerAdd := 100
  const MaxPersistSize := 100
  const PersistEnabled := false

  /** The only remote address allowed to submit readings. */
  const Whitelist: set<string> := {"162.230.117.10"}

  /** A pull-queue task; its payload is the JSON encoding of a reading,
      kept here as the reading itself. */
  datatype Task = Task(payload: Reading)

  /** What `strconv.ParseFloat` accepts: a finite number, or one of the
      spellings of NaN and of the infinities ("NaN", "Inf", "+Infinity", ...). */
  datatype Float = Finite(value: real) | NonFinite

  /** The library parsers: `strconv.ParseFloat` and RFC 3339 time parsing
      (section 5.6 of RFC 3339), each failing with `None`. */
  datatype Parsers = Parsers(parseFloat: string -> Option<Float>,
                             parseTime: string -> Option<Time>)

  /** The result of preparing one element. `Unencodable` is the panic of
      `json.Marshal` refusing a NaN or infinite reading. */
  datatype Prepared = Ready(task: Task) | BadValue(text: string) | BadTimestamp(text: string)
                    | Unencodable

  /** `prepareOne`: the value is parsed first, then the timestamp, then the
      reading is encoded; on success the payload is exactly the serial,
      value and timestamp. */
  function PrepareOne(p: Parsers, sn: string, ts: string, r: string): (res: Prepared)
    ensures res.Ready? <==> p.parseFloat(r).Some? && p.parseFloat(r).value.Finite? && p.parseTime(ts).Some?
    ensures res.BadValue? <==> p.parseFloat(r).None?
    ensures res.BadTimestamp? <==> p.parseFloat(r).Some? && p.parseTime(ts).None?
    ensures res.Unencodable? <==> p.parseFloat(r) == Some(NonFinite) && p.parseTime(ts).Some?
    ensures res.Ready? ==>
              res.task.payload == Reading(sn, p.parseFloat(r).value.value, p.parseTime(ts).value)
  {
    match p.parseFloat(r)
    case None => BadValue(r)
    case Some(f) =>
      match p.parseTime(ts)
      case None => BadTimestamp(ts)
      case Some(t) =>
        match f
        case NonFinite => Unencodable
        case Finite(v) => Ready(Task(Reading(sn, v, t)))
  }

  /** How a request ends: an HTTP status, or a panic; either way with the
      task lists handed to successful `AddMulti` calls, in call order. */
  datatype Response = Response(status: int, enqueued: seq<seq<Task>>)
                    | IngestPanicked(enqueued: seq<seq<Task>>)

  /** The answer to a request whose element `bad` does not prepare. */
  function StopAt(prepared: Prepared, enqueued: seq<seq<Task>>): Response
  {
    if prepared.Unencodable? then IngestPanicked(enqueued) else Response(400, enqueued)
  }

  predicate SameLength(sns: seq<string>, tss: seq<string>, rs: seq<string>)
  {
    |sns| == |tss| == |rs|
  }

  predicate OkAt(p: Parsers, sns: seq<string>, tss: seq<string>, rs: seq<string>, i: int)
    requires SameLength(sns, tss, rs) && 0 <= i < |sns|
  {
    PrepareOne(p, sns[i], tss[i], rs[i]).Ready?
  }

  /** The index of the first element that does not prepare, or the length. */
  function FirstBad(p: Parsers, sns: seq<string>, tss: seq<string>, rs: seq<string>, from: nat): (b: nat)
    requires SameLength(sns, tss, rs) && from <= |sns|
    ensures from <= b <= |sns|
    ensures forall i :: from <= i < b ==> OkAt(p, sns, tss, rs, i)
    ensures b < |sns| ==> !OkAt(p, sns, tss, rs, b)
    decreases |sns| - from
  {
    if from == |sns| then from
    else if !OkAt(p, sns, tss, rs, from) then from
    else FirstBad(p, sns, tss, rs, from + 1)
  }

  function TaskAt(p: Parsers, sns: seq<string>, tss: seq<string>, rs: seq<string>, i: int): Task
    requires SameLength(sns, tss, rs) && 0 <= i < |sns| && OkAt(p, sns, tss, rs, i)
  {
    PrepareOne(p, sns[i], tss[i], rs[i]).task
  }

  /** The tasks of the first `k` elements, all of which prepare. */
  function Tasks(p: Parsers, sns: seq<string>, tss: seq<string>, rs: seq<string>, k: nat): (ts: seq<Task>)
    requires SameLength(sns, tss, rs) && k <= |sns|
    requires forall i :: 0 <= i < k ==> OkAt(p, sns, tss, rs, i)
    ensures |ts| == k
    ensures forall i :: 0 <= i < k ==> ts[i] == TaskAt(p, sns, tss, rs, i)
  {
    seq(k, i requires 0 <= i < k => TaskAt(p, sns, tss, rs, i))
  }

  lemma TasksPrefix(p: Parsers, sns: seq<string>, tss: seq<string>, rs: seq<string>, k: nat, m: nat)
    requires SameLength(sns, tss, rs) && m <= k <= |sns|
    requires forall i :: 0 <= i < k ==> OkAt(p, sns, tss, rs, i)
    ensures Tasks(p, sns, tss, rs, k)[..m] == Tasks(p, sns, tss, rs, m)
  {
  }

  /** The index of the first failing `AddMulti` call among `count`, or `count`. */
  function FirstFailure(addOk: nat -> bool, from: nat, count: nat): (f: nat)
    requires from <= count
    ensures from <= f <= count
    ensures forall k :: from <= k < f ==> addOk(k)
    ensures f < count ==> !addOk(f)
    decreases count - from
  {
    if from == count then count
    else if !addOk(from) then from
    else FirstFailure(addOk, from + 1, count)
  }

  /** How many prepared tasks have been flushed when processing stops at
      `bad`: everything when all elements prepare, otherwise only the full
      chunks completed before the bad element. */
  function FlushedLength(bad: nat, n: nat): (len: nat)
    requires bad <= n
    ensures len <= bad
  {
    if bad == n then n else (bad / MaxTasksPerAdd) * MaxTasksPerAdd
  }

  /** The chunks flushed to the queue before processing stops, if every
      queue call succeeds. */
  function Flushed(p: Parsers, sns: seq<string>, tss: seq<string>, rs: seq<string>): seq<seq<Task>>
    requires SameLength(sns, tss, rs)
  {
    var bad := FirstBad(p, sns, tss, rs, 0);
    Chunks(Tasks(p, sns, tss, rs, bad)[..FlushedLength(bad, |sns|)], MaxTasksPerAdd)
  }

  /** The outcome of ingestion, stated independently of the loop: find the
      first bad element, chunk what was flushed before it, and stop at the
      first failing queue call. `addOk(k)` says whether the k-th `AddMulti`
      call succeeds. */
  function IngestOutcome(p: Parsers, sns: seq<string>, tss: seq<string>, rs: seq<string>,
                         addOk: nat -> bool): Response
  {
    if !SameLength(sns, tss, rs) then Response(400, [])
    else
      var flushed := Flushed(p, sns, tss, rs);
      var f := FirstFailure(addOk, 0, |flushed|);
      if f < |flushed| then Response(500, flushed[..f])
      else
        var bad := FirstBad(p, sns, tss, rs, 0);
        if bad < |sns| then StopAt(PrepareOne(p, sns[bad], tss[bad], rs[bad]), flushed)
        else Response(202, flushed)
  }

  /** Facts the loop of `Ingest` keeps about its flushed tasks. */
  lemma FlushedPrefix(p: Parsers, sns: seq<string>, tss: seq<string>, rs: seq<string>,
                      added: seq<seq<Task>>, flushed: seq<Task>, pending: seq<Task>, i: nat)
    requires SameLength(sns, tss, rs) && i <= |sns|
    requires forall k :: 0 <= k < i ==> OkAt(p, sns, tss, rs, k)
    requires flushed + pending == Tasks(p, sns, tss, rs, i)
    requires added == Chunks(flushed, MaxTasksPerAdd) && AllFull(added, MaxTasksPerAdd)
    requires |pending| < MaxTasksPerAdd
    ensures |flushed| == (i / MaxTasksPerAdd) * MaxTasksPerAdd
    ensures |added| == i / MaxTasksPerAdd
  {
    ChunksFlatten(flushed, MaxTasksPerAdd);
    FullFlattenLength(added, MaxTasksPerAdd);
  }

  /** The validation-and-enqueue loop shared by both revisions of the input
      handler. `addOk(k)` says whether the k-th `AddMulti` call succeeds. */
  method Ingest(p: Parsers, sns: seq<string>, tss: seq<string>, rs: seq<string>, addOk: nat -> bool)
    returns (resp: Response)
    ensures resp == IngestOutcome(p, sns, tss, rs, addOk)
  {
    if |sns| != |tss| || |sns| != |rs| {
      return Response(400, []);
    }
    var n := |sns|;
    ghost var bad := FirstBad(p, sns, tss, rs, 0);
    ghost var flushed: seq<Task> := [];
    var added: seq<seq<Task>> := [];
    var pending: seq<Task> := [];
    var i := 0;
    while i < n
      invariant 0 <= i <= n
      invariant forall k :: 0 <= k < i ==> OkAt(p, sns, tss, rs, k)
      invariant i <= bad
      invariant flushed + pending == Tasks(p, sns, tss, rs, i)
      invariant added == Chunks(flushed, MaxTasksPerAdd) && AllFull(added, MaxTasksPerAdd)
      invariant |pending| < MaxTasksPerAdd
      invariant forall k :: 0 <= k < |added| ==> addOk(k)
    {
      var t := PrepareOne(p, sns[i], tss[i], rs[i]);
      if !t.Ready? {
        BadElement(p, sns, tss, rs, addOk, added, flushed, pending, i);
        return StopAt(t, added);
      }
      TakeOne(p, sns, tss, rs, flushed, pending, i);
      pending := pending + [t.task];
      if |pending| >= MaxTasksPerAdd {
        FillChunk(added, flushed, pending);
        if !addOk(|added|) {
          AddFailure(p, sns, tss, rs, addOk, added, flushed, pending, i, bad);
          return Response(500, added);
        }
        added := added + [pending];
        flushed := flushed + pending;
        pending := [];
      }
      i := i + 1;
    }
    if |pending| == 0 {
      AllPreparedFlushed(p, sns, tss, rs, addOk, added, flushed);
    } else {
      AllPreparedPending(p, sns, tss, rs, addOk, added, flushed, pending);
      if !addOk(|added|) {
        return Response(500, added);
      }
      added := added + [pending];
    }
    return Response(202, added);
  }

  /** No failing queue call among the first `count`. */
  lemma NoFailure(addOk: nat -> bool, count: nat)
    requires forall k :: 0 <= k < count ==> addOk(k)
    ensures FirstFailure(addOk, 0, count) == count
  {
  }

  /** The loop's exit at a bad element matches the reference outcome. */
  lemma BadElement(p: Parsers, sns: seq<string>, tss: seq<string>, rs: seq<string>, addOk: nat -> bool,
                   added: seq<seq<Task>>, flushed: seq<Task>, pending: seq<Task>, i: nat)
    requires SameLength(sns, tss, rs) && i < |sns|
    requires forall k :: 0 <= k < i ==> OkAt(p, sns, tss, rs, k)
    requires !OkAt(p, sns, tss, rs, i)
    requires flushed + pending == Tasks(p, sns, tss, rs, i)
    requires added == Chunks(flushed, MaxTasksPerAdd) && AllFull(added, MaxTasksPerAdd)
    requires |pending| < MaxTasksPerAdd
    requires forall k :: 0 <= k < |added| ==> addOk(k)
    ensures IngestOutcome(p, sns, tss, rs, addOk) == StopAt(PrepareOne(p, sns[i], tss[i], rs[i]), added)
  {
    var bad := FirstBad(p, sns, tss, rs, 0);
    assert bad == i;
    FlushedPrefix(p, sns, tss, rs, added, flushed, pending, i);
    var len := FlushedLength(bad, |sns|);
    TasksPrefix(p, sns, tss, rs, bad, len);
    assert Tasks(p, sns, tss, rs, bad)[..len] == flushed;
    NoFailure(addOk, |added|);
  }

  /** One more element prepares: its task joins the pending chunk. */
  lemma TakeOne(p: Parsers, sns: seq<string>, tss: seq<string>, rs: seq<string>,
                flushed: seq<Task>, pending: seq<Task>, i: nat)
    requires SameLength(sns, tss, rs) && i < |sns|
    requires forall k :: 0 <= k <= i ==> OkAt(p, sns, tss, rs, k)
    requires flushed + pending == Tasks(p, sns, tss, rs, i)
    ensures flushed + (pending + [TaskAt(p, sns, tss, rs, i)]) == Tasks(p, sns, tss, rs, i + 1)
  {
    assert Tasks(p, sns, tss, rs, i + 1) == Tasks(p, sns, tss, rs, i) + [TaskAt(p, sns, tss, rs, i)];
  }

  /** A full pending chunk becomes one more full chunk of the flushed tasks. */
  lemma FillChunk(added: seq<seq<Task>>, flushed: seq<Task>, pending: seq<Task>)
    requires added == Chunks(flushed, MaxTasksPerAdd) && AllFull(added, MaxTasksPerAdd)
    requires |pending| == MaxTasksPerAdd
    ensures added + [pending] == Chunks(flushed + pending, MaxTasksPerAdd)
    ensures AllFull(added + [pending], MaxTasksPerAdd)
  {
    ChunksAppend(flushed, pending, MaxTasksPerAdd);
  }

  /** After the loop, with nothing pending, every task was flushed. */
  lemma AllPreparedFlushed(p: Parsers, sns: seq<string>, tss: seq<string>, rs: seq<string>, addOk: nat -> bool,
                           added: seq<seq<Task>>, flushed: seq<Task>)
    requires SameLength(sns, tss, rs)
    requires forall k :: 0 <= k < |sns| ==> OkAt(p, sns, tss, rs, k)
    requires flushed == Tasks(p, sns, tss, rs, |sns|)
    requires added == Chunks(flushed, MaxTasksPerAdd)
    requires forall k :: 0 <= k < |added| ==> addOk(k)
    ensures IngestOutcome(p, sns, tss, rs, addOk) == Response(202, added)
  {
    var n := |sns|;
    assert FirstBad(p, sns, tss, rs, 0) == n;
    assert flushed[..n] == flushed;
    NoFailure(addOk, |added|);
  }

  /** After the loop, the pending tasks form the last chunk, whose queue
      call decides between 202 and 500. */
  lemma AllPreparedPending(p: Parsers, sns: seq<string>, tss: seq<string>, rs: seq<string>, addOk: nat -> bool,
                           added: seq<seq<Task>>, flushed: seq<Task>, pending: seq<Task>)
    requires SameLength(sns, tss, rs)
    requires forall k :: 0 <= k < |sns| ==> OkAt(p, sns, tss, rs, k)
    requires flushed + pending == Tasks(p, sns, tss, rs, |sns|)
    requires added == Chunks(flushed, MaxTasksPerAdd) && AllFull(added, MaxTasksPerAdd)
    requires 0 < |pending| < MaxTasksPerAdd
    requires forall k :: 0 <= k < |added| ==> addOk(k)
    ensures !addOk(|added|) ==> IngestOutcome(p, sns, tss, rs, addOk) == Response(500, added)
    ensures addOk(|added|) ==> IngestOutcome(p, sns, tss, rs, addOk) == Response(202, added + [pending])
  {
    var all := added + [pending];
    PendingLastChunk(p, sns, tss, rs, added, flushed, pending);
    if addOk(|added|) {
      NoFailure(addOk, |all|);
    } else {
      FirstFailureIs(addOk, |all|, |added|);
      assert all[..|added|] == added;
    }
  }

  lemma PendingLastChunk(p: Parsers, sns: seq<string>, tss: seq<string>, rs: seq<string>,
                         added: seq<seq<Task>>, flushed: seq<Task>, pending: seq<Task>)
    requires SameLength(sns, tss, rs)
    requires forall k :: 0 <= k < |sns| ==> OkAt(p, sns, tss, rs, k)
    requires flushed + pending == Tasks(p, sns, tss, rs, |sns|)
    requires added == Chunks(flushed, MaxTasksPerAdd) && AllFull(added, MaxTasksPerAdd)
    requires 0 < |pending| < MaxTasksPerAdd
    ensures Flushed(p, sns, tss, rs) == added + [pending]
  {
    var n := |sns|;
    var tasks := Tasks(p, sns, tss, rs, n);
    assert FirstBad(p, sns, tss, rs, 0) == n;
    assert tasks[..n] == tasks;
    ChunksAppend(flushed, pending, MaxTasksPerAdd);
  }

  /** A failing `AddMulti` for the chunk just filled stops ingestion with the
      chunks already accepted. */
  lemma AddFailure(p: Parsers, sns: seq<string>, tss: seq<string>, rs: seq<string>, addOk: nat -> bool,
                   added: seq<seq<Task>>, flushed: seq<Task>, pending: seq<Task>, i: nat, bad: nat)
    requires SameLength(sns, tss, rs) && i < |sns|
    requires bad == FirstBad(p, sns, tss, rs, 0) && i < bad
    requires flushed + pending == Tasks(p, sns, tss, rs, i + 1)
    requires added == Chunks(flushed, MaxTasksPerAdd) && AllFull(added, MaxTasksPerAdd)
    requires |pending| == MaxTasksPerAdd
    requires Chunks(flushed + pending, MaxTasksPerAdd) == added + [pending]
    requires forall k :: 0 <= k < |added| ==> addOk(k)
    requires !addOk(|added|)
    ensures IngestOutcome(p, sns, tss, rs, addOk) == Response(500, added)
  {
    var len := FlushedLength(bad, |sns|);
    ChunksFlatten(flushed, MaxTasksPerAdd);
    FullFlattenLength(added, MaxTasksPerAdd);
    FlushedCoversFullChunk(bad, |sns|, i + 1, |added| + 1);
    var tasks := Tasks(p, sns, tss, rs, bad);
    var head := flushed + pending;
    TasksPrefix(p, sns, tss, rs, bad, i + 1);
    var tail := tasks[i + 1..len];
    assert tasks[..len] == head + tail;
    var all := added + [pending];
    assert AllFull(all, MaxTasksPerAdd);
    ChunksConcat(head, tail, MaxTasksPerAdd);
    var chunks := Flushed(p, sns, tss, rs);
    assert chunks == all + Chunks(tail, MaxTasksPerAdd);
    assert chunks[..|added|] == added;
    FirstFailureIs(addOk, |chunks|, |added|);
  }

  lemma FlushedCoversFullChunk(bad: nat, n: nat, len: nat, m: nat)
    requires bad <= n && len == MaxTasksPerAdd * m && len <= bad
    ensures len <= FlushedLength(bad, n)
  {
  }

  lemma FirstFailureIs(addOk: nat -> bool, count: nat, f: nat)
    requires f < count && !addOk(f) && forall k :: 0 <= k < f ==> addOk(k)
    ensures FirstFailure(addOk, 0, count) == f
  {
  }

  /** `HandleInput`: requests from outside the whitelist are refused with
      403 before anything is read; all others go through validation and
      chunked enqueueing. */
  method HandleInput(remote: string, p: Parsers, sns: seq<string>, tss: seq<string>, rs: seq<string>,
                     addOk: nat -> bool)
    returns (resp: Response)
    ensures remote !in Whitelist ==> resp == Response(403, [])
    ensures remote in Whitelist ==> resp == IngestOutcome(p, sns, tss, rs, addOk)
  {
    if remote !in Whitelist {
      return Response(403, []);
    }
    resp := Ingest(p, sns, tss, rs, addOk);
  }

  /** Every queue call carries between 1 and 100 tasks, and the calls
      concatenate to a prefix of the prepared tasks, in input order. */
  lemma EnqueuedInOrder(p: Parsers, sns: seq<string>, tss: seq<string>, rs: seq<string>, addOk: nat -> bool)
    requires SameLength(sns, tss, rs)
    ensures var resp := IngestOutcome(p, sns, tss, rs, addOk);
      && (forall k :: 0 <= k < |resp.enqueued| ==> 0 < |resp.enqueued[k]| <= MaxTasksPerAdd)
      && Flatten(resp.enqueued) <= Tasks(p, sns, tss, rs, FirstBad(p, sns, tss, rs, 0))
  {
    var flushed := Flushed(p, sns, tss, rs);
    var f := FirstFailure(addOk, 0, |flushed|);
    var bad := FirstBad(p, sns, tss, rs, 0);
    var tasks := Tasks(p, sns, tss, rs, bad);
    ChunksFlatten(tasks[..FlushedLength(bad, |sns|)], MaxTasksPerAdd);
    assert Flatten(flushed) == tasks[..FlushedLength(bad, |sns|)];
    if f < |flushed| {
      ChunkPrefixFlatten(flushed, f);
    }
  }

  lemma {:induction false} ChunkPrefixFlatten<T>(xss: seq<seq<T>>, f: nat)
    requires f <= |xss|
    ensures Flatten(xss[..f]) <= Flatten(xss)
    decreases |xss| - f
  {
    if f < |xss| {
      ChunkPrefixFlatten(xss, f + 1);
      assert xss[..f + 1] == xss[..f] + [xss[f]];
      FlattenAppend(xss[..f], xss[f]);
    } else {
      assert xss[..f] == xss;
    }
  }

  /** 202 exactly when the arrays agree in length, every element prepares and
      every queue call succeeds; then all N tasks are enqueued in order. */
  lemma AcceptedIffAllGood(p: Parsers, sns: seq<string>, tss: seq<string>, rs: seq<string>, addOk: nat -> bool)
    ensures IngestOutcome(p, sns, tss, rs, addOk) == Response(202, IngestOutcome(p, sns, tss, rs, addOk).enqueued) <==>
      && SameLength(sns, tss, rs)
      && (forall i :: 0 <= i < |sns| ==> OkAt(p, sns, tss, rs, i))
      && (forall k :: 0 <= k < (|sns| + MaxTasksPerAdd - 1) / MaxTasksPerAdd ==> addOk(k))
    ensures IngestOutcome(p, sns, tss, rs, addOk) == Response(202, IngestOutcome(p, sns, tss, rs, addOk).enqueued) ==>
      Flatten(IngestOutcome(p, sns, tss, rs, addOk).enqueued) == Tasks(p, sns, tss, rs, |sns|)
  {
    if SameLength(sns, tss, rs) {
      var n := |sns|;
      var bad := FirstBad(p, sns, tss, rs, 0);
      if bad == n {
        var tasks := Tasks(p, sns, tss, rs, n);
        assert tasks[..n] == tasks;
        var flushed := Chunks(tasks, MaxTasksPerAdd);
        ChunksCount(tasks, MaxTasksPerAdd);
        ChunksFlatten(tasks, MaxTasksPerAdd);
        var f := FirstFailure(addOk, 0, |flushed|);
        if f < |flushed| {
          assert !addOk(f);
        }
      }
    }
  }

  lemma ChunksCount<T>(xs: seq<T>, n: nat)
    requires n == MaxTasksPerAdd
    ensures |Chunks(xs, n)| == (|xs| + n - 1) / n
    decreases |xs|
  {
    if |xs| > n {
      ChunksCount(xs[n..], n);
    }
  }

  /** A malformed element at index `i` answers 400, and a NaN or infinite
      one panics, yet the `i / 100` full chunks flushed before it stay
      enqueued (when their queue calls succeeded): the request is not
      atomic. */
  lemma LateBadElementKeepsEarlierChunks(p: Parsers, sns: seq<string>, tss: seq<string>, rs: seq<string>,
                                         addOk: nat -> bool, i: nat)
    requires SameLength(sns, tss, rs) && i < |sns|
    requires forall k :: 0 <= k < i ==> OkAt(p, sns, tss, rs, k)
    requires !OkAt(p, sns, tss, rs, i)
    requires forall k :: 0 <= k < i / MaxTasksPerAdd ==> addOk(k)
    ensures IngestOutcome(p, sns, tss, rs, addOk).IngestPanicked? <==> PrepareOne(p, sns[i], tss[i], rs[i]).Unencodable?
    ensures IngestOutcome(p, sns, tss, rs, addOk).Response? ==> IngestOutcome(p, sns, tss, rs, addOk).status == 400
    ensures |IngestOutcome(p, sns, tss, rs, addOk).enqueued| == i / MaxTasksPerAdd
    ensures Flatten(IngestOutcome(p, sns, tss, rs, addOk).enqueued)
            == Tasks(p, sns, tss, rs, i)[..(i / MaxTasksPerAdd) * MaxTasksPerAdd]
  {
    var bad := FirstBad(p, sns, tss, rs, 0);
    assert bad == i;
    var tasks := Tasks(p, sns, tss, rs, i);
    var prefix := tasks[..(i / MaxTasksPerAdd) * MaxTasksPerAdd];
    var flushed := Chunks(prefix, MaxTasksPerAdd);
    ChunksCount(prefix, MaxTasksPerAdd);
    ChunksFlatten(prefix, MaxTasksPerAdd);
    assert |flushed| == i / MaxTasksPerAdd;
    assert FirstFailure(addOk, 0, |flushed|) == |flushed|;
  }

  /** A persisted datastore call: the keys written. */
  datatype PersistOutcome = PersistOutcome(calls: seq<seq<string>>, failed: bool)

  /** `persistReadings`: the readings' keys are written in chunks of 100,
      stopping at the first failing write; `putOk(k)` says whether the k-th
      `PutMulti` succeeds. While persistence is disabled nothing is written
      and nothing fails. */
  function PersistReadings(rs: seq<Reading>, enabled: bool, putOk: nat -> bool): (out: PersistOutcome)
    ensures !enabled ==> out == PersistOutcome([], false)
    ensures forall k :: 0 <= k < |out.calls| ==> 0 < |out.calls[k]| <= MaxPersistSize
    ensures Flatten(out.calls) <= ReadingKeys(rs)
    ensures out.failed <==> enabled && exists k :: 0 <= k < |out.calls| && !putOk(k)
    ensures out.failed ==> !putOk(|out.calls| - 1)
    ensures enabled ==> out.calls <= Chunks(ReadingKeys(rs), MaxPersistSize)
    ensures enabled && !out.failed ==> out.calls == Chunks(ReadingKeys(rs), MaxPersistSize)
  {
    if !enabled then PersistOutcome([], false)
    else
      var (calls, failed) := PersistChunks(Chunks(ReadingKeys(rs), MaxPersistSize), putOk);
      ChunksPrefixFlatten(ReadingKeys(rs), MaxPersistSize, |calls|);
      PersistOutcome(calls, failed)
  }

  /** Writing the chunks in order, stopping at the first failing write. */
  function PersistChunks<T>(chunks: seq<T>, putOk: nat -> bool): (out: (seq<T>, bool))
    ensures |out.0| <= |chunks| && out.0 == chunks[..|out.0|]
    ensures out.1 <==> exists k :: 0 <= k < |out.0| && !putOk(k)
    ensures out.1 ==> !putOk(|out.0| - 1)
    ensures !out.1 ==> out.0 == chunks
  {
    var f := FirstFailure(putOk, 0, |chunks|);
    if f < |chunks| then (chunks[..f + 1], true)
    else
      assert chunks[..|chunks|] == chunks;
      (chunks, false)
  }

  /** The datastore keys of the readings, in order. */
  function ReadingKeys(rs: seq<Reading>): (ks: seq<string>)
    ensures |ks| == |rs| && forall i :: 0 <= i < |rs| ==> ks[i] == Key(rs[i])
  {
    seq(|rs|, i requires 0 <= i < |rs| => Key(rs[i]))
  }

  /** The first `f` pieces of a chunking are a prefix of the input. */
  lemma ChunksPrefixFlatten<T>(xs: seq<T>, n: nat, f: nat)
    requires n > 0 && f <= |Chunks(xs, n)|
    ensures Flatten(Chunks(xs, n)[..f]) <= xs
  {
    ChunksFlatten(xs, n);
    ChunkPrefixFlatten(Chunks(xs, n), f);
  }

  /** `consumeErrors`: the last non-nil error among those received, nil when
      all were nil. */
  function ConsumeErrors(errs: seq<Option<string>>): (r: Option<string>)
    ensures r.None? <==> forall i :: 0 <= i < |errs| ==> errs[i].None?
    ensures r.Some? ==> exists i :: 0 <= i < |errs| && errs[i] == r && LastSome(errs, i)
  {
    if |errs| == 0 then None
    else if errs[|errs| - 1].Some? then
      assert LastSome(errs, |errs| - 1);
      errs[|errs| - 1]
    else
      var init := errs[..|errs| - 1];
      var r := ConsumeErrors(init);
      assert forall i :: 0 <= i < |init| ==> init[i] == errs[i];
      if r.Some? then
        var i :| 0 <= i < |init| && init[i] == r && LastSome(init, i);
        assert LastSome(errs, i);
        r
      else r
  }

  /** Every error after index `i` is nil. */
  predicate LastSome(errs: seq<Option<string>>, i: int)
  {
    forall j :: 0 <= j < |errs| && i < j ==> errs[j].None?
  }
}

=== FILE: house_render.dfy ===
/** The integer and decision parts of the house image renderer
    (`house/housetherm.go`): which fill a room gets, the pixel regions that
    are painted, the placement of labels and sparklines, reading the series
    back from the cache, the per-room drawing loop, and whether a request is
    served from the image cache. Colours computed with floating point,
    fonts and PNG encoding are not part of this model. */
module HouseRender {
  import opened Util
  import opened HouseData
  import opened HouseConfig
  import opened Memcache
  import opened HouseBatch

  /** `ifZero`: a configured value, or the default when it is zero. */
  function IfZero(a: int, b: int): (r: int)
    ensures a == 0 ==> r == b
    ensures a != 0 ==> r == a
  {
    if a == 0 then b else a
  }

  /** `image.Rect`: a rectangle from two corners, put in canonical form so
      that min <= max on both axes; it holds the points with
      min <= x < max and min <= y < max. */
  datatype ImgRect = ImgRect(x0: int, y0: int, x1: int, y1: int)

  function MkRect(x0: int, y0: int, x1: int, y1: int): (r: ImgRect)
    ensures r.x0 <= r.x1 && r.y0 <= r.y1
    ensures {r.x0, r.x1} == {x0, x1} && {r.y0, r.y1} == {y0, y1}
  {
    ImgRect(if x0 <= x1 then x0 else x1, if y0 <= y1 then y0 else y1,
            if x0 <= x1 then x1 else x0, if y0 <= y1 then y1 else y0)
  }

  predicate InRect(r: ImgRect, p: Point)
  {
    r.x0 <= p.x < r.x1 && r.y0 <= p.y < r.y1
  }

  /** The room's own rectangle, as `fillSolid` paints it. */
  function Interior(room: Room): ImgRect
  {
    MkRect(room.rect.x, room.rect.y, room.rect.x + room.rect.w, room.rect.y + room.rect.h)
  }

  /** The rectangle `drawBox` paints black: the room grown by one pixel on
      every side. */
  function BoxRect(room: Room): ImgRect
  {
    MkRect(room.rect.x - 1, room.rect.y - 1, room.rect.x + room.rect.w + 1, room.rect.y + room.rect.h + 1)
  }

  /** One pixel of the ring around the room's rectangle. */
  predicate OnRing(room: Room, p: Point)
  {
    var r := room.rect;
    && r.x - 1 <= p.x <= r.x + r.w && r.y - 1 <= p.y <= r.y + r.h
    && (p.x == r.x - 1 || p.x == r.x + r.w || p.y == r.y - 1 || p.y == r.y + r.h)
  }

  /** For a room of non-negative size, the box is the room plus a one-pixel
      ring, so once the interior is filled a one-pixel black border stays. */
  lemma BoxIsRoomPlusRing(room: Room, p: Point)
    requires room.rect.w >= 0 && room.rect.h >= 0
    ensures InRect(BoxRect(room), p) <==> InRect(Interior(room), p) || OnRing(room, p)
    ensures !(InRect(Interior(room), p) && OnRing(room, p))
  {
  }

  /** The three ways a room with a reading is filled. */
  datatype Fill = SolidBlue | SolidRed | Gradient

  /** `fill`: below the minimum is solid blue, above the maximum solid red;
      everything else, the bounds themselves included, gets the gradient. */
  function FillChoice(room: Room, v: real): (f: Fill)
    ensures f == SolidBlue <==> v < room.min
    ensures f == SolidRed <==> room.min <= v && v > room.max
    ensures f == Gradient <==> room.min <= v <= room.max
  {
    if v < room.min then SolidBlue
    else if v > room.max then SolidRed
    else Gradient
  }

  /** A reading exactly at either bound of a sensible range is drawn with the
      gradient, not a solid colour. */
  lemma BoundsGetGradient(room: Room)
    requires room.min <= room.max
    ensures FillChoice(room, room.min) == Gradient
    ensures FillChoice(room, room.max) == Gradient
  {
  }

  /** The gradient's reference point: the configured thermometer position,
      each coordinate independently defaulting to the room's centre (with
      Go's truncating division). */
  function ThermPoint(room: Room): (p: Point)
    ensures room.therm.x != 0 ==> p.x == room.therm.x
    ensures room.therm.y != 0 ==> p.y == room.therm.y
    ensures room.therm.x == 0 ==> p.x == room.rect.x + GoDiv(room.rect.w, 2)
    ensures room.therm.y == 0 ==> p.y == room.rect.y + GoDiv(room.rect.h, 2)
    ensures room.therm.x == 0 && room.rect.w >= 0 ==>
              room.rect.x <= p.x <= room.rect.x + room.rect.w && 2 * (p.x - room.rect.x) <= room.rect.w
    ensures room.therm.y == 0 && room.rect.h >= 0 ==>
              room.rect.y <= p.y <= room.rect.y + room.rect.h && 2 * (p.y - room.rect.y) <= room.rect.h
  {
    Point(IfZero(room.therm.x, room.rect.x + GoDiv(room.rect.w, 2)),
          IfZero(room.therm.y, room.rect.y + GoDiv(room.rect.h, 2)))
  }

  /** A gradient pixel: where it is and the reference point its colour is
      measured from. */
  datatype GradientPixel = GradientPixel(at: Point, ref: Point)

  /** `fillGradient`: one pixel per point of the room, column by column. */
  method FillGradient(room: Room) returns (px: seq<GradientPixel>)
    ensures room.rect.w >= 0 && room.rect.h >= 0 ==> |px| == room.rect.w * room.rect.h
    ensures forall k :: 0 <= k < |px| ==> px[k].ref == ThermPoint(room)
    ensures forall k :: 0 <= k < |px| ==> InRect(Interior(room), px[k].at)
    ensures forall k :: 0 <= k < |px| ==>
              room.rect.x <= px[k].at.x < room.rect.x + room.rect.w
              && room.rect.y <= px[k].at.y < room.rect.y + room.rect.h
    ensures room.rect.w <= 0 || room.rect.h <= 0 ==> px == []
    ensures forall p :: InRect(Interior(room), p) && room.rect.w >= 0 && room.rect.h >= 0 ==>
              exists k :: 0 <= k < |px| && px[k].at == p
  {
    var r := room.rect;
    var t := ThermPoint(room);
    px := [];
    var i := 0;
    while i < r.w
      invariant r.w >= 0 ==> 0 <= i <= r.w
      invariant r.w < 0 ==> px == []
      invariant r.h >= 0 ==> |px| == Cells(i, r.h)
      invariant InColumns(px, r, t, i) && CoversColumns(px, r, i)
    {
      px := AddColumn(px, r, t, i);
      i := i + 1;
    }
    if r.w >= 0 {
      CellsIsArea(r.w, r.h);
    }
    PaintedMeansPositive(px, r, t, i);
  }

  /** A pixel in the first `i` columns shows the rectangle has area. */
  lemma PaintedMeansPositive(px: seq<GradientPixel>, r: Rect, t: Point, i: int)
    requires InColumns(px, r, t, i)
    ensures |px| > 0 ==> r.w > 0 && r.h > 0
  {
    if |px| > 0 {
      var a := px[0].at;
      assert r.x <= a.x < r.x + r.w && r.y <= a.y < r.y + r.h;
    }
  }

  /** Every pixel refers to `t` and lies in the first `i` columns of `r`. */
  predicate InColumns(px: seq<GradientPixel>, r: Rect, t: Point, i: int)
  {
    forall k :: 0 <= k < |px| ==>
      && px[k].ref == t
      && r.x <= px[k].at.x < r.x + i && px[k].at.x < r.x + r.w && r.y <= px[k].at.y < r.y + r.h
  }

  /** Every point of the first `i` columns of `r` has a pixel. */
  ghost predicate CoversColumns(px: seq<GradientPixel>, r: Rect, i: int)
  {
    forall p: Point :: r.x <= p.x < r.x + i && r.y <= p.y < r.y + r.h ==>
      exists k :: 0 <= k < |px| && px[k].at == p
  }

  /** One pass of `fillGradient`'s outer loop: column `i` is painted. */
  method AddColumn(px: seq<GradientPixel>, r: Rect, t: Point, i: int) returns (px': seq<GradientPixel>)
    requires 0 <= i < r.w
    requires InColumns(px, r, t, i) && CoversColumns(px, r, i)
    ensures InColumns(px', r, t, i + 1) && CoversColumns(px', r, i + 1)
    ensures |px'| == |px| + (if r.h >= 0 then r.h else 0)
  {
    var column := FillColumn(r.x + i, r.y, r.h, t);
    px' := px + column;
    assert forall k :: 0 <= k < |px| ==> px'[k] == px[k];
    assert forall k :: |px| <= k < |px'| ==> px'[k] == column[k - |px|];
    forall p: Point | r.x <= p.x < r.x + i + 1 && r.y <= p.y < r.y + r.h
      ensures exists k :: 0 <= k < |px'| && px'[k].at == p
    {
      if p.x == r.x + i {
        var k := |px| + (p.y - r.y);
        assert px'[k] == column[p.y - r.y];
      } else {
        var k :| 0 <= k < |px| && px[k].at == p;
        assert px'[k] == px[k];
      }
    }
  }

  /** The pixels of `cols` columns of height `h`, counted column by
      column. */
  function Cells(cols: int, h: int): int
    decreases cols
  {
    if cols <= 0 then 0 else Cells(cols - 1, h) + h
  }

  lemma {:induction false} CellsIsArea(cols: nat, h: int)
    ensures Cells(cols, h) == cols * h
  {
    if cols > 0 {
      CellsIsArea(cols - 1, h);
      assert cols * h == (cols - 1) * h + h;
    }
  }

  /** The inner loop of `fillGradient`: column `x`, rows `y` to `y + h`
      from the top down. */
  method FillColumn(x: int, y: int, h: int, t: Point) returns (col: seq<GradientPixel>)
    ensures |col| == (if h >= 0 then h else 0)
    ensures forall k :: 0 <= k < |col| ==> col[k] == GradientPixel(Point(x, y + k), t)
  {
    col := [];
    var j := 0;
    while j < h
      invariant 0 <= j && (h >= 0 ==> j <= h) && (h < 0 ==> j == 0)
      invariant |col| == j
      invariant forall k :: 0 <= k < j ==> col[k] == GradientPixel(Point(x, y + k), t)
    {
      col := col + [GradientPixel(Point(x, y + j), t)];
      j := j + 1;
    }
  }

  /** The rows a sparkline may use: the configured box, with height 20,
      the room's left edge and the room's bottom as defaults. */
  datatype SparkBox = SparkBox(x: int, y: int, h: int)

  function SparkArea(room: Room): (b: SparkBox)
    ensures b.h == (if room.spark.h == 0 then 20 else room.spark.h)
    ensures b.x == (if room.spark.x == 0 then room.rect.x else room.spark.x)
    ensures room.spark.y == 0 ==> b.y + b.h == room.rect.y + room.rect.h
    ensures room.spark.y != 0 ==> b.y == room.spark.y
  {
    var h := IfZero(room.spark.h, 20);
    SparkBox(IfZero(room.spark.x, room.rect.x), IfZero(room.spark.y, room.rect.y + room.rect.h - h), h)
  }

  /** The readings a sparkline plots: nothing for fewer than two, otherwise
      the first `SparkWidth` of them. `None` is the panic of slicing with a
      negative width. */
  function SparkWindow(room: Room, rs: seq<Reading>): (w: Option<seq<Reading>>)
    ensures w.None? <==> |rs| >= 2 && SparkWidth(room) < 0
    ensures w.Some? ==> w.value <= rs
    ensures w.Some? && |rs| < 2 ==> w.value == []
    ensures w.Some? && |rs| >= 2 ==> |w.value| == Min(|rs|, SparkWidth(room))
  {
    if |rs| < 2 then Some([])
    else if |rs| > SparkWidth(room) then
      if SparkWidth(room) < 0 then None else Some(rs[..SparkWidth(room)])
    else Some(rs)
  }

  /** The column of the reading at position `pos` of a window of `len`:
      the newest (position 0) is rightmost. */
  function SparkColumn(len: int, pos: int, sparkx: int): int
  {
    len - pos + sparkx - 1
  }

  /** The columns of a window are distinct and fill `[sparkx, sparkx + len)`
      from right (newest) to left (oldest). */
  lemma ColumnsFillWindow(len: nat, sparkx: int, pos: int, pos': int)
    requires 0 <= pos < len && 0 <= pos' < len
    ensures sparkx <= SparkColumn(len, pos, sparkx) < sparkx + len
    ensures SparkColumn(len, pos, sparkx) == SparkColumn(len, pos', sparkx) <==> pos == pos'
    ensures pos < pos' <==> SparkColumn(len, pos', sparkx) < SparkColumn(len, pos, sparkx)
    ensures SparkColumn(len, 0, sparkx) == sparkx + len - 1
  {
  }

  /** The vertical clamp: first against the bottom `sparky + sparkh`, then
      against the top `sparky`. */
  function ClampRow(y: int, sparky: int, sparkh: int): (r: int)
    ensures r >= sparky
    ensures sparkh >= 0 ==> r <= sparky + sparkh
    ensures sparky <= y <= sparky + sparkh ==> r == y
    ensures sparkh >= 0 && y > sparky + sparkh ==> r == sparky + sparkh
    ensures y < sparky ==> r == sparky
  {
    var y1 := if y > sparky + sparkh then sparky + sparkh else y;
    if y1 < sparky then sparky else y1
  }

  /** `drawSparklines`: the points plotted, newest first. `rowOf(w, pos)` is
      the unclamped row the floating-point scaling gives position `pos` of
      window `w`. `None` is a panic. */
  function Sparkline(room: Room, rs: seq<Reading>, rowOf: (seq<Reading>, nat) -> int): (pts: Option<seq<Point>>)
    ensures pts.None? <==> SparkWindow(room, rs).None?
    ensures pts.Some? ==> |pts.value| == |SparkWindow(room, rs).value|
    ensures pts.Some? ==> forall pos :: 0 <= pos < |pts.value| ==>
              && pts.value[pos].x == SparkColumn(|pts.value|, pos, SparkArea(room).x)
              && pts.value[pos].y == ClampRow(rowOf(SparkWindow(room, rs).value, pos), SparkArea(room).y, SparkArea(room).h)
              && SparkArea(room).y <= pts.value[pos].y
              && (SparkArea(room).h >= 0 ==> pts.value[pos].y <= SparkArea(room).y + SparkArea(room).h)
  {
    match SparkWindow(room, rs)
    case None => None
    case Some(w) =>
      var b := SparkArea(room);
      var pts := seq(|w|, pos requires 0 <= pos < |w| =>
        Point(SparkColumn(|w|, pos, b.x), ClampRow(rowOf(w, pos), b.y, b.h)));
      assert forall pos :: 0 <= pos < |pts| ==>
        pts[pos].y == ClampRow(rowOf(w, pos), b.y, b.h);
      Some(pts)
  }

  /** `getReadings`: the series per serial listed in "current". A missing
      or unreadable "current" gives nothing; a failed bulk read gives each
      serial a one-reading series holding its current value (serial empty,
      zero time); an undecodable series panics (`None`). */
  function GetReadings(cache: Cache, currentOk: bool, seriesOk: bool): (r: Option<map<string, seq<Reading>>>)
    ensures !currentOk || CurrentKey !in cache || !cache[CurrentKey].CurrentMap? ==> r == Some(map[])
    ensures currentOk && CurrentKey in cache && cache[CurrentKey].CurrentMap? && !seriesOk ==>
              var cur := cache[CurrentKey].values;
              r.Some? && r.value.Keys == cur.Keys
              && forall sn :: sn in cur ==> r.value[sn] == [Reading("", cur[sn], ZeroTime)]
    ensures currentOk && CurrentKey in cache && cache[CurrentKey].CurrentMap? && seriesOk ==>
              var cur := cache[CurrentKey].values;
              && (r.None? <==> exists sn :: sn in cur && SeriesKey(sn) in cache && !cache[SeriesKey(sn)].Series?)
              && (r.Some? ==> forall sn :: sn in r.value <==> sn in cur && SeriesKey(sn) in cache)
    ensures r.Some? ==> forall sn :: sn in r.value && seriesOk && currentOk ==>
              SeriesKey(sn) in cache && cache[SeriesKey(sn)] == Series(r.value[sn])
  {
    if !currentOk || CurrentKey !in cache || !cache[CurrentKey].CurrentMap? then Some(map[])
    else
      var cur := cache[CurrentKey].values;
      if !seriesOk then Some(map sn | sn in cur :: [Reading("", cur[sn], ZeroTime)])
      else
        var present := set sn | sn in cur && SeriesKey(sn) in cache;
        if exists sn :: sn in present && !cache[SeriesKey(sn)].Series? then None
        else Some(map sn | sn in present :: cache[SeriesKey(sn)].readings)
  }

  /** `getReadings` with every cache call succeeding: exactly the serials of
      "current" that have a cached series. */
  lemma ReadingsFollowCurrent(cache: Cache, sn: string)
    requires CurrentKey in cache && cache[CurrentKey].CurrentMap?
    requires GetReadings(cache, true, true).Some?
    ensures sn in GetReadings(cache, true, true).value <==>
              sn in cache[CurrentKey].values && SeriesKey(sn) in cache
  {
  }

  /** What the renderer reads back after a batch has been written: every
      sensor of the batch is there with exactly the series the batch stored,
      unless another sensor's cached series is unreadable. */
  lemma RendererSeesBatch(env: Env, st: State, sn: string)
    requires env.lease.Ok? && |env.lease.value| > 0 && env.setOk
    requires HouseBatch.ProcessBatch(env, st).Returned?
    requires sn in Leased(Payloads(env.lease.value))
    ensures var rs := Payloads(env.lease.value);
      var fetched := GetMulti(st.cache, FetchKeys(rs), env.getOk);
      var data := GetReadings(HouseBatch.ProcessBatch(env, st).after.cache, true, true);
      data.Some? ==> sn in data.value && data.value[sn] == Stored(rs, fetched, sn)
                     && data.value[sn][0].value == NewCurrent(rs, fetched)[sn]
  {
    var rs := Payloads(env.lease.value);
    var fetched := GetMulti(st.cache, FetchKeys(rs), env.getOk);
    BatchCacheEffect(env, st);
    StoredNonEmpty(rs, fetched, sn);
    assert sn in NewCurrent(rs, fetched);
  }

  /** How one room is drawn: the black box, then either a fill with the
      head reading's label and a sparkline, or white with "??.??". */
  datatype RoomFill = Filled(fill: Fill) | White
  datatype RoomDrawing = RoomDrawing(box: ImgRect, fill: RoomFill, caption: string,
                                     labelAt: Point, spark: seq<Point>)

  /** `drawLabel`'s anchor: the configured reading position, each
      coordinate defaulting to centring a label of 6-pixel characters and
      sitting 12 pixels above the middle of a two-line block. */
  function LabelAnchor(room: Room, caption: string): (p: Point)
    ensures room.reading.x != 0 ==> p.x == room.reading.x
    ensures room.reading.y != 0 ==> p.y == room.reading.y
    ensures room.reading.x == 0 ==>
              p.x == room.rect.x + GoDiv(room.rect.w, 2) - GoDiv(|caption| * 6, 2)
    ensures room.reading.y == 0 ==>
              p.y == room.rect.y + GoDiv(room.rect.h - 12 * 2, 2) - 12
  {
    Point(IfZero(room.reading.x, room.rect.x + GoDiv(room.rect.w, 2) - GoDiv(|caption| * 6, 2)),
          IfZero(room.reading.y, room.rect.y + GoDiv(room.rect.h - 12 * 2, 2) - 12))
  }

  const Placeholder := "??.??"

  /** One room of `drawHouse`. `format` is `%.2f`. */
  function DrawRoom(room: Room, data: map<string, seq<Reading>>, format: real -> string,
                    rowOf: (seq<Reading>, nat) -> int): (d: Option<RoomDrawing>)
    ensures room.sn !in data ==>
              d == Some(RoomDrawing(BoxRect(room), White, Placeholder, LabelAnchor(room, Placeholder), []))
    ensures room.sn in data && |data[room.sn]| == 0 ==> d.None?
    ensures d.Some? && room.sn in data ==>
              var head := data[room.sn][0].value;
              d.value.fill == Filled(FillChoice(room, head)) && d.value.caption == format(head)
              && Sparkline(room, data[room.sn], rowOf) == Some(d.value.spark)
    ensures room.sn in data && |data[room.sn]| > 0 ==> (d.Some? <==> Sparkline(room, data[room.sn], rowOf).Some?)
    ensures d.Some? ==> d.value.box == BoxRect(room) && d.value.labelAt == LabelAnchor(room, d.value.caption)
  {
    if room.sn !in data then
      Some(RoomDrawing(BoxRect(room), White, Placeholder, LabelAnchor(room, Placeholder), []))
    else
      var rs := data[room.sn];
      if |rs| == 0 then None
      else
        var caption := format(rs[0].value);
        match Sparkline(room, rs, rowOf)
        case None => None
        case Some(spark) =>
          Some(RoomDrawing(BoxRect(room), Filled(FillChoice(room, rs[0].value)), caption,
                           LabelAnchor(room, caption), spark))
  }

  /** `drawHouse`'s loop: the rooms named in `Colorize`, in that order. An
      unknown room name or a failed room panics (`None`). */
  function DrawHouse(conf: Config, data: map<string, seq<Reading>>, format: real -> string,
                     rowOf: (seq<Reading>, nat) -> int): (ds: Option<seq<RoomDrawing>>)
    ensures ds.Some? <==> forall k :: 0 <= k < |conf.colorize| ==>
              conf.colorize[k] in conf.rooms && DrawRoom(conf.rooms[conf.colorize[k]], data, format, rowOf).Some?
    ensures ds.Some? ==> |ds.value| == |conf.colorize|
    ensures ds.Some? ==> forall k :: 0 <= k < |conf.colorize| ==>
              Some(ds.value[k]) == DrawRoom(conf.rooms[conf.colorize[k]], data, format, rowOf)
  {
    DrawEach(conf.colorize, conf.rooms, room => DrawRoom(room, data, format, rowOf))
  }

  /** Draws the named rooms in order with `draw`, stopping at the first
      unknown name or failed room. */
  function DrawEach(names: seq<string>, rooms: map<string, Room>, draw: Room -> Option<RoomDrawing>)
    : (ds: Option<seq<RoomDrawing>>)
    ensures ds.Some? <==> forall k :: 0 <= k < |names| ==> names[k] in rooms && draw(rooms[names[k]]).Some?
    ensures ds.Some? ==> |ds.value| == |names|
    ensures ds.Some? ==> forall k :: 0 <= k < |names| ==> Some(ds.value[k]) == draw(rooms[names[k]])
    decreases |names|
  {
    if |names| == 0 then Some([])
    else
      var name := names[|names| - 1];
      match DrawEach(names[..|names| - 1], rooms, draw)
      case None => None
      case Some(ds) =>
        if name !in rooms then None
        else
          match draw(rooms[name])
          case None => None
          case Some(d) => Some(ds + [d])
  }

  const HouseImgKey := "houseimg"
  const HouseExpKey := "houseexp"
  const ImageExpiry := 300

  /** What the environment answers during one request: whether the image
      cache can be read, the answers of the drain's batches, whether
      `getReadings` can read "current" and the series, whether the image
      can be cached, and the expiry header the clock gives. */
  datatype ServerEnv = ServerEnv(cacheGetOk: bool, drain: seq<Env>, currentOk: bool, seriesOk: bool,
                                 setOk: bool, expires: string)

  datatype Reply = Reply(status: int, body: string, expires: string)

  /** A request's outcome: an answer, or a panic, each with the state the
      request leaves behind; `ScriptExhausted` means the drain needed more
      batch answers than the environment supplied. */
  datatype ServerResult = Served(reply: Reply, after: State) | ServerPanicked(after: State) | ScriptExhausted

  /** The bytes of a cached blob. */
  function Bytes(b: Blob): string
  {
    if b.Raw? then b.data else ""
  }

  /** Whether the image cache answers with both the image and its expiry. */
  predicate CacheHit(env: ServerEnv, st: State)
  {
    env.cacheGetOk && HouseImgKey in st.cache && HouseExpKey in st.cache
  }

  /** The expiry and the image, as a rebuilt image is cached for five
      minutes. */
  function ImageItems(body: string, expires: string): map<string, Item>
  {
    map[HouseExpKey := Item(Raw(expires), ImageExpiry), HouseImgKey := Item(Raw(body), ImageExpiry)]
  }

  /** The house drawn from a drained state, or `None` when reading the
      series back or drawing a room panics. */
  function Redraw(env: ServerEnv, drained: State, conf: Config, format: real -> string,
                  rowOf: (seq<Reading>, nat) -> int): Option<seq<RoomDrawing>>
  {
    match GetReadings(drained.cache, env.currentOk, env.seriesOk)
    case None => None
    case Some(data) => DrawHouse(conf, data, format, rowOf)
  }

  /** `Server`: serve from the image cache when both the image and its
      expiry are there; otherwise drain the queue (its error only makes the
      image stale), draw, encode, answer with the new expiry, and cache
      image and expiry. `encode` stands for PNG encoding. */
  function Server(env: ServerEnv, st: State, conf: Config, format: real -> string,
                  rowOf: (seq<Reading>, nat) -> int, encode: seq<RoomDrawing> -> string): (r: ServerResult)
    ensures CacheHit(env, st) ==>
              r == Served(Reply(200, Bytes(st.cache[HouseImgKey]), Bytes(st.cache[HouseExpKey])), st)
    ensures !CacheHit(env, st) ==>
              var d := ProcessInput(HouseBatch.ProcessBatch, env.drain, st, 0);
              && (r.ScriptExhausted? <==> d.Unfinished?)
              && (d.DrainPanicked? ==> r == ServerPanicked(d.after))
              && (d.Finished? ==>
                    var ds := Redraw(env, d.after, conf, format, rowOf);
                    && (r.Served? <==> ds.Some?)
                    && (ds.None? ==> r == ServerPanicked(d.after))
                    && (ds.Some? ==>
                          && r.reply == Reply(200, encode(ds.value), env.expires)
                          && r.after.queue == d.after.queue
                          && (env.setOk ==> r.after.cache == SetMulti(d.after.cache, ImageItems(encode(ds.value), env.expires)))
                          && (!env.setOk ==> r.after.cache == d.after.cache)))
  {
    var cached := GetMulti(st.cache, {HouseImgKey, HouseExpKey}, env.cacheGetOk);
    // Only two keys are asked for, so two answers means both are there.
    if HouseImgKey in cached && HouseExpKey in cached then
      Served(Reply(200, Bytes(cached[HouseImgKey]), Bytes(cached[HouseExpKey])), st)
    else
      match ProcessInput(HouseBatch.ProcessBatch, env.drain, st, 0)
      case DrainPanicked(wrote) => ServerPanicked(wrote)
      case Unfinished(_, _) => ScriptExhausted
      case Finished(_, drained, _) =>
        match Redraw(env, drained, conf, format, rowOf)
        case None => ServerPanicked(drained)
        case Some(ds) =>
          var body := encode(ds);
          var cache := if env.setOk then SetMulti(drained.cache, ImageItems(body, env.expires))
                       else drained.cache;
          Served(Reply(200, body, env.expires), State(drained.queue, cache))
  }

  /** An image rebuilt and cached is what the next request is served, with
      the same expiry, as long as that request can read the cache. */
  lemma RebuiltImageIsServedNext(env: ServerEnv, env2: ServerEnv, st: State, conf: Config,
                                 format: real -> string, rowOf: (seq<Reading>, nat) -> int,
                                 encode: seq<RoomDrawing> -> string)
    requires !CacheHit(env, st) && env.setOk && env2.cacheGetOk
    requires Server(env, st, conf, format, rowOf, encode).Served?
    ensures var r := Server(env, st, conf, format, rowOf, encode);
      Server(env2, r.after, conf, format, rowOf, encode) == Served(r.reply, r.after)
  {
    var r := Server(env, st, conf, format, rowOf, encode);
    var d := ProcessInput(HouseBatch.ProcessBatch, env.drain, st, 0);
    var body := encode(Redraw(env, d.after, conf, format, rowOf).value);
    assert r.after.cache == SetMulti(d.after.cache, ImageItems(body, env.expires));
    assert r.after.cache[HouseImgKey] == Raw(body) && r.after.cache[HouseExpKey] == Raw(env.expires);
    assert CacheHit(env2, r.after);
  }
}

=== FILE: mail.dfy ===
/** The mail relay (`mail.go`): an address is enabled by storing a token
    under a key derived from it; incoming mail for an enabled address is
    taken apart into a plain body, an HTML body and attachments and sent on.
    MIME header and multipart parsing, reading bodies and sending mail are
    not part of this model: a message arrives already split into parts. */
module Mail {
  import opened Util
  import opened GoText
  import opened Memcache

  /** A part as `NextPart` yields it: its media type (empty when the header
      does not parse), file name, content id, content, and, for a nested
      multipart part, the parts its content is read as. */
  datatype Part = Part(ctype: string, fileName: string, contentId: string, data: string,
                       nested: Stream)

  /** What reading a multipart body yields: its parts, then either the end
      or a read error. */
  datatype Stream = Stream(parts: seq<Part>, end: Ending)
  datatype Ending = Eof | ReadError(err: string)

  datatype Attachment = Attachment(name: string, data: string, contentId: string)

  /** `msgExtractor`. */
  datatype Extract = Extract(body: string, hbody: string, atts: seq<Attachment>)

  /** What the fold may do to an extractor: a body once set stays, and
      attachments are only appended, each with a name. */
  predicate Grows(m: Extract, r: Extract)
  {
    && (m.body != "" ==> r.body == m.body)
    && (m.hbody != "" ==> r.hbody == m.hbody)
    && m.atts <= r.atts
    && (forall i :: |m.atts| <= i < |r.atts| ==> r.atts[i].name != "")
  }

  lemma GrowsTrans(a: Extract, b: Extract, c: Extract)
    requires Grows(a, b) && Grows(b, c)
    ensures Grows(a, c)
  {
    forall i | |a.atts| <= i < |c.atts|
      ensures c.atts[i].name != ""
    {
      if i < |b.atts| {
        assert c.atts[i] == b.atts[i];
      }
    }
  }

  /** One part of `run`'s loop: a nested alternative is read recursively
      (its error is dropped), the first non-empty plain and HTML parts set
      the bodies, and any other part with a file name is attached. */
  function Step(m: Extract, p: Part): (r: Extract)
    ensures Grows(m, r)
    decreases p, 2
  {
    if p.ctype == "multipart/alternative" then Run(m, p.nested).0
    else if m.body == "" && p.ctype == "text/plain" then m.(body := p.data)
    else if m.hbody == "" && p.ctype == "text/html" then m.(hbody := p.data)
    else if p.fileName != "" then m.(atts := m.atts + [AttachmentOf(p)])
    else m
  }

  /** A part as an attachment: its file name, content and content id. */
  function AttachmentOf(p: Part): Attachment
  {
    Attachment(p.fileName, p.data, p.contentId)
  }

  /** The parts in order. */
  function Fold(m: Extract, ps: seq<Part>): (r: Extract)
    ensures Grows(m, r)
    decreases ps, 0
  {
    if |ps| == 0 then m
    else
      var m' := Step(m, ps[0]);
      var r := Fold(m', ps[1..]);
      GrowsTrans(m, m', r);
      r
  }

  /** `run`: the extractor after every part, and the read error that ended
      the loop, if any (the end of the parts is not an error). */
  function Run(m: Extract, s: Stream): (r: (Extract, Option<string>))
    ensures Grows(m, r.0)
    ensures r.1.Some? <==> s.end.ReadError?
    ensures s.end.ReadError? ==> r.1 == Some(s.end.err)
    decreases s, 1
  {
    (Fold(m, s.parts), if s.end.ReadError? then Some(s.end.err) else None)
  }

  /** A part list without nested alternatives. */
  predicate Flat(ps: seq<Part>)
  {
    forall i :: 0 <= i < |ps| ==> ps[i].ctype != "multipart/alternative"
  }

  /** The content of the first part of type `ctype` that is not empty,
      or empty. */
  function FirstOf(ps: seq<Part>, ctype: string): string
  {
    if |ps| == 0 then ""
    else if ps[0].ctype == ctype && ps[0].data != "" then ps[0].data
    else FirstOf(ps[1..], ctype)
  }

  /** Without nested alternatives, the plain body is the first non-empty
      plain part and the HTML body the first non-empty HTML part: an empty
      one does not stop a later one from being taken. */
  lemma {:induction false} FlatBodies(m: Extract, ps: seq<Part>)
    requires Flat(ps)
    ensures m.body == "" ==> Fold(m, ps).body == FirstOf(ps, "text/plain")
    ensures m.hbody == "" ==> Fold(m, ps).hbody == FirstOf(ps, "text/html")
    decreases |ps|
  {
    if |ps| > 0 {
      var m' := Step(m, ps[0]);
      FlatBodies(m', ps[1..]);
    }
  }

  /** Whether part `i` is read as a body: a plain (HTML) part met while
      the extractor started without a plain (HTML) body and no earlier part
      had non-empty plain (HTML) content. An empty body part is read too. */
  predicate TakenAsBody(m: Extract, ps: seq<Part>, i: nat)
    requires i < |ps|
  {
    || (ps[i].ctype == "text/plain" && m.body == "" && FirstOf(ps[..i], "text/plain") == "")
    || (ps[i].ctype == "text/html" && m.hbody == "" && FirstOf(ps[..i], "text/html") == "")
  }

  /** The independent account of what a flat part list attaches: every
      part with a file name that is not read as a body, in encounter
      order. */
  function AttachedParts(m: Extract, ps: seq<Part>): seq<Attachment>
  {
    if |ps| == 0 then []
    else
      var i := |ps| - 1;
      AttachedParts(m, ps[..i])
      + (if ps[i].fileName != "" && !TakenAsBody(m, ps, i) then [AttachmentOf(ps[i])] else [])
  }

  /** Folding one more part is one more step. */
  lemma {:induction false} FoldSnoc(m: Extract, ps: seq<Part>, p: Part)
    ensures Fold(m, ps + [p]) == Step(Fold(m, ps), p)
    decreases |ps|
  {
    if |ps| == 0 {
      assert [p][1..] == [];
    } else {
      assert (ps + [p])[1..] == ps[1..] + [p];
      FoldSnoc(Step(m, ps[0]), ps[1..], p);
    }
  }

  /** Without nested alternatives, the attachments are the starting ones
      followed by every part with a file name that is not read as a body,
      in encounter order. */
  lemma {:induction false} FlatAttachments(m: Extract, ps: seq<Part>)
    requires Flat(ps)
    ensures Fold(m, ps).atts == m.atts + AttachedParts(m, ps)
    ensures |Fold(m, ps).atts| - |m.atts| <= |ps|
    ensures (forall i :: 0 <= i < |ps| ==> ps[i].fileName == "") ==> Fold(m, ps).atts == m.atts
    decreases |ps|
  {
    if |ps| > 0 {
      var i := |ps| - 1;
      var init := ps[..i];
      var p := ps[i];
      assert ps == init + [p];
      FlatAttachments(m, init);
      FoldSnoc(m, init, p);
      FlatBodies(m, init);
      var pre := Fold(m, init);
      assert init == ps[..i];
      assert pre.body == "" <==> m.body == "" && FirstOf(init, "text/plain") == "";
      assert pre.hbody == "" <==> m.hbody == "" && FirstOf(init, "text/html") == "";
      assert Fold(m, ps).atts
             == pre.atts + (if p.fileName != "" && !TakenAsBody(m, ps, i) then [AttachmentOf(p)] else []);
    }
  }

  /** Bodies and attachments of a flat part list, when it is one. */
  lemma FlatExtract(m: Extract, ps: seq<Part>)
    ensures Flat(ps) && m.body == "" ==> Fold(m, ps).body == FirstOf(ps, "text/plain")
    ensures Flat(ps) && m.hbody == "" ==> Fold(m, ps).hbody == FirstOf(ps, "text/html")
    ensures Flat(ps) ==> Fold(m, ps).atts == m.atts + AttachedParts(m, ps)
  {
    if Flat(ps) {
      FlatBodies(m, ps);
      FlatAttachments(m, ps);
    }
  }

  // ---------------------------------------------------------------------
  // The handlers

  const MailPrefix := "/_ah/mail/"
  const Sender := "westspy@west-spy.appspotmail.com"
  const Recipient := "dustin@spy.net"

  /** The cache key of the token that enables an address. */
  function TokenKey(addr: string): (k: string)
    ensures HasPrefix(k, "email-") && k[6..] == addr
  {
    "email-" + addr
  }

  /** The address an incoming mail is for: the path up to the first `@`,
      less the ten characters of `/_ah/mail/`. `None` is the panic of
      slicing a shorter path. */
  function RelayAddress(path: string): (a: Option<string>)
    ensures a.None? <==> |BeforeFirst(path, '@')| < |MailPrefix|
    ensures a.Some? ==> '@' !in a.value
  {
    var local := BeforeFirst(path, '@');
    if |local| < |MailPrefix| then None else Some(local[|MailPrefix|..])
  }

  /** The address written into a mail path comes back out of it. */
  lemma RelayAddressOfPath(addr: string, domain: string)
    requires '@' !in addr
    ensures RelayAddress(MailPrefix + addr + "@" + domain) == Some(addr)
  {
    var path := MailPrefix + addr + "@" + domain;
    var local := BeforeFirst(path, '@');
    var n := |MailPrefix| + |addr|;
    assert path[..n] == MailPrefix + addr;
    assert forall i :: 0 <= i < n ==> path[i] == path[..n][i];
    assert '@' !in MailPrefix;
    assert path[n] == '@';
    assert local == MailPrefix + addr;
  }

  /** The request of `enableMail`. `duration` is the parsed duration, if it
      parses. */
  datatype EnableRequest = EnableRequest(isGet: bool, addr: string, duration: Option<int>)

  /** `enableMail`: the form on GET; otherwise 500 for a bad duration or a
      failed write, and a redirect after storing the token. */
  function EnableMail(req: EnableRequest, cache: Cache, setOk: bool): (r: (int, Cache))
    ensures r.0 in {200, 302, 500}
    ensures r.0 == 200 <==> req.isGet
    ensures r.0 == 302 <==> !req.isGet && req.duration.Some? && setOk
    ensures r.0 == 302 ==> r.1 == cache[TokenKey(req.addr) := Raw("")]
    ensures r.0 != 302 ==> r.1 == cache
  {
    if req.isGet then (200, cache)
    else if req.duration.None? then (500, cache)
    else if !setOk then (500, cache)
    else (302, SetMulti(cache, map[TokenKey(req.addr) := Item(Raw(""), req.duration.value)]))
  }

  /** A parsed incoming message: its subject, whether its content type
      parsed (only then is it read as multipart), and the parts. */
  datatype Header = Header(subject: string, mediaTypeOk: bool)

  datatype Incoming = Incoming(path: string, header: Option<Header>, raw: string, parts: Stream)

  datatype Message = Message(sender: string, to: seq<string>, subject: string, body: string,
                             htmlBody: string, atts: seq<Attachment>)

  datatype MailOutcome = Forbidden | Unparsable | Relayed(msg: Message) | MailPanicked

  /** Whether the address a mail is for has a readable token. */
  predicate Enabled(mail: Incoming, cache: Cache, getOk: bool)
  {
    RelayAddress(mail.path).Some?
    && TokenKey(RelayAddress(mail.path).value) in GetMulti(cache, {TokenKey(RelayAddress(mail.path).value)}, getOk)
  }

  /** The extractor before any part is read: no bodies, and the whole
      message attached as `original.eml`. */
  function Start(raw: string): Extract
  {
    Extract("", "", [Attachment("original.eml", raw, "")])
  }

  /** `incomingMail`. `plain` is the fallback body: the raw message with
      its header removed, if the header reads. Whether the final send
      succeeds does not change the outcome. */
  function IncomingMail(mail: Incoming, cache: Cache, getOk: bool, plain: string -> Option<string>)
    : (r: MailOutcome)
    ensures r == MailPanicked <==> RelayAddress(mail.path).None?
    ensures r == Forbidden <==>
              RelayAddress(mail.path).Some? && TokenKey(RelayAddress(mail.path).value) !in GetMulti(cache, {TokenKey(RelayAddress(mail.path).value)}, getOk)
    ensures Enabled(mail, cache, getOk) ==> (r == Unparsable <==> mail.header.None?)
    ensures Enabled(mail, cache, getOk) && mail.header.Some? ==> r.Relayed?
    ensures r.Relayed? ==>
              && mail.header.Some?
              && r.msg.sender == Sender && r.msg.to == [Recipient]
              && r.msg.subject == mail.header.value.subject
              && |r.msg.atts| >= 1 && r.msg.atts[0] == Attachment("original.eml", mail.raw, "")
    ensures r.Relayed? && mail.header.value.mediaTypeOk && Flat(mail.parts.parts) ==>
              && r.msg.htmlBody == FirstOf(mail.parts.parts, "text/html")
              && (FirstOf(mail.parts.parts, "text/plain") != "" ==>
                    r.msg.body == FirstOf(mail.parts.parts, "text/plain"))
              && (FirstOf(mail.parts.parts, "text/plain") == "" && plain(mail.raw).Some? ==>
                    r.msg.body == plain(mail.raw).value)
              && (FirstOf(mail.parts.parts, "text/plain") == "" && plain(mail.raw).None? ==>
                    r.msg.body == "")
              && r.msg.atts == Start(mail.raw).atts + AttachedParts(Start(mail.raw), mail.parts.parts)
    ensures r.Relayed? && !mail.header.value.mediaTypeOk ==>
              r.msg.htmlBody == "" && |r.msg.atts| == 1
              && (plain(mail.raw).Some? ==> r.msg.body == plain(mail.raw).value)
              && (plain(mail.raw).None? ==> r.msg.body == "")
  {
    match RelayAddress(mail.path)
    case None => MailPanicked
    case Some(addr) =>
      if TokenKey(addr) !in GetMulti(cache, {TokenKey(addr)}, getOk) then Forbidden
      else
        match mail.header
        case None => Unparsable
        case Some(h) =>
          var start := Start(mail.raw);
          var ex := if h.mediaTypeOk then Run(start, mail.parts).0 else start;
          FlatExtract(start, mail.parts.parts);
          var body := if ex.body != "" then ex.body
                      else match plain(mail.raw) case Some(b) => b case None => ex.body;
          Relayed(Message(Sender, [Recipient], h.subject, body, ex.hbody, ex.atts))
  }

  /** Enabling an address lets its mail through: after `enableMail`
      stores the token, mail to that address is not refused, and is relayed
      whenever its header reads. */
  lemma EnabledAddressIsRelayed(req: EnableRequest, cache: Cache, setOk: bool, domain: string,
                                mail: Incoming, plain: string -> Option<string>)
    requires '@' !in req.addr
    requires EnableMail(req, cache, setOk).0 == 302
    requires mail.path == MailPrefix + req.addr + "@" + domain
    ensures IncomingMail(mail, EnableMail(req, cache, setOk).1, true, plain) != Forbidden
    ensures IncomingMail(mail, EnableMail(req, cache, setOk).1, true, plain) != MailPanicked
    ensures mail.header.Some? ==> IncomingMail(mail, EnableMail(req, cache, setOk).1, true, plain).Relayed?
  {
    RelayAddressOfPath(req.addr, domain);
  }

  /** Mail to an address nobody enabled is refused. */
  lemma UnknownAddressIsForbidden(mail: Incoming, cache: Cache, getOk: bool, plain: string -> Option<string>)
    requires RelayAddress(mail.path).Some?
    requires TokenKey(RelayAddress(mail.path).value) !in cache
    ensures IncomingMail(mail, cache, getOk, plain) == Forbidden
  {
  }
}

=== FILE: redirect.dfy ===
/** The signed photo redirect (`redirect.go`): a request under `/s3sign/`
    is answered with a redirect to the photo bucket, signed with Amazon S3
    query-string authentication (signature version 2): an HMAC-SHA1
    (RFC 2104) of a fixed string-to-sign, Base64-encoded (section 4 of
    RFC 4648) and query-escaped. The MAC, the encoding and the escaping are
    parameters; the clock and the credentials are inputs. */
module Redirect {
  import opened Util
  import opened GoText

  const Bucket := "photo.west.spy.net"
  const S3Loc := "s3.amazonaws.com"
  /** Fifteen minutes, in seconds. */
  const ExpSeconds := 15 * 60
  const RoutePrefix := "/s3sign"

  /** The string-to-sign of a GET of `path` in the bucket, valid until
      `exp` (Unix seconds): verb, empty content MD5, empty content type,
      expiry, and the resource. */
  function StringToSign(path: string, exp: int): string
  {
    SignHead + Itoa(exp) + SignTail + path
  }

  const SignHead := "GET\n\n\n"
  const SignTail := "\n/" + Bucket

  lemma ItoaHasNoNewline(x: int)
    ensures '\n' !in Itoa(x)
  {
    var m := if x < 0 then -x else x;
    var ds := Digits(m);
    assert forall i :: 0 <= i < |ds| ==> IsDigit(ds[i]);
    if x < 0 {
      assert Itoa(x) == "-" + ds;
    } else {
      assert Itoa(x) == ds;
    }
  }

  /** A signature covers both the path and the expiry: no two requests
      share a string-to-sign. */
  lemma StringToSignInjective(p1: string, e1: int, p2: string, e2: int)
    requires Int64(e1) && Int64(e2)
    requires StringToSign(p1, e1) == StringToSign(p2, e2)
    ensures p1 == p2 && e1 == e2
  {
    ItoaHasNoNewline(e1);
    ItoaHasNoNewline(e2);
    assert SignTail[0] == '\n';
    SplitAtNewline(SignHead, Itoa(e1), Itoa(e2), SignTail, p1, p2);
    ItoaAtoiRoundTrip(e1);
    ItoaAtoiRoundTrip(e2);
  }

  /** A field without newlines, followed by a newline, is determined by
      the text it sits in. */
  lemma SplitAtNewline(head: string, f1: string, f2: string, tail: string, p1: string, p2: string)
    requires head + f1 + tail + p1 == head + f2 + tail + p2
    requires |tail| > 0 && tail[0] == '\n' && '\n' !in f1 && '\n' !in f2
    ensures f1 == f2 && p1 == p2
  {
    var s := head + f1 + tail + p1;
    var s' := head + f2 + tail + p2;
    assert s[|head| + |f1|] == '\n';
    assert s'[|head| + |f2|] == '\n';
    assert forall j :: 0 <= j < |f1| ==> s[|head| + j] == f1[j];
    assert forall j :: 0 <= j < |f2| ==> s'[|head| + j] == f2[j];
    assert |f1| == |f2|;
    assert f1 == s[|head|..|head| + |f1|];
    assert f2 == s'[|head|..|head| + |f2|];
    assert p1 == s[|head| + |f1| + |tail|..];
    assert p2 == s'[|head| + |f2| + |tail|..];
  }

  /** The host part of every signed URL. */
  function Host(): string
  {
    "http://" + Bucket + "." + S3Loc
  }

  /** The query of a signed URL: the escaped signature, the expiry and the
      key id, in that order. */
  function Query(signature: string, exp: int, awsID: string): (q: string)
    ensures HasPrefix(q, "?Signature=" + signature + "&Expires=")
    ensures HasSuffix(q, "&Expires=" + Itoa(exp) + "&AWSAccessKeyId=" + awsID)
  {
    var q := "?Signature=" + signature + "&Expires=" + Itoa(exp) + "&AWSAccessKeyId=" + awsID;
    assert q == ("?Signature=" + signature + "&Expires=") + (Itoa(exp) + "&AWSAccessKeyId=" + awsID);
    assert q == ("?Signature=" + signature) + ("&Expires=" + Itoa(exp) + "&AWSAccessKeyId=" + awsID);
    q
  }

  /** `mkURL`. `mac(key, text)` is the HMAC-SHA1 of `text` under `key`,
      absent when writing to it fails; `b64` and `escape` are the Base64
      encoding and query escaping. A MAC failure gives the empty string. */
  function MkURL(awsID: string, awsKey: string, path: string, exp: int,
                 mac: (string, string) -> Option<string>, b64: string -> string,
                 escape: string -> string): (url: string)
    ensures url == "" <==> mac(awsKey, StringToSign(path, exp)).None?
    ensures url != "" ==>
              HasPrefix(url, Host() + path + "?Signature=" + escape(b64(mac(awsKey, StringToSign(path, exp)).value)))
    ensures url != "" ==>
              HasSuffix(url, "&Expires=" + Itoa(exp) + "&AWSAccessKeyId=" + awsID)
    ensures url != "" ==>
              |url| == |Host() + path + "?Signature=" + escape(b64(mac(awsKey, StringToSign(path, exp)).value))|
                       + |"&Expires=" + Itoa(exp) + "&AWSAccessKeyId=" + awsID|
    ensures url != "" && '?' !in path ==> BeforeFirst(url, '?') == Host() + path
  {
    match mac(awsKey, StringToSign(path, exp))
    case None => ""
    case Some(sig) =>
      var front := Host() + path;
      var q := Query(escape(b64(sig)), exp, awsID);
      UrlShape(front, q, "?Signature=" + escape(b64(sig)), "&Expires=" + Itoa(exp) + "&AWSAccessKeyId=" + awsID);
      HostHasNoQuery();
      front + q
  }

  lemma UrlShape(front: string, q: string, head: string, tail: string)
    requires HasPrefix(q, head + "&Expires=") && HasSuffix(q, tail) && |head| > 0 && head[0] == '?'
    ensures HasPrefix(front + q, front + head) && HasSuffix(front + q, tail)
    ensures '?' !in front ==> BeforeFirst(front + q, '?') == front
  {
    var url := front + q;
    assert q[..|head|] == (head + "&Expires=")[..|head|] == head;
    assert url[..|front + head|] == front + head;
    assert url[|url| - |tail|..] == q[|q| - |tail|..];
    BeforeQuery(front, url);
  }

  lemma BeforeQuery(front: string, url: string)
    requires HasPrefix(url, front) && |url| > |front| && url[|front|] == '?'
    ensures '?' !in front ==> BeforeFirst(url, '?') == front
  {
    assert forall i :: 0 <= i < |front| ==> url[i] == front[i];
  }

  lemma HostHasNoQuery()
    ensures '?' !in Host()
  {
    assert '?' !in Bucket;
    assert '?' !in S3Loc;
    assert '?' !in "http://";
  }

  /** `remote`: the forwarded-for header when set, else the peer address.
      The handler only writes it to its log line; no response depends on it. */
  function Remote(forwardedFor: string, remoteAddr: string): (r: string)
    ensures forwardedFor != "" ==> r == forwardedFor
    ensures forwardedFor == "" ==> r == remoteAddr
  {
    if forwardedFor == "" then remoteAddr else forwardedFor
  }

  /** `redirect`: a 302 to the signed URL for the request path after its
      first seven characters, valid for fifteen minutes from `now`. `None`
      is the panic of slicing a shorter path. */
  function RedirectTo(urlPath: string, now: int, awsID: string, awsKey: string,
                      mac: (string, string) -> Option<string>, b64: string -> string,
                      escape: string -> string): (r: Option<(int, string)>)
    ensures r.None? <==> |urlPath| < |RoutePrefix|
    ensures r.Some? ==> r.value.0 == 302
    ensures r.Some? ==> r.value.1 == MkURL(awsID, awsKey, urlPath[|RoutePrefix|..], now + ExpSeconds, mac, b64, escape)
  {
    if |urlPath| < |RoutePrefix| then None
    else Some((302, MkURL(awsID, awsKey, urlPath[|RoutePrefix|..], now + ExpSeconds, mac, b64, escape)))
  }

  /** A request for `/s3sign/x` signs `/x`. */
  lemma RouteSignsRest(rest: string, now: int, awsID: string, awsKey: string,
                       mac: (string, string) -> Option<string>, b64: string -> string,
                       escape: string -> string)
    requires mac(awsKey, StringToSign("/" + rest, now + ExpSeconds)).Some?
    requires '?' !in rest
    ensures var r := RedirectTo(RoutePrefix + "/" + rest, now, awsID, awsKey, mac, b64, escape);
      r.Some? && BeforeFirst(r.value.1, '?') == Host() + "/" + rest
  {
    var path := RoutePrefix + "/" + rest;
    assert path[|RoutePrefix|..] == "/" + rest;
    assert '?' !in "/" + rest;
  }
}

=== FILE: util.dfy ===
/** Small shared vocabulary: optional values, results, chunking of sequences
    and Go's integer division. */
module Util {

  /** A value that may be absent (Go's nil pointer, a missing map entry). */
  datatype Option<+T> = None | Some(value: T)

  /** The outcome of an operation that may fail with a message. */
  datatype Result<+T> = Ok(value: T) | Err(msg: string)

  /** Concatenation of a sequence of sequences. */
  function Flatten<T>(xss: seq<seq<T>>): seq<T>
  {
    if |xss| == 0 then [] else Flatten(xss[..|xss| - 1]) + xss[|xss| - 1]
  }

  lemma FlattenAppend<T>(xss: seq<seq<T>>, ys: seq<T>)
    ensures Flatten(xss + [ys]) == Flatten(xss) + ys
  {
    assert (xss + [ys])[..|xss|] == xss;
  }

  lemma {:induction false} FlattenPrepend<T>(xs: seq<T>, xss: seq<seq<T>>)
    ensures Flatten([xs] + xss) == xs + Flatten(xss)
    decreases |xss|
  {
    if |xss| == 0 {
      assert [xs] + xss == [xs];
      assert Flatten([xs]) == Flatten([]) + xs;
    } else {
      var init := xss[..|xss| - 1];
      var last := xss[|xss| - 1];
      assert [xs] + xss == ([xs] + init) + [last];
      assert xss == init + [last];
      FlattenAppend([xs] + init, last);
      FlattenAppend(init, last);
      FlattenPrepend(xs, init);
    }
  }

  /** Splits `xs` into consecutive pieces of `n` elements; the last piece may
      be shorter. An empty input gives no pieces at all. */
  function Chunks<T>(xs: seq<T>, n: nat): (r: seq<seq<T>>)
    requires n > 0
    ensures forall i :: 0 <= i < |r| ==> 0 < |r[i]| <= n
    ensures forall i :: 0 <= i < |r| - 1 ==> |r[i]| == n
    decreases |xs|
  {
    if |xs| == 0 then []
    else if |xs| <= n then [xs]
    else
      var rest := Chunks(xs[n..], n);
      var r := [xs[..n]] + rest;
      assert forall i :: 0 < i < |r| ==> r[i] == rest[i - 1];
      r
  }

  /** The pieces, put back together, are the input. */
  lemma {:induction false} ChunksFlatten<T>(xs: seq<T>, n: nat)
    requires n > 0
    ensures Flatten(Chunks(xs, n)) == xs
    decreases |xs|
  {
    if |xs| == 0 {
    } else if |xs| <= n {
      assert Flatten([xs]) == Flatten([]) + xs;
    } else {
      ChunksFlatten(xs[n..], n);
      FlattenPrepend(xs[..n], Chunks(xs[n..], n));
      assert xs == xs[..n] + xs[n..];
    }
  }

  /** True when every piece of the chunking is a full piece of `n`. */
  predicate AllFull<T>(xss: seq<seq<T>>, n: nat)
  {
    forall i :: 0 <= i < |xss| ==> |xss[i]| == n
  }

  /** An input of at least `n` elements starts with a full piece. */
  lemma ChunksHead<T>(xs: seq<T>, n: nat)
    requires 0 < n <= |xs|
    ensures Chunks(xs, n) == [xs[..n]] + Chunks(xs[n..], n)
  {
    if |xs| == n {
      assert xs[..n] == xs;
    }
  }

  /** Chunking a concatenation whose first part is made only of full pieces
      chunks the two parts separately. */
  lemma {:induction false} ChunksConcat<T>(a: seq<T>, b: seq<T>, n: nat)
    requires n > 0 && AllFull(Chunks(a, n), n)
    ensures Chunks(a + b, n) == Chunks(a, n) + Chunks(b, n)
    decreases |a|
  {
    if |a| == 0 {
      assert a + b == b;
    } else {
      FullChunksAreLong(a, n);
      var head, rest := a[..n], Chunks(a[n..], n);
      ChunksHead(a, n);
      AllFullTail(head, rest, n);
      ChunksConcat(a[n..], b, n);
      ChunksHeadOfConcat(a, b, n);
      assert [head] + (rest + Chunks(b, n)) == ([head] + rest) + Chunks(b, n);
    }
  }

  lemma FullChunksAreLong<T>(a: seq<T>, n: nat)
    requires 0 < n && 0 < |a| && AllFull(Chunks(a, n), n)
    ensures n <= |a|
  {
    if |a| <= n {
      assert Chunks(a, n) == [a];
      assert Chunks(a, n)[0] == a;
    }
  }

  lemma ChunksHeadOfConcat<T>(a: seq<T>, b: seq<T>, n: nat)
    requires 0 < n <= |a|
    ensures Chunks(a + b, n) == [a[..n]] + Chunks(a[n..] + b, n)
  {
    ChunksHead(a + b, n);
    assert (a + b)[..n] == a[..n];
    assert (a + b)[n..] == a[n..] + b;
  }

  lemma AllFullTail<T>(x: seq<T>, rest: seq<seq<T>>, n: nat)
    requires AllFull([x] + rest, n)
    ensures AllFull(rest, n)
  {
    assert forall i :: 0 <= i < |rest| ==> rest[i] == ([x] + rest)[i + 1];
  }

  /** Appending one piece of at most `n` to an input made only of full
      pieces appends that piece to its chunking. */
  lemma ChunksAppend<T>(a: seq<T>, b: seq<T>, n: nat)
    requires n > 0 && AllFull(Chunks(a, n), n) && 0 < |b| <= n
    ensures Chunks(a + b, n) == Chunks(a, n) + [b]
  {
    ChunksConcat(a, b, n);
  }

  /** Full pieces of `n` flatten to `n` elements each. */
  lemma {:induction false} FullFlattenLength<T>(xss: seq<seq<T>>, n: nat)
    requires AllFull(xss, n)
    ensures |Flatten(xss)| == n * |xss|
    decreases |xss|
  {
    if |xss| > 0 {
      FullFlattenLength(xss[..|xss| - 1], n);
    }
  }

  /** Go's `/` on int: the quotient truncated toward zero. */
  function GoDiv(a: int, b: int): (q: int)
    requires b != 0
    ensures b > 0 && a >= 0 ==> q == a / b
    ensures b > 0 && a < 0 ==> q == -((-a) / b)
    ensures b > 0 ==> (if a >= 0 then q * b <= a else q * b >= a)
  {
    if a >= 0 then (if b > 0 then a / b else -(a / (-b)))
    else (if b > 0 then -((-a) / b) else (-a) / (-b))
  }

  /** The smaller of two integers. */
  function Min(a: int, b: int): int
  {
    if a <= b then a else b
  }
}

=== FILE: westspy.dfy ===
/** The earlier revision of the sensor pipeline (`westspy/input.go`). Input
    handling is the same validation-and-enqueue loop without the address
    whitelist; batch processing merges the same way but writes without
    expiry, persists nothing, panics on a failed cache write, and the drain
    runs until a lease comes back empty. Its readings (`westspy/data.go`)
    are the `HouseData` readings. */
module Westspy {
  import opened Util
  import opened Memcache
  import opened HouseIngest
  import opened HouseData
  import opened HouseBatch

  /** `handleInput`: no whitelist, so never 403. */
  method HandleInput(p: Parsers, sns: seq<string>, tss: seq<string>, rs: seq<string>, addOk: nat -> bool)
    returns (resp: Response)
    ensures resp == IngestOutcome(p, sns, tss, rs, addOk)
    ensures resp.Response? ==> resp.status in {202, 400, 500}
  {
    resp := Ingest(p, sns, tss, rs, addOk);
  }

  /** The cache after a non-empty westspy batch has been written back. */
  function WestCache(tasks: seq<Task>, env: Env, st: State): Cache
  {
    var rs := Payloads(tasks);
    SetMulti(st.cache, MergedItems(rs, GetMulti(st.cache, FetchKeys(rs), env.getOk), 0, 0))
  }

  /** `processBatch`: any failing write or delete panics, leaving the
      batch queued (and, when only the delete fails, the cache written);
      otherwise the whole batch is processed. */
  function ProcessBatch(env: Env, st: State): (res: BatchResult)
    ensures env.lease.Err? ==> res == Returned(0, Some(env.lease.msg), st)
    ensures env.lease == Ok([]) ==> res == Returned(0, None, st)
    ensures res.Panicked? <==>
              env.lease.Ok? && |env.lease.value| > 0 && !(env.setOk && env.deleteOk)
    ensures res.Returned? && res.err.None? ==>
              env.lease.Ok? && res.n == |env.lease.value|
              && res.after.queue == st.queue - multiset(env.lease.value)
    ensures env.lease.Ok? && |env.lease.value| > 0 && env.setOk && env.deleteOk ==>
              res == Returned(|env.lease.value|, None,
                              State(st.queue - multiset(env.lease.value), WestCache(env.lease.value, env, st)))
    ensures res.Returned? && res.err.Some? ==> env.lease.Err?
    ensures res.Returned? && res.n > 0 ==> res.after.cache == WestCache(env.lease.value, env, st)
    ensures res.Panicked? ==>
              res.after == State(st.queue, if env.setOk then WestCache(env.lease.value, env, st) else st.cache)
  {
    match env.lease
    case Err(e) => Returned(0, Some(e), st)
    case Ok(tasks) =>
      if |tasks| == 0 then Returned(0, None, st)
      else if !env.setOk then Panicked(st)
      else if !env.deleteOk then Panicked(State(st.queue, WestCache(tasks, env, st)))
      else Returned(|tasks|, None, State(st.queue - multiset(tasks), WestCache(tasks, env, st)))
  }

  /** The westspy step accounts for the queue like the house one. */
  lemma WestBatchAccounts()
    ensures QueueAccounting(ProcessBatch)
  {
  }

  /** When both revisions complete a batch, they leave the same queue and
      the same cache: expiries are the only difference in what they write. */
  lemma SameWritesAsHouse(env: Env, st: State)
    requires env.lease.Ok? && |env.lease.value| > 0 && env.setOk && env.deleteOk
    requires !PersistFails(Payloads(env.lease.value), env)
    ensures ProcessBatch(env, st) == HouseBatch.ProcessBatch(env, st)
  {
    CachesAgree(env.lease.value, env, st);
  }

  lemma CachesAgree(tasks: seq<Task>, env: Env, st: State)
    requires env.setOk
    ensures WestCache(tasks, env, st) == WrittenCache(tasks, env, st)
  {
    var rs := Payloads(tasks);
    var fetched := GetMulti(st.cache, FetchKeys(rs), env.getOk);
    SameItemValues(rs, fetched, st.cache);
  }

  /** Items that differ only in expiry write the same cache. */
  lemma SameItemValues(rs: seq<Reading>, fetched: Cache, cache: Cache)
    ensures SetMulti(cache, MergedItems(rs, fetched, 0, 0))
         == SetMulti(cache, MergedItems(rs, fetched, CurrentExpiry, SensorExpiry))
  {
    var west := MergedItems(rs, fetched, 0, 0);
    var house := MergedItems(rs, fetched, CurrentExpiry, SensorExpiry);
    forall k | k in west
      ensures k in house && west[k].value == house[k].value
    {
      if k != CurrentKey {
        var sn :| sn in Leased(rs) && SeriesKey(sn) == k;
      }
    }
    SetMultiIgnoresExpiry(cache, west, house);
  }

  /** `consumeInput`'s loop over a batch step: stops on an error or on a
      batch that processed nothing. */
  function ConsumeLoop(step: (Env, State) -> BatchResult, envs: seq<Env>, st: State, done: nat): (d: Drain)
    ensures d.Finished? && d.err.None? ==>
      exists k :: 0 <= k < |envs| && step(envs[k], StateBefore(step, envs, st, k)).Returned?
                  && step(envs[k], StateBefore(step, envs, st, k)).err.None?
                  && step(envs[k], StateBefore(step, envs, st, k)).n == 0
    decreases |envs|
  {
    if |envs| == 0 then Unfinished(st, done)
    else
      match step(envs[0], st)
      case Panicked(wrote) => DrainPanicked(wrote)
      case Returned(n, err, next) =>
        if err.Some? then Finished(err, next, done)
        else if n == 0 then Finished(None, next, done)
        else
          var d := ConsumeLoop(step, envs[1..], next, done + n);
          if d.Finished? && d.err.None? then
            var k :| 0 <= k < |envs[1..]| && step(envs[1..][k], StateBefore(step, envs[1..], next, k)).Returned?
                     && step(envs[1..][k], StateBefore(step, envs[1..], next, k)).err.None?
                     && step(envs[1..][k], StateBefore(step, envs[1..], next, k)).n == 0;
            assert StateBefore(step, envs, st, k + 1) == StateBefore(step, envs[1..], next, k);
            d
          else d
  }

  /** The loop of `consumeInput` over a batch step. */
  method ConsumeLoopRun(step: (Env, State) -> BatchResult, envs: seq<Env>, st: State) returns (d: Drain)
    ensures d == ConsumeLoop(step, envs, st, 0)
  {
    var k := 0;
    var cur := st;
    var done: nat := 0;
    while k < |envs|
      invariant 0 <= k <= |envs|
      invariant ConsumeLoop(step, envs, st, 0) == ConsumeLoop(step, envs[k..], cur, done)
    {
      assert envs[k..][1..] == envs[k + 1..];
      var res := step(envs[k], cur);
      if res.Panicked? {
        return DrainPanicked(res.after);
      }
      if res.err.Some? || res.n == 0 {
        return Finished(res.err, res.after, done);
      }
      cur := res.after;
      done := done + res.n;
      k := k + 1;
    }
    return Unfinished(cur, done);
  }

  /** `consumeInput`: 500 on an error, 204 once a batch processes nothing. */
  method ConsumeInput(envs: seq<Env>, st: State) returns (status: Option<int>, d: Drain)
    ensures d == ConsumeLoop(ProcessBatch, envs, st, 0)
    ensures status == ConsumeStatus(d)
  {
    d := ConsumeLoopRun(ProcessBatch, envs, st);
    status := ConsumeStatus(d);
  }

  /** A step that reports "nothing processed" without error only for an
      empty lease. */
  ghost predicate ZeroOnlyWhenEmpty(step: (Env, State) -> BatchResult)
  {
    forall env, st :: step(env, st).Returned? && step(env, st).err.None? && step(env, st).n == 0
      ==> env.lease == Ok([])
  }

  lemma WestZeroOnlyWhenEmpty()
    ensures ZeroOnlyWhenEmpty(ProcessBatch)
  {
  }

  /** With the westspy step, a clean finish means some lease came back
      empty: batches of any size below 1000 keep the drain going. */
  lemma CleanFinishMeansEmptyLease(envs: seq<Env>, st: State)
    ensures var d := ConsumeLoop(ProcessBatch, envs, st, 0);
      d.Finished? && d.err.None? ==> exists k :: 0 <= k < |envs| && envs[k].lease == Ok([])
  {
    WestZeroOnlyWhenEmpty();
    EmptyLeaseEndsLoop(ProcessBatch, envs, st);
  }

  lemma EmptyLeaseEndsLoop(step: (Env, State) -> BatchResult, envs: seq<Env>, st: State)
    requires ZeroOnlyWhenEmpty(step)
    ensures var d := ConsumeLoop(step, envs, st, 0);
      d.Finished? && d.err.None? ==> exists k :: 0 <= k < |envs| && envs[k].lease == Ok([])
  {
    var d := ConsumeLoop(step, envs, st, 0);
    if d.Finished? && d.err.None? {
      var k :| 0 <= k < |envs| && step(envs[k], StateBefore(step, envs, st, k)).Returned?
               && step(envs[k], StateBefore(step, envs, st, k)).err.None?
               && step(envs[k], StateBefore(step, envs, st, k)).n == 0;
    }
  }
}
